=== FILE: README.md ===
# yadi-lp-bot core, modelled in Dafny

yadi-lp-bot is a Telegram bot that watches a public Yandex.Disk folder of
lecture and seminar recordings. When a new file appears there, the bot tells
every student it concerns. This project models that pipeline as pure
functions over immutable data and proves what each step promises.

- **Path parsing** (`PathParser`, `LessonDates`). From a file's path the bot
  reads the subject folder, the topic (lecture or seminar), the study group
  (both the resolved group and the raw group-like folder name), the
  teacher's surname and initials, and the lesson date, in three layouts.
  It also builds the public link to the file.
- **The disk watcher** (`LongPoll`). It lists folders page by page and walks
  the tree breadth-first. It keeps the files modified after the checkpoint,
  queues one task per such file and moves the checkpoint forward.
- **Distribution** (`NotificationService`). Each queued task is checked
  against every user:
  - notifications enabled;
  - a course set;
  - the group rule;
  - the course's subject list;
  - excluded subjects;
  - the per-user duplicate set.
  A notification is stored for each user who passes, timed by the user's
  delivery mode: at once, at a time of day, or within a daily window.
- **Storage** (`NotificationStore`). This is the Redis layout: prefixed
  keys, the task queue, one per-user schedule sorted by delivery instant,
  per-user sent sets and per-notification status records.
- **Delivery** (`Scheduler`). A background service that can be started and
  stopped. Each pass takes the due notifications off the schedules,
  attempts each one, and records it as sent or failed. The message text is
  built here.
- **Presentation helpers**:
  - message formatting, hashtags and human-readable numbers and ages
    (`Formatting`);
  - the time-picker widget (`TimePicker`);
  - pagination (`Pagination`);
  - sorting users (`Sorting`);
  - role checks (`Permissions`);
  - the statistics snapshot (`Statistics`).
- **Entities** (`Mappings`, `Courses`, `Users`, `Notifications`). These hold
  the study groups, courses, subjects and their display titles, user
  profiles and notification records.

Conventions used throughout:
- An instant is an `int` count of seconds of naive local time. The current
  time is always a parameter.
- Clock times and calendar dates are the subset types of `Clock`.
- Python truthiness of an optional string is `Text.Truthy`: present and
  non-empty.
- Things the code takes from outside become parameters. These are the
  listing responses, the send outcomes, the order in which a Redis scan or a
  set iteration visits things, the URL quoting function and the ISO
  timestamp parser.

Three facts about the code that shape the model:
- The watcher's checkpoint is the newest modification time among the new
  files, and it is written only when some file was new
  (src/bot/application/services/long_poll.py:64-71).
- A crawl keeps only the new tasks and that newest time; it counts nothing
  per group (src/bot/application/services/long_poll.py:50-73).
- A delivery window includes its end instant `HH:MM:00` and nothing later
  in that minute (src/bot/application/services/notification.py:177-182).

## Model

| member | source | states |
|---|---|---|
| PathParser.Normalize | src/bot/common/utils/path_parser.py:68 | backslashes become forward slashes, position by position, nothing else changes |
| PathParser.Segments | src/bot/common/utils/path_parser.py:68 | the segments of a path are non-empty and contain no separator of either kind |
| PathParser.SegmentsAppend | src/bot/common/utils/path_parser.py:68 | joining two paths with either separator concatenates their segment lists |
| PathParser.NormalizeIdempotent | src/bot/common/utils/path_parser.py:68 | normalising twice equals normalising once, and a normalised path has the same segments |
| PathParser.ExtractSubject | src/bot/common/utils/path_parser.py:52-75 | None exactly when no segment is a SUBJECTS key; otherwise a SUBJECTS key that occurs as a segment with no SUBJECTS key after it |
| PathParser.SubjectDeeperWins | src/bot/common/utils/path_parser.py:68-71 | in `a/b` the subject from `b` wins over the subject from `a` |
| PathParser.StrippedSegments | src/bot/common/utils/path_parser.py:90 | the stripped segments line up one-to-one with the segments |
| PathParser.ExtractTopic | src/bot/common/utils/path_parser.py:78-96 | None exactly when no stripped segment is a TOPICS key; a value found is a TOPICS key |
| PathParser.TopicIsFirst | src/bot/common/utils/path_parser.py:90-93 | a topic found is the first stripped segment, from the root, that is a TOPICS key |
| PathParser.TopicRootWins | src/bot/common/utils/path_parser.py:90-93 | in `a/b` a topic found in `a` wins over one in `b` |
| PathParser.ExtractGroup | src/bot/common/utils/path_parser.py:99-124 | None exactly when no segment is a StudyGroups value; otherwise the group of the first such segment from the root |
| PathParser.GroupRootWins | src/bot/common/utils/path_parser.py:116-121 | in `a/b` a group found in `a` wins over one in `b` |
| PathParser.ExtractGroupRaw | src/bot/common/utils/path_parser.py:127-146 | None exactly when no segment matches the group-code pattern (case-insensitive, an optional final newline allowed); otherwise the first matching segment |
| PathParser.GroupValueShaped | src/bot/domain/entities/mappings.py:6-15 | every StudyGroups value matches the raw group-code pattern |
| PathParser.GroupImpliesRaw | src/bot/common/utils/path_parser.py:99-146 | any path that yields a resolved group also yields a raw group |
| PathParser.UnknownGroupIsRaw | src/bot/common/utils/path_parser.py:99-146 | a group-shaped folder that is not a known group is returned as the raw group, and no resolved group is found |
| PathParser.GroupShapedNotValue | src/bot/common/utils/path_parser.py:116-146 | a segment that is not group-shaped is never a StudyGroups value |
| PathParser.Bknad999IsUnknown | src/bot/common/utils/path_parser.py:127-146 | a concrete group-shaped code that is not a known group exists |
| PathParser.RunLength | src/bot/common/utils/path_parser.py:164 | the run found is maximal: every character in it satisfies the class and the next one does not |
| PathParser.ExtractTeacher | src/bot/common/utils/path_parser.py:149-170 | a teacher found is a prefix of the file name at least six characters long |
| PathParser.TeacherMatchEnd | src/bot/common/utils/path_parser.py:164-168 | a match covers at least a one-letter word, one space and two initials, and lies inside the name |
| PathParser.TeacherMatchStripped | src/bot/common/utils/path_parser.py:164-168 | the matched prefix is left unchanged by stripping |
| PathParser.TeacherSound | src/bot/common/utils/path_parser.py:164-168 | every teacher found is a prefix of the form Russian word, whitespace, capital, dot, capital, dot |
| PathParser.TeacherComplete | src/bot/common/utils/path_parser.py:164-168 | every name that starts with such a prefix yields exactly that prefix |
| PathParser.TeacherShapeUnique | src/bot/common/utils/path_parser.py:164 | the word and the whitespace of the match are the maximal runs, so a name has at most one match |
| PathParser.TeacherPrefixStripped | src/bot/common/utils/path_parser.py:168 | the `.strip()` applied to the match changes nothing |
| PathParser.NoTeacherWithoutRussianWord | src/bot/common/utils/path_parser.py:164-170 | an empty name, or one that does not start with a Russian letter, has no teacher |
| PathParser.LastRead | src/bot/common/utils/path_parser.py:261-265 | the value comes from the last segment that yields one; None exactly when no segment yields one |
| PathParser.ExtractDateFromPath | src/bot/common/utils/path_parser.py:252-266 | a path with no segment carrying a date gives None, as does the empty path; a date found is a real calendar date |
| PathParser.ExtractDateFromFilename | src/bot/common/utils/path_parser.py:233-249 | a date found is a real calendar date |
| PathParser.FilenameDateIsPathDate | src/bot/common/utils/path_parser.py:233-266 | for a bare file name the two readers agree |
| PathParser.DateDeeperWins | src/bot/common/utils/path_parser.py:261-265 | in `a/b` a date found in `b` wins over one in `a` |
| PathParser.BuildPublicFileUrl | src/bot/common/utils/path_parser.py:31-49 | the root link is cut at its first `?` and its trailing slashes are dropped; then `/` and the quoted path without leading slashes follow |
| PathParser.SplitFirstIsPrefix | src/bot/common/utils/path_parser.py:43 | the part before the first separator is a prefix of the input |
| LessonDates.FieldsAt | src/bot/common/utils/path_parser.py:198-225 | hour and minute are captured together; seconds only with them; every field lies within its digit width |
| LessonDates.SearchFrom | src/bot/common/utils/path_parser.py:198-228 | the leftmost match at or after the start position, or none at all |
| LessonDates.Search | src/bot/common/utils/path_parser.py:198-228 | None exactly when the layout matches nowhere in the text |
| LessonDates.BuildDateTime | src/bot/common/utils/path_parser.py:175-179 | absent time parts become 0; the result is present exactly when the fields form a real date and time |
| LessonDates.DateFromText | src/bot/common/utils/path_parser.py:182-230 | the layouts are tried in order and the first whose leftmost match is a real date wins; None exactly when the text is empty or no layout yields a date |
| LessonDates.IsoRoundTrip | src/bot/common/utils/path_parser.py:197-206 | a full `YYYY-MM-DD HH:MM:SS` timestamp reads back as itself |
| LessonDates.DayFirstRoundTrip | src/bot/common/utils/path_parser.py:208-217 | a bare `DD.MM.YYYY` date reads back as that day at midnight |
| LessonDates.YearFirstRoundTrip | src/bot/common/utils/path_parser.py:219-228 | a bare `YYYY.MM.DD` date reads back as that day at midnight |
| LessonDates.Num2IsInt | src/bot/common/utils/path_parser.py:200-203 | the two-digit value read is what `int()` makes of the captured text |
| LessonDates.Num4IsInt | src/bot/common/utils/path_parser.py:200-203 | the four-digit value read is what `int()` makes of the captured text |
| LongPoll.FetchDirectory | src/bot/application/services/long_poll.py:93-133 | requests go at offsets 0, 200, 400, … and stop at the first failure, empty page or short page; the items equal the reference collection of the pages before the stop |
| LongPoll.FetchAllFiles | src/bot/application/services/long_poll.py:75-91 | the root listing's own files come first, and only files are yielded |
| LongPoll.WalkFilesOnly | src/bot/application/services/long_poll.py:85-89 | the walk never yields a directory |
| LongPoll.WalkFindsEveryFile | src/bot/application/services/long_poll.py:75-91 | the breadth-first walk yields exactly the files of the tree, each as often as it occurs (a multiset equal to a depth-first reference) |
| LongPoll.CreateTask | src/bot/application/services/long_poll.py:135-164 | name, path, URLs, md5, resource id and modification time are copied; the subject is read off the path; every other field is absent |
| LongPoll.ScanNewest | src/bot/application/services/long_poll.py:64-66 | the running newest time ends at or after every new file's time |
| LongPoll.ScanNewestIsAFile | src/bot/application/services/long_poll.py:64-66 | a newest time the scan moved to is the time of some new file |
| LongPoll.CheckForNewFiles | src/bot/application/services/long_poll.py:42-73 | the count is the number of new files; only the queue changes; with nothing new, neither the store nor the checkpoint changes |
| LongPoll.TasksOneEach | src/bot/application/services/long_poll.py:67-68 | one task per file, in order |
| LongPoll.PassTasksAreNewFiles | src/bot/application/services/long_poll.py:53-71 | the tasks appended behind the queued ones are exactly those of the files newer than the checkpoint, in walk order |
| LongPoll.NewFilesAreNew | src/bot/application/services/long_poll.py:53-62 | a file is selected exactly when there is no checkpoint or it was modified strictly after it |
| LongPoll.CheckpointAdvances | src/bot/application/services/long_poll.py:64-71 | the checkpoint never moves back; once moved it is the newest new file's time and no listed file is after it |
| LongPoll.NoNewFiles | src/bot/application/services/long_poll.py:53-62 | with every file at or before the checkpoint, nothing is new |
| LongPoll.SecondPassIsQuiet | src/bot/application/services/long_poll.py:42-73 | a second pass over the same listing queues nothing and leaves the checkpoint where the first pass put it |
| NotificationService.ShouldNotify | src/bot/application/services/notification.py:60-87 | true exactly when every rule passes and the file is not in the user's sent set; the sent set is touched only when every other rule passed |
| NotificationService.NeverNotified | src/bot/application/services/notification.py:63-81 | notifications off, no course, or an excluded subject means refusal, and the store is unchanged |
| NotificationService.RepeatRefused | src/bot/application/services/notification.py:83-85 | after a user is notified of a file, asking again is refused and changes nothing |
| NotificationService.CourseRuleSimplified | src/bot/application/services/notification.py:106-120 | because every course has a subject list, the course rule holds exactly when the task's subject is in the user's course list |
| NotificationService.UngroupedTaskForEveryone | src/bot/application/services/notification.py:89-104 | a task with neither a group nor a raw group passes the group rule for every user |
| NotificationService.GroupedTaskForMembers | src/bot/application/services/notification.py:89-104 | a task of a known group passes the group rule exactly for members of that group |
| NotificationService.NextScheduledTime | src/bot/application/services/notification.py:148-162 | the result is strictly after now and at most a day later, shows the target clock time, and is today's occurrence when that is still ahead |
| NotificationService.NextScheduledIsEarliest | src/bot/application/services/notification.py:148-162 | no earlier instant after now shows the target clock time |
| NotificationService.NextWindowTime | src/bot/application/services/notification.py:164-191 | the result is never before now; it equals now exactly inside today's window, both ends included; a window ending before it starts is never "inside" |
| NotificationService.WindowFallsBackToStart | src/bot/application/services/notification.py:186-191 | outside the window the result is the next occurrence of the window's start |
| NotificationService.SendTime | src/bot/application/services/notification.py:122-146 | the result is never before now; it is immediate unless a mode is set together with its time or window, in which case it is that mode's next instant |
| NotificationService.OfferToUser | src/bot/application/services/notification.py:39-53 | a notification is stored exactly when the rules pass and the file is new to the user; it is pending, for that user, timed by SendTime, and sits in that user's schedule at that instant; only that user's sent set grows; other users' schedules and the status records are unchanged; the user's schedule keeps every earlier entry and gains no other one |
| NotificationService.OfferStep | src/bot/application/services/notification.py:39-53 | one offer keeps every stored notification valid, recorded as sent, unrepeated and present in its user's schedule; the only file it records is the task's, and the notification it saves carries it |
| NotificationService.OfferTask | src/bot/application/services/notification.py:39-53 | after one task is offered to every user, each eligible user has the file recorded; each eligible user who had not yet been sent the file holds a stored notification of that task; no user holds a file twice; every saved notification sits in its user's schedule; and (`PassFramed`) every notification saved in this pass carries a file not yet sent to its user before it; the status records are unchanged; every earlier schedule entry stays unless its notification is one of those saved; sent sets only grow, and every newly sent file is carried by a saved notification |
| NotificationService.ProcessQueue | src/bot/application/services/notification.py:29-58 | exactly `batchSize` tasks are drained (none when it is 0 or less, all when the queue is shorter), a prefix of the queue; every stored notification is valid and sits in its user's schedule; every eligible (task, user) pair is covered, and each pair whose file the user had not been sent before has a saved notification for that file; no user gets one file twice; the count returned is the number stored; and (`Framed`) no saved notification carries a file already sent to its user before the run, the status records are unchanged, every earlier schedule entry stays unless its notification is one of those saved, sent sets only grow, and every newly sent file is carried by a saved notification |
| NotificationService.StepStored | src/bot/application/services/notification.py:39-53 | one offer keeps every earlier notification in its user's schedule and places the new one in its user's schedule |
| NotificationService.StepExplained | src/bot/application/services/notification.py:39-53 | the only file one offer records is the offered task's, and the notification the offer saved carries it to that user |
| NotificationService.ExplainedForTrans | src/bot/application/services/notification.py:39-53 | files recorded over two consecutive stretches of one task's pass are all that task's file, each carried by a saved notification |
| NotificationService.TaskReachesEveryone | src/bot/application/services/notification.py:39-53 | after a pass over the users, each eligible user who had not been sent the file holds a saved notification of that task |
| NotificationService.EveryPairReached | src/bot/application/services/notification.py:37-53 | after the drain, each eligible (task, user) pair whose file was new to the user has a saved notification for that file |
| NotificationService.ProcessQueueAsWritten | src/bot/application/services/notification.py:37 | as written the run raises before any task is read: it returns no count and leaves the store, its sent sets and its schedules as they were |
| NotificationService.ProcessQueueAsWrittenDiffers | src/bot/application/services/notification.py:29-58 | with a task at the head of the queue that an eligible user has not been sent, the intended drain records it for that user and counts at least one notification, while the run as written records nothing |
| NotificationService.SentGrows | src/bot/application/services/notification.py:84 | facts about sent sets survive any growth of those sets |
| NotificationService.AppendKeepsNoRepeats | src/bot/application/services/notification.py:84 | adding a notification whose file is new to its user keeps every user's files distinct |
| NotificationStore.NormalizePrefix | src/bot/infrastructure/repositories/notification.py:16-18 | the prefix keeps no trailing colon and no leading whitespace |
| NotificationStore.Key | src/bot/infrastructure/repositories/notification.py:23-24 | the base name alone when the prefix is empty, otherwise prefix, a colon, then the base |
| NotificationStore.KeyInjective | src/bot/infrastructure/repositories/notification.py:23-36 | under one prefix equal keys have equal base names |
| NotificationStore.UserKeyInjective | src/bot/infrastructure/repositories/notification.py:29-30 | each user has a schedule key of their own |
| NotificationStore.SentKeyInjective | src/bot/infrastructure/repositories/notification.py:32-33 | each user has a sent-set key of their own |
| NotificationStore.KeyDistinct | src/bot/infrastructure/repositories/notification.py:23-24 | different base names never collide under one prefix |
| NotificationStore.KeyKindsDistinct | src/bot/infrastructure/repositories/notification.py:26-36 | a schedule key is never a sent-set key or the queue key |
| NotificationStore.PushToQueue | src/bot/infrastructure/repositories/notification.py:38-45 | the tasks join the tail in order; nothing else changes |
| NotificationStore.PopFromQueue | src/bot/infrastructure/repositories/notification.py:47-54 | what is popped followed by what remains is the old queue; the number popped is min(batch size, queue length), 0 for a non-positive size |
| NotificationStore.FreshIdInjective | src/bot/infrastructure/repositories/notification.py:57-58 | different counters give different ids |
| NotificationStore.Position | src/bot/infrastructure/repositories/notification.py:61 | entries before the position score no more than the new score, entries after it score more |
| NotificationStore.Insert | src/bot/infrastructure/repositories/notification.py:61 | the schedule stays sorted and gains exactly the new entry |
| NotificationStore.Without | src/bot/infrastructure/repositories/notification.py:61 | the schedule stays sorted and loses exactly that notification's entries |
| NotificationStore.Reschedule | src/bot/infrastructure/repositories/notification.py:61 | the notification sits at the new score; every other entry is kept and no other is added |
| NotificationStore.SaveUserNotification | src/bot/infrastructure/repositories/notification.py:56-61 | an id is given only when missing, and it is fresh; the notification is stored under its scheduled instant, or now, and an earlier entry of the same notification is moved rather than kept; every other entry of that user's schedule stays and no other entry appears; other users' schedules and the other tables are unchanged |
| NotificationStore.Due | src/bot/infrastructure/repositories/notification.py:69 | the reference reading of the range query: exactly the entries scoring between 0 and `before` |
| NotificationStore.TakeDue | src/bot/infrastructure/repositories/notification.py:69-72 | at most `limit` due entries are taken; what is taken plus what stays is the schedule as a multiset |
| NotificationStore.TakeDueSorted | src/bot/infrastructure/repositories/notification.py:69-72 | both the part taken and the part kept are in score order |
| NotificationStore.TakeDueIsDuePrefix | src/bot/infrastructure/repositories/notification.py:69 | the entries taken are exactly the first `limit` due entries in score order |
| NotificationStore.NothingDueAfter | src/bot/infrastructure/repositories/notification.py:69 | a sorted schedule whose first score is past `before` has nothing due |
| NotificationStore.Notes | src/bot/infrastructure/repositories/notification.py:70-72 | the notifications are read off the entries one for one |
| NotificationStore.GetDueNotifications | src/bot/infrastructure/repositories/notification.py:63-76 | everything yielded is due, at most `limit` per visited key; only the schedules change and they stay well formed |
| NotificationStore.TakeFrom | src/bot/infrastructure/repositories/notification.py:67-72 | visiting one key takes that user's first due entries and leaves every other schedule alone |
| NotificationStore.GetDueYieldsDuePrefix | src/bot/infrastructure/repositories/notification.py:63-76 | what a user visited once receives is exactly the first `limit` due entries of their schedule, in score order (fewer when fewer are due); a user never visited receives nothing |
| NotificationStore.GetDueConserves | src/bot/infrastructure/repositories/notification.py:63-76 | for every user, the old schedule equals the new schedule plus what was yielded for that user, as multisets |
| NotificationStore.DedupKey | src/bot/infrastructure/repositories/notification.py:90 | md5 if present, else the resource id, else path and modification time; never empty |
| NotificationStore.IsDuplicate | src/bot/infrastructure/repositories/notification.py:88-95 | true exactly when the file is in the user's sent set; afterwards it is in the set; other users and other tables are untouched |
| NotificationStore.IsDuplicateTwice | src/bot/infrastructure/repositories/notification.py:88-95 | the second call about the same file always answers yes and changes nothing |
| NotificationStore.SameFileSameKey | src/bot/infrastructure/repositories/notification.py:90 | two tasks with the same md5 share one dedup key |
| NotificationStore.MarkAsSent | src/bot/infrastructure/repositories/notification.py:78-81 | the record gets status "sent" and the send time; its other fields and all other records are unchanged |
| NotificationStore.MarkAsFailed | src/bot/infrastructure/repositories/notification.py:83-86 | the record gets status "failed", the error text and the time; its other fields and all other records are unchanged |
| Scheduler.Start | src/bot/application/services/scheduler.py:27-33 | a running service is left as it is; otherwise exactly one new loop is created and the service runs |
| Scheduler.Stop | src/bot/application/services/scheduler.py:35-44 | the service stops and its last loop is cancelled |
| Scheduler.StartKeepsSound | src/bot/application/services/scheduler.py:27-33 | starting keeps the invariant that exactly the current loop is alive while the service runs |
| Scheduler.StopKeepsSound | src/bot/application/services/scheduler.py:35-44 | stopping keeps that invariant: no loop is alive once stopped |
| Scheduler.StoppedIsSound | src/bot/application/services/scheduler.py:15-25 | a freshly constructed service satisfies the invariant |
| Scheduler.AtMostOneLoop | src/bot/application/services/scheduler.py:27-44 | a sound service never has two loops alive |
| Scheduler.StartIdempotent | src/bot/application/services/scheduler.py:29-30 | starting twice is starting once |
| Scheduler.RestartCreatesFreshLoop | src/bot/application/services/scheduler.py:27-44 | after a stop, starting creates a new loop and the old one stays cancelled |
| Scheduler.CountDelivered | src/bot/application/services/scheduler.py:67 | the count never exceeds the number of attempts |
| Scheduler.MarkedIds | src/bot/application/services/scheduler.py:66 | every present, non-empty id of the batch is among the ids written |
| Scheduler.Attempt | src/bot/application/services/scheduler.py:64-74 | a usable id gets a sent or failed record matching the outcome; without one nothing changes; other records are untouched |
| Scheduler.DeliverAll | src/bot/application/services/scheduler.py:64-74 | sent plus failed is the number of attempts; sent is the number that went through; each usable id carries the record of its last attempt; other records are untouched |
| Scheduler.SendDueNotifications | src/bot/application/services/scheduler.py:56-79 | the batch is exactly the due notifications taken off the schedules (100 per user), and is then delivered as DeliverAll states; the queue and sent sets are untouched |
| Scheduler.PassSendsOnlyDue | src/bot/application/services/scheduler.py:64 | nothing is attempted before its delivery instant |
| Scheduler.AllDeliveredNoneFailed | src/bot/application/services/scheduler.py:64-74 | all attempts counted as sent exactly when every attempt went through |
| Scheduler.Link | src/bot/application/services/scheduler.py:132 | the download URL if present, else the public URL, else empty |
| Scheduler.MessageLines | src/bot/application/services/scheduler.py:93-157 | the formatter's shared lines, then one watch link when there is a URL, otherwise the file name; never a download line |
| Scheduler.LastLine | src/bot/application/services/scheduler.py:153-156 | appending the link line adds exactly one line of its kind |
| Scheduler.SameHeader | src/bot/application/services/scheduler.py:135-151 | the scheduler's message and the formatter's message agree on every line before their links |
| Scheduler.NoLinkSameMessage | src/bot/application/services/scheduler.py:152-156 | without any URL the scheduler's message is exactly the formatter's |
| Scheduler.DownloadPreferred | src/bot/application/services/scheduler.py:132 | with a download URL the scheduler links to it, where the formatter adds a separate download line |
| Formatting.FmtInt | src/bot/common/utils/formatting.py:38-48 | with the spaces taken out it is the decimal numeral; the spaces fall every three digits from the right; the text opens with a digit, or with `-` and then a digit, never with a separator |
| Formatting.GroupDigitsFirst | src/bot/common/utils/formatting.py:44 | a digit grouping starts with the first digit, never with a separator |
| Formatting.FmtIntRoundTrip | src/bot/common/utils/formatting.py:38-48 | `int()` of the text with its spaces removed gives the number back |
| Formatting.Ago | src/bot/common/utils/formatting.py:62-72 | the unit is the largest that fits; the amount is the whole number of that unit the age contains |
| Formatting.HumanAgo | src/bot/common/utils/formatting.py:51-72 | a dash exactly when there is no time; otherwise the amount Ago gives, a space, that unit's word and `назад`, the unit being seconds under one minute, minutes under one hour, hours under one day and days beyond |
| Formatting.TimeToStr | src/bot/common/utils/formatting.py:85-92 | five characters: the hour, a colon, the minute, each zero-padded |
| Formatting.FmtTime | src/bot/common/utils/formatting.py:75-82 | empty exactly when there is no time |
| Formatting.StrToTime | src/bot/common/utils/formatting.py:95-109 | the default unless the text splits into exactly two parts forming a valid hour and minute, and in that case exactly that hour and minute with zero seconds |
| Formatting.StrToTimeRoundTrip | src/bot/common/utils/formatting.py:85-109 | reading back a rendered time gives it back with the seconds dropped |
| Formatting.SanitizeTag | src/bot/common/utils/formatting.py:133-139 | the result uses only the tag alphabet, has no doubled underscore and none at either end |
| Formatting.SanitizeIdempotent | src/bot/common/utils/formatting.py:133-139 | sanitising twice equals sanitising once |
| Formatting.CleanTagFixed | src/bot/common/utils/formatting.py:133-139 | a value that is already a clean tag is left unchanged |
| Formatting.TrimKeepsClean | src/bot/common/utils/formatting.py:138 | stripping underscores from both ends of a clean-alphabet string leaves a clean tag |
| Formatting.Tag | src/bot/common/utils/formatting.py:144-153 | a hashtag is `#` followed by the sanitised value |
| Formatting.TagShaped | src/bot/common/utils/formatting.py:144-153 | a hashtag is `#` followed by tag-alphabet characters |
| Formatting.TagSources | src/bot/common/utils/formatting.py:141-153 | topic (lower-cased), group, subject and teacher, each only when present, in that order: the topic first, the group after it, the subject second from the end when a teacher follows and last otherwise, the teacher last |
| Formatting.Hashtags | src/bot/common/utils/formatting.py:141-153 | one hashtag per source value, in the same order |
| Formatting.KindOfAsWritten | src/bot/common/utils/formatting.py:166-175 | the topic emoji exactly for lecture or seminar tags; the subject emoji only when the tag ends with the raw subject code |
| Formatting.KindOf | src/bot/common/utils/formatting.py:166-175 | the same chain with the subject test against the sanitised code: group tags end with the group value, subject tags with the sanitised code |
| Formatting.SubjectWithSpaceNeverMatches | src/bot/common/utils/formatting.py:172 | as written, a subject code with a character a hashtag cannot carry never gets the subject emoji |
| Formatting.OwnTagNeverMatches | src/bot/common/utils/formatting.py:172 | as written, the hashtag built from such a code never gets the subject emoji |
| Formatting.HistorySubjectTagMisclassified | src/bot/common/utils/formatting.py:172 | the subject folder "История России" gets the generic emoji on its own subject hashtag |
| Formatting.SubjectTagRecognised | src/bot/common/utils/formatting.py:166-175 | corrected: the hashtag built from the subject code gets the subject emoji whenever the earlier branches do not claim it |
| Formatting.KindOfAgreesOnCleanCodes | src/bot/common/utils/formatting.py:166-175 | when subject codes are already clean tags, the corrected chain and the chain as written agree |
| Formatting.SubjectDisplayText | src/bot/common/utils/formatting.py:122 | the SUBJECTS title for a known code, the code itself for an unknown one, "Неизвестно" for none; never empty |
| Formatting.LessonDateText | src/bot/common/utils/formatting.py:125-127 | `DD.MM HH:MM`, each part zero-padded |
| Formatting.TagLines | src/bot/common/utils/formatting.py:165-175 | one line per hashtag, carrying the emoji of its kind |
| Formatting.HeaderLines | src/bot/common/utils/formatting.py:160-175 | subject line first; the date line, with the date as `DD.MM HH:MM`, second exactly when there is a date; the teacher line after it exactly when there is a teacher; then exactly the hashtag lines; no link lines |
| Formatting.NotificationLines | src/bot/common/utils/formatting.py:112-183 | the shared lines first; then the watch line for the public URL exactly when there is one; last the download line for the download URL, or the file-name line when there is none |
| Mappings.GroupFromValue | src/bot/domain/entities/mappings.py:6-15 | the group whose value is the text, or None when no group has that value |
| Mappings.GroupValuesAreCodes | src/bot/domain/entities/mappings.py:6-15 | every group value is БКНАД followed by three digits |
| Mappings.GroupValueInjective | src/bot/domain/entities/mappings.py:6-15 | distinct groups have distinct values |
| Mappings.SubjectTitle | src/bot/domain/entities/mappings.py:50-71 | every subject has a non-empty display title |
| Mappings.SubjectFromKey | src/bot/domain/entities/mappings.py:50-71 | a subject found is the one stored under that key |
| Mappings.SubjectKeyRoundTrip | src/bot/domain/entities/mappings.py:50-71 | looking up a subject's own key finds that subject, so the SUBJECTS keys are distinct |
| Mappings.SubjectDisplay | src/bot/domain/entities/mappings.py:50-71 | a title exactly for SUBJECTS keys, never empty |
| Mappings.SubjectKeys | src/bot/domain/entities/mappings.py:50-71 | the keys in dictionary order |
| Mappings.CourseSubjects | src/bot/domain/entities/mappings.py:78-93 | the folder names of the course's subjects, in order |
| Mappings.CourseSubjectsAreKnown | src/bot/domain/entities/mappings.py:78-93 | every course list is non-empty and holds only SUBJECTS keys |
| Mappings.GetSubjectKeysForCourse | src/bot/domain/entities/mappings.py:96-102 | the course's own list, which is non-empty and holds only SUBJECTS keys |
| Mappings.IterSubjectsForCourse | src/bot/domain/entities/mappings.py:105-109 | each key paired with its title, falling back to the key itself |
| Mappings.IterSubjectsUseTitles | src/bot/domain/entities/mappings.py:105-109 | every pair carries the title SUBJECTS stores for its key |
| Courses.CourseNumber | src/bot/domain/entities/course.py:12-46 | courses are numbered 1 to 4 |
| Courses.GetCourses | src/bot/domain/entities/course.py:53-54 | the table's entries in dictionary order, one per course |
| Courses.GetCourse | src/bot/domain/entities/course.py:49-50 | present exactly when the code is a key of the table, and then the entry stored under it |
| Courses.EntryCodeMatchesKey | src/bot/domain/entities/course.py:12-46 | every course is found; its entry carries its own code and the title "<number> курс" |
| Courses.GroupInExactlyOneCourse | src/bot/domain/entities/course.py:12-46 | a group is listed under a course exactly when its entry year (read from the group code) puts it there |
| Courses.CourseGroupsDisjoint | src/bot/domain/entities/course.py:12-46 | no group is listed under two courses |
| Courses.CourseGroupsCover | src/bot/domain/entities/course.py:12-46 | every group is listed under some course |
| Users.NewUser | src/bot/domain/entities/user.py:14-41 | a profile built from the Telegram identity: notifications on, regular role, no course, group or delivery settings, nothing excluded |
| Users.Excluded | src/bot/domain/entities/user.py:30 | an absent excluded set reads as empty |
| Users.DisplayName | src/bot/domain/entities/user.py:43-52 | `first last` when both names are present; the first name alone when only it is; else `@username`; else `User <id>`; never empty |
| Users.DisplayNameFallbackSpellsId | src/bot/domain/entities/user.py:52 | without names, the shown name spells the Telegram id back |
| Users.EmptyUpdate | src/bot/domain/entities/user.py:74-87 | an update built with no arguments has every field absent |
| Notifications.NewTask | src/bot/domain/entities/notification.py:8-37 | a task from its two required fields, every optional field absent |
| Notifications.NewUserNotification | src/bot/domain/entities/notification.py:40-48 | a new notification is pending and has no id |
| Permissions.IsAdmin | src/bot/common/utils/permissions.py:6-13 | true exactly for the admin and superuser roles |
| Permissions.IsSuperuser | src/bot/common/utils/permissions.py:16-23 | true exactly for the superuser role, and every superuser is an admin |
| Permissions.RolesRanked | src/bot/common/utils/permissions.py:6-23 | plain users pass neither check, admins only the first, superusers both |
| TimePicker.MinuteOfDay | src/bot/application/widgets/time_picker.py:117-139 | a clock time's minute of the day lies in 0 to 1439 |
| TimePicker.AdjustTime | src/bot/application/widgets/time_picker.py:117-139 | the adjusted time has zero seconds |
| TimePicker.AdjustTimeShifts | src/bot/application/widgets/time_picker.py:129-138 | the result is the time moved by `dh` hours and `dm` minutes around a 24-hour dial, with carries and borrows between minutes and hours |
| TimePicker.SameMinuteSameTime | src/bot/application/widgets/time_picker.py:139 | a time with zero seconds is determined by its minute of the day |
| TimePicker.AdjustTimeUndo | src/bot/application/widgets/time_picker.py:117-139 | moving forward and back by the same amount restores the time |
| TimePicker.ActionOf | src/bot/application/widgets/time_picker.py:100 | the action is what follows the first colon |
| TimePicker.HandleCallback | src/bot/application/widgets/time_picker.py:79-115 | foreign data is a no-op; only updates change the time; an updated time has zero seconds |
| TimePicker.DataRoundTrip | src/bot/application/widgets/time_picker.py:59-100 | with a colon-free prefix, the action read back from a button's data is the one written into it |
| TimePicker.HandleOwnButton | src/bot/application/widgets/time_picker.py:97-115 | each of the picker's own buttons triggers its own action |
| TimePicker.HourUpAdvancesHour | src/bot/application/widgets/time_picker.py:102-103 | hour up moves the hour one step around the dial and keeps the minutes |
| TimePicker.HourUpThenDown | src/bot/application/widgets/time_picker.py:102-105 | hour up then hour down restores the time |
| TimePicker.MinUpThenDown | src/bot/application/widgets/time_picker.py:106-109 | minute up then minute down restores the time |
| TimePicker.Keyboard | src/bot/application/widgets/time_picker.py:43-77 | three rows: hours, minutes, then confirm and, when enabled, cancel |
| TimePicker.KeyboardButtonsAct | src/bot/application/widgets/time_picker.py:43-115 | the arrows move the time, the middle buttons are inert and show the hour and minute, and the last row confirms or cancels |
| Pagination.TotalPages | src/bot/common/utils/pagination.py:43 | at least one page; exactly enough pages of the given size to hold every item |
| Pagination.Paginate | src/bot/common/utils/pagination.py:32-57 | the page is clamped into range; its items are the list slice at its start and end indices; a page with a next page is full |
| Pagination.PageStartInRange | src/bot/common/utils/pagination.py:46-47 | an existing page starts inside the list; a page before the last one ends before the list does |
| Pagination.HasPrevIffNotAtStart | src/bot/common/utils/pagination.py:21-24 | a previous page exists exactly when the page does not start at the first item |
| Pagination.HasNextIffMoreItems | src/bot/common/utils/pagination.py:26-29 | a next page exists exactly when items remain after this page |
| Pagination.PaginateStable | src/bot/common/utils/pagination.py:44 | asking again for the page a call returned gives the same page |
| Pagination.AllPagesPrefix | src/bot/common/utils/pagination.py:32-57 | the first k pages together are the first k·size items |
| Pagination.PagesCoverList | src/bot/common/utils/pagination.py:32-57 | reading every page in order gives the whole list back, nothing lost or repeated |
| Pagination.ItemOnItsPage | src/bot/common/utils/pagination.py:32-57 | item i is at position i mod size of page i div size |
| Pagination.PageOfIndex | src/bot/common/utils/pagination.py:43-47 | the page number of an item is a page that exists, and that page spans the item |
| Sorting.StrLeTotal | src/bot/common/utils/sorting.py:16 | any two strings are comparable |
| Sorting.StrLeAntisym | src/bot/common/utils/sorting.py:16 | strings that are each no greater than the other are equal |
| Sorting.StrLeTrans | src/bot/common/utils/sorting.py:16 | string order is transitive |
| Sorting.KeyLeTotal | src/bot/common/utils/sorting.py:16 | any two (name, id) keys are comparable |
| Sorting.KeyLeTrans | src/bot/common/utils/sorting.py:16 | key order is transitive |
| Sorting.InsertSorted | src/bot/common/utils/sorting.py:16 | inserting into a sorted list keeps it sorted |
| Sorting.SortBy | src/bot/common/utils/sorting.py:16 | the result is a permutation of the input |
| Sorting.SortBySorted | src/bot/common/utils/sorting.py:16 | the result is in key order |
| Sorting.SortByKeepsSorted | src/bot/common/utils/sorting.py:16 | a list already in key order comes back unchanged |
| Sorting.InsertStable | src/bot/common/utils/sorting.py:16 | the inserted element goes before the existing elements with its key |
| Sorting.SortByStable | src/bot/common/utils/sorting.py:16 | elements with equal keys keep their input order |
| Sorting.SortUsers | src/bot/common/utils/sorting.py:9-16 | a permutation of the users, ordered by lower-cased display name and then Telegram id |
| Sorting.SortUsersStable | src/bot/common/utils/sorting.py:9-16 | an ordered list is unchanged, and users with equal keys keep their order |
| Sorting.SortUsersIdempotent | src/bot/common/utils/sorting.py:9-16 | sorting twice equals sorting once |
| Statistics.EnabledCount | src/bot/application/services/statistics.py:25 | never more than the number of users |
| Statistics.CountOfAt | src/bot/application/services/statistics.py:39 | with distinct keys, each entry's count is the count looked up under its key |
| Statistics.Bump | src/bot/application/services/statistics.py:39 | exactly one subject's count goes up by one, possibly as a new entry; keys stay distinct |
| Statistics.MostCommon | src/bot/application/services/statistics.py:43 | at most n entries, in descending count order, drawn from the counter |
| Statistics.MostCommonDominates | src/bot/application/services/statistics.py:43 | an entry left out counts no more than any entry kept |
| Statistics.MostCommonStable | src/bot/application/services/statistics.py:43 | entries with equal counts keep the counter's first-seen order: for each count, the kept entries are the counter's first entries with that count |
| Statistics.MostCommonKeepsAll | src/bot/application/services/statistics.py:43 | a counted subject is missing from the top only when the top is full |
| Statistics.SubDistinct | src/bot/application/services/statistics.py:39-43 | entries drawn from a counter with distinct keys have distinct keys |
| Statistics.AddOne | src/bot/application/services/statistics.py:34-37 | the tag's count goes up by one and every other count stays |
| Statistics.CountSubjects | src/bot/application/services/statistics.py:38-39 | every subject of the set gains exactly one, whatever order the set iterates in |
| Statistics.CountUsers | src/bot/application/services/statistics.py:31-39 | every course, group and excluded-subject count equals the number of users carrying that value |
| Statistics.TopIsCounted | src/bot/application/services/statistics.py:43 | each kept entry carries its subject's true count |
| Statistics.TopDominates | src/bot/application/services/statistics.py:43 | a subject left out of the top was excluded no more often than any kept one |
| Statistics.BuildSnapshot | src/bot/application/services/statistics.py:20-53 | total and enabled users, true per-course and per-group counts, the most excluded subjects with true counts in descending order, distinct, and all of them when fewer than ten were excluded, and the repository figures copied through; the order among equal counts (the counter's first-seen order) is stated by `Statistics.MostCommonStable` |
| Clock.TodayAt | src/bot/application/services/notification.py:151-156 | the same day as now, at the given hour and minute with zero seconds |
| Clock.DaysInMonth | src/bot/common/utils/path_parser.py:175-179 | a month has 28 to 31 days, by the Gregorian leap rule |

## Left out

- Input and output are not modelled: the asyncio loops and their sleeps,
  logging, the HTTP requests to the disk API, JSON encoding and Redis
  itself. Listing responses, send outcomes and the orders in which Redis
  scans keys or Python iterates a set are parameters instead.
- `fmt_secs` is left out, because it works with floating-point seconds.
- The watcher's checkpoint key is a SHA-256 of the root URL; hashing is not
  modelled, and the checkpoint is held directly.
- `urllib.parse.quote` in `build_public_file_url` is the `quote` parameter.
- `datetime.fromisoformat` in the watcher is the `parse` parameter.
- LongPoll.CheckForNewFiles: requires every listed file's timestamp to be
  readable. With an unreadable one the code compares `None` with a
  datetime. That raises `TypeError` when there is a checkpoint or an
  earlier new file. With only unreadable files and no checkpoint, the tasks
  are queued and then `None.isoformat()` raises. These aborted passes are
  not modelled.
- The watcher's `start`/`stop` (`long_poll.py` lines 13-28) use the same
  guard as the scheduler's, which `Scheduler.Start`/`Scheduler.Stop` model.
  Only the scheduler's pair is modelled.
- NotificationService.ProcessQueue: models the evident intent, draining up
  to `batchSize` tasks. The code as written raises before any task is read;
  that run is `NotificationService.ProcessQueueAsWritten` (see Findings).
- Scheduler.DeliverAll: the message send raising is the `outcome`
  parameter. A failure is modelled as happening before the status write. An
  exception raised by `mark_as_failed` itself is not modelled.
- NotificationStore.Reschedule: orders equal scores by insertion. Redis
  orders them by the member's serialized bytes, which would need the JSON
  encoding.
- NotificationStore.SaveUserNotification: a fresh id comes from a counter
  in the store (`FreshId`), not from `uuid4`.
- NotificationStore.IsDuplicate: the sent set never forgets. In Redis it
  expires 30 days after its last write, and status records expire after 7
  days. Expiry would need a clock in the store.
- TimePicker.AdjustTime: the seconds of the current time are dropped.
  `datetime.time(h, m)` does the same.
- TimePicker.DataRoundTrip: requires a prefix without `:`. With a colon in
  the prefix, the action read back would be cut at that colon.
- Pagination.TotalPages: requires a page size of at least 1. With 0 the
  code raises `ZeroDivisionError`. A negative size is not modelled.
- Sorting.SortUsers: lower-casing covers the Latin and Cyrillic letters
  only, not Python's full Unicode case mapping.
- Both message renderers use the corrected `Formatting.KindOf` (see
  Findings). The chain as written is kept as `Formatting.KindOfAsWritten`.
  The four members below differ from the code for that reason.
- Formatting.TagLines: uses the corrected `KindOf`. The subject hashtag of
  "История России" gets the subject emoji 📖 here, where the code gives the
  generic 🏷️.
- Formatting.HeaderLines: its hashtag lines come from `TagLines`, so the
  subject hashtag of "История России" gets 📖 here and 🏷️ in the code.
- Formatting.NotificationLines: its hashtag lines come from `TagLines`, so
  the subject hashtag of "История России" gets 📖 here and 🏷️ in the code.
- Scheduler.MessageLines: its hashtag lines come from `TagLines`, so the
  subject hashtag of "История России" gets 📖 here and 🏷️ in the code
  (the same test is at src/bot/application/services/scheduler.py:148).
- PathParser.ExtractGroupRaw: case-insensitive matching pairs each letter of
  БКНАД only with its simple upper- or lower-case partner. Python's
  `re.IGNORECASE` also matches the old Cyrillic variant letters U+1C80 to
  U+1C88 (ᲁ matches Д, for example), and the model does not accept those.
- The bot's handlers, keyboards other than the time picker, the user
  repository and the statistics repository are not part of this model. The
  figures the statistics repository returns are parameters of
  `BuildSnapshot`.
- `\d` in the date and group patterns, and `int()` in `Text.ParseInt`, are
  modelled on the ASCII digits only. Python's `\d` and `int()` also accept
  other Unicode decimal digits.
- Formatting.StrToTime: reads its parts with `Text.ParseInt`, so a time
  written in other Unicode decimal digits (the full-width "１２:３０") gives
  the default here, where the code reads 12:30.
- NotificationService.ProcessQueue: an earlier schedule entry is promised to
  stay only when its notification is not one of those just saved (`Kept`).
  The model does not track fresh ids against the ids already stored, so an
  id collision that would move an earlier entry is not excluded. The code
  draws ids from `uuid4`.
- NotificationService.OfferTask: the same holds for one task's pass
  (`PassFramed`), for the same reason.
- NotificationStore.GetDueNotifications: `GetDueYieldsDuePrefix` states what
  a user receives when the scan visits them once. A scan that visits a key
  twice takes a further share on the second visit, and that case is only
  bounded (at most `limit` per visit), not described exactly.

## Findings

| source | as written | input that shows it | evidently intended | confidence | as-written member | corrected member |
|---|---|---|---|---|---|---|
| src/bot/common/utils/formatting.py:172 (same test at src/bot/application/services/scheduler.py:148) | the subject hashtag is recognised by `h.endswith(task.subject_code)`, comparing against the raw subject code, while the hashtag carries `sanitize_tag(subject_code)` | subject_code "История России": the hashtag is "#История_России", which does not end with "История России", so the line gets 🏷️ instead of 📖 | compare against the sanitised code, so every subject hashtag gets the subject emoji | not executed | Formatting.HistorySubjectTagMisclassified | Formatting.SubjectTagRecognised |
| src/bot/application/services/notification.py:37 (generator at src/bot/infrastructure/repositories/notification.py:47-54) | `async for task in await self.repository.pop_from_queue()` awaits the result of calling an async generator function; that result is an async generator, which cannot be awaited | any call of `process_queue`: the `await` raises `TypeError` before a task is popped, so a queued task some user should get is never delivered | iterate the generator directly, `async for task in self.repository.pop_from_queue()`, draining up to `batch_size` tasks | not executed | NotificationService.ProcessQueueAsWritten | NotificationService.ProcessQueue |

=== FILE: arith.dfy ===
/** Facts about integer division and remainder that several modules lean on. */
module Arith {

  /** Integer division and remainder are determined by the quotient-remainder equation. */
  lemma DivModUnique(x: int, d: int, q: int, r: int)
    requires d > 0 && x == d * q + r && 0 <= r < d
    ensures x / d == q && x % d == r
  {
    var q0, r0 := x / d, x % d;
    assert x == d * q0 + r0;
    if q0 > q {
      MulAtLeast(d, q0 - q);
    }
    if q0 < q {
      MulAtLeast(d, q - q0);
    }
  }

  lemma {:induction false} MulAtLeast(d: int, e: int)
    requires d > 0 && e >= 1
    ensures d * e >= d
    decreases e
  {
    if e > 1 {
      MulAtLeast(d, e - 1);
      assert d * e == d * (e - 1) + d;
    }
  }

  /** Adding a multiple of the modulus does not change the remainder. */
  lemma ModShift(x: int, n: int, k: int)
    requires n > 0
    ensures (x + n * k) % n == x % n
  {
    assert x == n * (x / n) + x % n;
    assert x + n * k == n * (x / n + k) + x % n;
    DivModUnique(x + n * k, n, x / n + k, x % n);
  }

  /** Multiplying by a positive factor preserves order. */
  lemma MulMono(a: int, b: int, d: int)
    requires a <= b && d >= 0
    ensures a * d <= b * d
  {
    assert b * d - a * d == (b - a) * d;
    if b > a && d > 0 { MulAtLeast(d, b - a); }
  }

  /** `(total + size - 1) // size`, the ceiling division, brackets `total` between whole pages. */
  lemma CeilDivBounds(total: int, size: int)
    requires total >= 1 && size >= 1
    ensures var n := (total + size - 1) / size;
      n >= 1 && (n - 1) * size < total <= n * size
  {
    var x := total + size - 1;
    var n, r := x / size, x % size;
    assert x == size * n + r;
    assert (n - 1) * size == size * n - size;
    assert n * size == size * n;
    if n < 1 {
      MulMono(n, 0, size);
    }
  }

  /** One more factor adds one more multiple. */
  lemma MulSucc(k: int, d: int)
    ensures (k + 1) * d == k * d + d
    ensures 0 * d == 0
  {
  }
}

=== FILE: clock.dfy ===
/**
 * Time as the notification pipeline sees it: instants are whole seconds of
 * naive local time (no time zone, no daylight saving), clock times are
 * `datetime.time` values, and calendar date-times are `datetime.datetime`
 * field tuples.
 */
module Clock {
  import opened Arith

  const SecondsPerDay: int := 86400

  datatype ClockTime = ClockTime(hour: int, minute: int, second: int)

  /** A `datetime.time`: every field in range. */
  type Time = t: ClockTime | 0 <= t.hour < 24 && 0 <= t.minute < 60 && 0 <= t.second < 60
    witness ClockTime(0, 0, 0)

  /** Midnight of the day holding instant `t`. */
  function Midnight(t: int): (r: int)
    ensures r <= t < r + SecondsPerDay
    ensures r % SecondsPerDay == 0
  {
    t - t % SecondsPerDay
  }

  /** Seconds elapsed since midnight at instant `t`. */
  function SecondOfDay(t: int): (r: int)
    ensures 0 <= r < SecondsPerDay
    ensures t == Midnight(t) + r
  {
    t % SecondsPerDay
  }

  /** Two instants fall on the same day, or the later one's midnight is at least a day on. */
  lemma MidnightsApart(a: int, b: int)
    requires a <= b
    ensures Midnight(a) == Midnight(b) || Midnight(a) + SecondsPerDay <= Midnight(b)
  {
    var qa, qb := a / SecondsPerDay, b / SecondsPerDay;
    assert Midnight(a) == SecondsPerDay * qa;
    assert Midnight(b) == SecondsPerDay * qb;
    assert qa <= qb;
  }

  /** The same clock time one day later. */
  lemma NextDay(t: int)
    ensures SecondOfDay(t + SecondsPerDay) == SecondOfDay(t)
  {
    ModShift(t, SecondsPerDay, 1);
  }

  /** The offset from midnight of `t` with its seconds dropped: `replace(second=0)`. */
  function MinuteOffset(t: Time): (r: int)
    ensures 0 <= r < SecondsPerDay && r % 60 == 0
  {
    t.hour * 3600 + t.minute * 60
  }

  /** `now.replace(hour=t.hour, minute=t.minute, second=0, microsecond=0)`. */
  function TodayAt(now: int, t: Time): (r: int)
    ensures Midnight(r) == Midnight(now)
    ensures SecondOfDay(r) == MinuteOffset(t)
  {
    var r := Midnight(now) + MinuteOffset(t);
    assert r % SecondsPerDay == MinuteOffset(t);
    r
  }

  datatype DateTime = DateTime(year: int, month: int, day: int, hour: int, minute: int, second: int)

  predicate IsLeapYear(y: int) {
    y % 4 == 0 && (y % 100 != 0 || y % 400 == 0)
  }

  function DaysInMonth(y: int, m: int): (r: int)
    requires 1 <= m <= 12
    ensures 28 <= r <= 31
  {
    if m == 2 then (if IsLeapYear(y) then 29 else 28)
    else if m == 4 || m == 6 || m == 9 || m == 11 then 30
    else 31
  }

  /** What `datetime(year, month, day, hour, minute, second)` accepts without raising. */
  predicate ValidDateTime(d: DateTime) {
    && 1 <= d.year <= 9999
    && 1 <= d.month <= 12
    && 1 <= d.day <= DaysInMonth(d.year, d.month)
    && 0 <= d.hour < 24 && 0 <= d.minute < 60 && 0 <= d.second < 60
  }
}

=== FILE: course.dfy ===
/**
 * The course table: for each course its code, its title and the study
 * groups that belong to it.
 */
module Courses {
  import opened Optional
  import opened Text
  import opened Mappings

  datatype Course = Course(code: StudyCourse, title: string, groups: seq<StudyGroup>)

  /** The ordinal of a course, 1 to 4. */
  function CourseNumber(c: StudyCourse): (n: nat)
    ensures 1 <= n <= 4
  {
    match c
    case Course1 => 1
    case Course2 => 2
    case Course3 => 3
    case Course4 => 4
  }

  /** The entry `COURSES` stores under the key `c`. */
  function Entry(c: StudyCourse): Course {
    match c
    case Course1 => Course(Course1, "1 курс", [Bknad251, Bknad252, Bknad253])
    case Course2 => Course(Course2, "2 курс", [Bknad241, Bknad242])
    case Course3 => Course(Course3, "3 курс", [Bknad231, Bknad232])
    case Course4 => Course(Course4, "4 курс", [Bknad211, Bknad212])
  }

  /** `COURSES`, as key/entry pairs in dictionary order: `get_courses`. */
  function GetCourses(): (r: seq<(StudyCourse, Course)>)
    ensures |r| == |AllCourses|
    ensures forall i :: 0 <= i < |r| ==> r[i].0 == AllCourses[i] && r[i].1 == Entry(AllCourses[i])
  {
    seq(|AllCourses|, i requires 0 <= i < |AllCourses| => (AllCourses[i], Entry(AllCourses[i])))
  }

  /** `get_course`: the entry stored under `code` in the table. */
  function GetCourse(code: StudyCourse): (r: Option<Course>)
    ensures r.Some? <==> exists i :: 0 <= i < |GetCourses()| && GetCourses()[i].0 == code
    ensures forall i :: 0 <= i < |GetCourses()| && GetCourses()[i].0 == code ==> r == Some(GetCourses()[i].1)
  {
    var t := GetCourses();
    assert t[CourseNumber(code) - 1].0 == code;
    Some(Entry(code))
  }

  /** Every entry is stored under its own code, and its title is the course number followed by "курс". */
  lemma EntryCodeMatchesKey(c: StudyCourse)
    ensures GetCourse(c).Some?
    ensures GetCourse(c).value.code == c
    ensures GetCourse(c).value.title == NatToString(CourseNumber(c)) + " курс"
  {
  }

  /** The course a group's entry year puts it in: an independent reading of the group code's last digit of the year. */
  function CourseOfGroup(g: StudyGroup): StudyCourse {
    var v := GroupValue(g);
    var d := if |v| > 6 then v[6] else '0';
    if d == '5' then Course1
    else if d == '4' then Course2
    else if d == '3' then Course3
    else Course4
  }

  /**
   * A group appears in exactly one course's list: the one its code's year
   * digits select. So the lists are pairwise disjoint and cover all groups.
   */
  lemma GroupInExactlyOneCourse(g: StudyGroup, c: StudyCourse)
    ensures g in Entry(c).groups <==> CourseOfGroup(g) == c
  {
    var v := GroupValue(g);
    match g
    case Bknad251 => assert v[6] == '5';
    case Bknad252 => assert v[6] == '5';
    case Bknad253 => assert v[6] == '5';
    case Bknad241 => assert v[6] == '4';
    case Bknad242 => assert v[6] == '4';
    case Bknad231 => assert v[6] == '3';
    case Bknad232 => assert v[6] == '3';
    case Bknad211 => assert v[6] == '1';
    case Bknad212 => assert v[6] == '1';
  }

  /** The group lists of two different courses share no group. */
  lemma CourseGroupsDisjoint(c: StudyCourse, d: StudyCourse, g: StudyGroup)
    requires c != d
    ensures !(g in Entry(c).groups && g in Entry(d).groups)
  {
    GroupInExactlyOneCourse(g, c);
    GroupInExactlyOneCourse(g, d);
  }

  /** Every group is listed under some course. */
  lemma CourseGroupsCover(g: StudyGroup)
    ensures exists c: StudyCourse :: g in Entry(c).groups
  {
    GroupInExactlyOneCourse(g, CourseOfGroup(g));
  }
}

=== FILE: formatting.dfy ===
/**
 * Text rendering helpers: thousands grouping, relative ages, clock times and
 * their parsing, the hashtag sanitiser, and the lines of a notification
 * message.
 */
module Formatting {
  import opened Optional
  import opened Text
  import opened Clock
  import opened Mappings
  import opened Notifications

  // ----- fmt_int -----

  /** The string with every space removed. */
  function Unspace(s: string): string
  {
    if s == [] then [] else (if s[0] == ' ' then [] else [s[0]]) + Unspace(s[1..])
  }

  lemma UnspaceAppend(a: string, b: string)
    ensures Unspace(a + b) == Unspace(a) + Unspace(b)
  {
    if a == [] {
      assert a + b == b;
    } else {
      assert (a + b)[1..] == a[1..] + b;
      UnspaceAppend(a[1..], b);
    }
  }

  lemma UnspaceDigits(d: string)
    requires AllDigits(d)
    ensures Unspace(d) == d
  {
  }

  /** Digits grouped in threes from the right, groups separated by one space. */
  function GroupDigits(d: string): string
    decreases |d|
  {
    if |d| <= 3 then d else GroupDigits(d[..|d| - 3]) + " " + d[|d| - 3..]
  }

  /** Taking the spaces out of a grouping gives back the digits. */
  lemma {:induction false} GroupDigitsUnspace(d: string)
    requires AllDigits(d)
    ensures Unspace(GroupDigits(d)) == d
    decreases |d|
  {
    if |d| <= 3 {
      UnspaceDigits(d);
    } else {
      var front, tail := d[..|d| - 3], d[|d| - 3..];
      var head := GroupDigits(front);
      assert GroupDigits(d) == head + " " + tail;
      GroupDigitsUnspace(front);
      UnspaceAppend(head + " ", tail);
      UnspaceAppend(head, " ");
      UnspaceDigits(tail);
      assert Unspace(" ") == [];
      assert d == front + tail;
    }
  }

  /** Where the spaces of a grouping fall: exactly every fourth place counting from the right. */
  predicate SpacedInThrees(r: string) {
    forall i :: 0 <= i < |r| ==> (r[i] == ' ' <==> (|r| - 1 - i) % 4 == 3)
  }

  lemma {:induction false} GroupDigitsSpacing(d: string)
    requires AllDigits(d) && |d| > 0
    ensures SpacedInThrees(GroupDigits(d))
    decreases |d|
  {
    if |d| > 3 {
      var head := GroupDigits(d[..|d| - 3]);
      var tail := d[|d| - 3..];
      GroupDigitsSpacing(d[..|d| - 3]);
      var r := head + " " + tail;
      assert r == GroupDigits(d);
      forall i | 0 <= i < |r| ensures (r[i] == ' ' <==> (|r| - 1 - i) % 4 == 3) {
        if i < |head| {
          assert r[i] == head[i];
          assert |r| - 1 - i == (|head| - 1 - i) + 4;
        } else if i > |head| {
          assert r[i] == tail[i - |head| - 1];
        }
      }
    }
  }

  /** A grouping starts with the first digit: it never opens with a separator. */
  lemma {:induction false} GroupDigitsFirst(d: string)
    requires |d| > 0
    ensures |GroupDigits(d)| > 0 && GroupDigits(d)[0] == d[0]
    decreases |d|
  {
    if |d| > 3 {
      GroupDigitsFirst(d[..|d| - 3]);
    }
  }

  /** `fmt_int`: `f"{n:,}"` with the commas turned into spaces. */
  function FmtInt(n: int): (r: string)
    ensures Unspace(r) == IntToString(n)
    ensures n >= 0 ==> SpacedInThrees(r) && r != [] && IsAsciiDigit(r[0])
    ensures n < 0 ==> r[0] == '-' && SpacedInThrees(r[1..]) && |r| >= 2 && IsAsciiDigit(r[1])
  {
    if n < 0 then
      var g := GroupDigits(NatToString(-n));
      GroupDigitsSpacing(NatToString(-n));
      GroupDigitsUnspace(NatToString(-n));
      GroupDigitsFirst(NatToString(-n));
      UnspaceAppend("-", g);
      assert ("-" + g)[1..] == g;
      "-" + g
    else
      GroupDigitsSpacing(NatToString(n));
      GroupDigitsUnspace(NatToString(n));
      GroupDigitsFirst(NatToString(n));
      GroupDigits(NatToString(n))
  }

  /** Removing the spaces from `fmt_int(n)` gives back a string `int()` reads as `n`. */
  lemma FmtIntRoundTrip(n: int)
    ensures ParseInt(Unspace(FmtInt(n))) == Some(n)
  {
    ParseIntToString(n);
  }

  // ----- human_ago -----

  datatype AgoUnit = Seconds | Minutes | Hours | Days

  /** The amount and unit `human_ago` shows for an age of `secs` seconds. */
  function Ago(secs: int): (r: (int, AgoUnit))
    ensures r.1 == Seconds <==> secs < 60
    ensures r.1 == Seconds ==> r.0 == secs
    ensures r.1 == Minutes ==> 1 <= r.0 < 60 && r.0 * 60 <= secs < (r.0 + 1) * 60
    ensures r.1 == Hours ==> 1 <= r.0 < 24 && r.0 * 3600 <= secs < (r.0 + 1) * 3600
    ensures r.1 == Days ==> r.0 >= 1 && r.0 * 86400 <= secs < (r.0 + 1) * 86400
  {
    if secs < 60 then (secs, Seconds)
    else
      var mins := secs / 60;
      if mins < 60 then (mins, Minutes)
      else
        var hours := mins / 60;
        if hours < 24 then (hours, Hours)
        else (hours / 24, Days)
  }

  /** The unit chosen is fixed by the thresholds of one minute, one hour and one day. */
  lemma AgoThresholds(secs: int)
    ensures Ago(secs).1 == if secs < 60 then Seconds else if secs < 3600 then Minutes
                           else if secs < 86400 then Hours else Days
  {
  }

  function UnitWord(u: AgoUnit): string {
    match u
    case Seconds => "сек"
    case Minutes => "мин"
    case Hours => "ч"
    case Days => "дн"
  }

  /** `human_ago`: a dash for no time, otherwise the age in its largest whole unit. */
  function HumanAgo(dt: Option<int>, now: int): (r: string)
    ensures dt.None? <==> r == "—"
    ensures dt.Some? ==> var (n, u) := Ago(now - dt.value);
      StartsWith(r, IntToString(n) + " ") && EndsWith(r, " " + UnitWord(u) + " назад")
    ensures dt.Some? ==> var secs := now - dt.value;
      EndsWith(r, " " + UnitWord(if secs < 60 then Seconds else if secs < 3600 then Minutes
                                 else if secs < 86400 then Hours else Days) + " назад")
  {
    if dt.None? then "—"
    else
      AgoThresholds(now - dt.value);
      var (n, u) := Ago(now - dt.value);
      assert (IntToString(n) + " " + UnitWord(u) + " назад")[0] == IntToString(n)[0];
      IntToString(n) + " " + UnitWord(u) + " назад"
  }

  // ----- clock times -----

  /** `time_to_str`: `%H:%M`. */
  function TimeToStr(t: Time): (r: string)
    ensures |r| == 5 && r[2] == ':'
    ensures r[..2] == Pad2(t.hour) && r[3..] == Pad2(t.minute)
  {
    Pad2(t.hour) + ":" + Pad2(t.minute)
  }

  /** `fmt_time`: empty for no time, otherwise `%H:%M`. */
  function FmtTime(t: Option<Time>): (r: string)
    ensures r == "" <==> t.None?
    ensures t.Some? ==> r == TimeToStr(t.value)
  {
    if t.None? then "" else TimeToStr(t.value)
  }

  /**
   * `str_to_time`: exactly two `:`-separated parts, each read by `int()`,
   * forming a valid hour and minute; anything else gives the default.
   */
  function StrToTime(s: Option<string>, default: Time): (r: Time)
    ensures !Truthy(s) ==> r == default
    ensures Truthy(s) && |Split(s.value, ':')| != 2 ==> r == default
    ensures r != default ==> (Truthy(s) && |Split(s.value, ':')| == 2 && r.second == 0
      && ParseInt(Split(s.value, ':')[0]) == Some(r.hour) && ParseInt(Split(s.value, ':')[1]) == Some(r.minute))
    ensures Truthy(s) && |Split(s.value, ':')| == 2 ==>
              var (h, m) := (ParseInt(Split(s.value, ':')[0]), ParseInt(Split(s.value, ':')[1]));
              h.Some? && m.Some? && 0 <= h.value < 24 && 0 <= m.value < 60 ==> r == ClockTime(h.value, m.value, 0)
  {
    if !Truthy(s) then default
    else
      var parts := Split(s.value, ':');
      if |parts| != 2 then default
      else TimeFromParts(ParseInt(parts[0]), ParseInt(parts[1]), default)
  }

  /** The hour and minute read from the two parts, when both were read and lie in range. */
  function TimeFromParts(h: Option<int>, m: Option<int>, default: Time): (r: Time)
    ensures r != default ==> h == Some(r.hour) && m == Some(r.minute) && r.second == 0
    ensures h.Some? && m.Some? && 0 <= h.value < 24 && 0 <= m.value < 60 ==> r == ClockTime(h.value, m.value, 0)
  {
    match (h, m)
    case (Some(hour), Some(minute)) =>
      if 0 <= hour < 24 && 0 <= minute < 60 then ClockTime(hour, minute, 0) else default
    case _ => default
  }

  /** Reading back a rendered time gives it back with the seconds dropped. */
  lemma StrToTimeRoundTrip(t: Time, default: Time)
    ensures StrToTime(Some(TimeToStr(t)), default) == ClockTime(t.hour, t.minute, 0)
  {
    var s := TimeToStr(t);
    TimeToStrSplits(t);
    ParsePad2(t.hour);
    ParsePad2(t.minute);
    assert StrToTime(Some(s), default) == TimeFromParts(Some(t.hour), Some(t.minute), default);
  }

  /** A rendered time splits at its one `:` into the two padded numbers. */
  lemma TimeToStrSplits(t: Time)
    ensures Split(TimeToStr(t), ':') == [Pad2(t.hour), Pad2(t.minute)]
  {
    assert TimeToStr(t) == Pad2(t.hour) + [':'] + Pad2(t.minute);
    SplitNoSep(Pad2(t.hour), ':');
    SplitNoSep(Pad2(t.minute), ':');
    SplitAppend(Pad2(t.hour), ':', Pad2(t.minute));
  }

  // ----- hashtags -----

  predicate IsSpaceOrDot(c: char) { IsSpace(c) || c == '.' }

  predicate IsUnderscore(c: char) { c == '_' }

  /** `[0-9A-Za-zА-Яа-яЁё_]`. */
  predicate IsTagChar(c: char) {
    || ('0' <= c <= '9') || ('A' <= c <= 'Z') || ('a' <= c <= 'z')
    || ('\U{0410}' <= c <= '\U{044F}') || c == '\U{0401}' || c == '\U{0451}' || c == '_'
  }

  /** No two neighbouring characters both satisfy `p`. */
  predicate NoDoubled(s: string, p: char -> bool) {
    forall i, j :: 0 <= i < |s| && 0 <= j < |s| && j == i + 1 ==> !(p(s[i]) && p(s[j]))
  }

  /** `re.sub(run-of-p, c, s)`: every maximal run of `p` characters becomes one `c`. */
  function Squash(s: string, p: char -> bool, c: char): (r: string)
    decreases |s|
  {
    if s == [] then []
    else if p(s[0]) then
      [c] + Squash(TrimLeft(s, p), p, c)
    else [s[0]] + Squash(s[1..], p, c)
  }

  lemma SquashHead(s: string, p: char -> bool, c: char)
    requires p(c) && s != []
    ensures Squash(s, p, c) != [] && (p(Squash(s, p, c)[0]) <==> p(s[0]))
  {
  }

  lemma {:induction false} SquashNoDoubled(s: string, p: char -> bool, c: char)
    requires p(c)
    ensures NoDoubled(Squash(s, p, c), p)
    decreases |s|
  {
    if s != [] {
      var r := Squash(s, p, c);
      if p(s[0]) {
        var rest := TrimLeft(s, p);
        SquashNoDoubled(rest, p, c);
        if rest != [] {
          SquashHead(rest, p, c);
        }
      } else {
        SquashNoDoubled(s[1..], p, c);
      }
    }
  }

  /** Squashing only ever writes characters of the input or the replacement. */
  lemma {:induction false} SquashKeeps(s: string, p: char -> bool, c: char, q: char -> bool)
    requires q(c) && forall i :: 0 <= i < |s| ==> q(s[i])
    ensures forall i :: 0 <= i < |Squash(s, p, c)| ==> q(Squash(s, p, c)[i])
    decreases |s|
  {
    if s != [] {
      if p(s[0]) {
        SquashKeeps(TrimLeft(s, p), p, c, q);
      } else {
        SquashKeeps(s[1..], p, c, q);
      }
    }
  }

  /** A string whose `p` characters are single copies of `c` is its own squash. */
  lemma {:induction false} SquashIdentity(s: string, p: char -> bool, c: char)
    requires NoDoubled(s, p)
    requires forall i :: 0 <= i < |s| ==> p(s[i]) ==> s[i] == c
    ensures Squash(s, p, c) == s
    decreases |s|
  {
    if s != [] {
      if p(s[0]) {
        if |s| > 1 {
          assert !p(s[1]);
          assert TrimLeft(s[1..], p) == s[1..];
        }
        assert TrimLeft(s, p) == s[1..];
      }
      SquashIdentity(s[1..], p, c);
    }
  }

  /** `re.sub(run-of-not-q, "", s)`: only the `q` characters are kept. */
  function Keep(s: string, q: char -> bool): (r: string)
    ensures forall i :: 0 <= i < |r| ==> q(r[i])
    ensures (forall i :: 0 <= i < |s| ==> q(s[i])) ==> r == s
  {
    if s == [] then [] else (if q(s[0]) then [s[0]] else []) + Keep(s[1..], q)
  }

  /** What `sanitize_tag` promises of its result. */
  predicate CleanTag(s: string) {
    && (forall i :: 0 <= i < |s| ==> IsTagChar(s[i]))
    && (s == [] || (s[0] != '_' && s[|s| - 1] != '_'))
    && NoDoubled(s, IsUnderscore)
  }

  /**
   * `sanitize_tag`: strip, turn runs of whitespace and dots into `_`, drop
   * every other character outside the tag alphabet, collapse runs of `_`
   * and strip `_` from both ends.
   */
  function SanitizeTag(v: string): (r: string)
    ensures CleanTag(r)
  {
    var a := Squash(Strip(v), IsSpaceOrDot, '_');
    var b := Keep(a, IsTagChar);
    var c := Squash(b, IsUnderscore, '_');
    SquashNoDoubled(b, IsUnderscore, '_');
    SquashKeeps(b, IsUnderscore, '_', IsTagChar);
    TrimKeepsClean(c);
    TrimRight(TrimLeft(c, IsUnderscore), IsUnderscore)
  }

  /** Every character is in the tag alphabet. */
  predicate TagChars(s: string) {
    forall i :: 0 <= i < |s| ==> IsTagChar(s[i])
  }

  /** Stripping `_` from both ends of a tag-alphabet string without doubled `_` leaves a clean tag. */
  lemma TrimKeepsClean(c: string)
    requires forall i :: 0 <= i < |c| ==> IsTagChar(c[i])
    requires NoDoubled(c, IsUnderscore)
    ensures CleanTag(TrimRight(TrimLeft(c, IsUnderscore), IsUnderscore))
  {
    TrimLeftKeeps(c);
    TrimRightKeeps(TrimLeft(c, IsUnderscore));
  }

  lemma TrimLeftKeeps(c: string)
    requires TagChars(c) && NoDoubled(c, IsUnderscore)
    ensures var d := TrimLeft(c, IsUnderscore);
      TagChars(d) && NoDoubled(d, IsUnderscore) && (d == [] || d[0] != '_')
  {
    var d := TrimLeft(c, IsUnderscore);
    SliceKeeps(c, |c| - |d|, |c|);
  }

  lemma TrimRightKeeps(d: string)
    requires TagChars(d) && NoDoubled(d, IsUnderscore) && (d == [] || d[0] != '_')
    ensures CleanTag(TrimRight(d, IsUnderscore))
  {
    var r := TrimRight(d, IsUnderscore);
    SliceKeeps(d, 0, |r|);
    assert r == [] || r[0] == d[0];
  }

  lemma SliceKeeps(c: string, k: int, m: int)
    requires 0 <= k <= m <= |c|
    requires TagChars(c)
    requires NoDoubled(c, IsUnderscore)
    ensures TagChars(c[k..m])
    ensures NoDoubled(c[k..m], IsUnderscore)
  {
    var s := c[k..m];
    forall i, j | 0 <= i < |s| && 0 <= j < |s| && j == i + 1 ensures !(IsUnderscore(s[i]) && IsUnderscore(s[j])) {
      assert s[i] == c[k + i] && s[j] == c[k + j];
    }
  }

  /** A clean tag comes through the sanitiser unchanged. */
  lemma CleanTagFixed(s: string)
    requires CleanTag(s)
    ensures SanitizeTag(s) == s
  {
    forall i | 0 <= i < |s| ensures !IsSpace(s[i]) {
      assert IsTagChar(s[i]);
    }
    StripNoSpace(s);
    NoSpaceOrDot(s);
    var a := Squash(s, IsSpaceOrDot, '_');
    assert a == s;
    var b := Keep(a, IsTagChar);
    assert b == s;
    SquashIdentity(s, IsUnderscore, '_');
    var c := Squash(b, IsUnderscore, '_');
    assert c == s;
    TrimNothing(s);
  }

  lemma TrimNothing(s: string)
    requires s == [] || (s[0] != '_' && s[|s| - 1] != '_')
    ensures TrimRight(TrimLeft(s, IsUnderscore), IsUnderscore) == s
  {
    assert TrimLeft(s, IsUnderscore) == s;
  }

  lemma NoSpaceOrDot(s: string)
    requires forall i :: 0 <= i < |s| ==> IsTagChar(s[i])
    ensures Squash(s, IsSpaceOrDot, '_') == s
  {
    forall i | 0 <= i < |s| ensures !IsSpaceOrDot(s[i]) {
      assert IsTagChar(s[i]);
    }
    SquashIdentity(s, IsSpaceOrDot, '_');
  }

  /** Sanitising twice is sanitising once. */
  lemma SanitizeIdempotent(v: string)
    ensures SanitizeTag(SanitizeTag(v)) == SanitizeTag(v)
  {
    CleanTagFixed(SanitizeTag(v));
  }

  /** `#` followed by the sanitised value. */
  function Tag(v: string): (r: string)
    ensures |r| >= 1 && r[0] == '#' && r[1..] == SanitizeTag(v)
  {
    "#" + SanitizeTag(v)
  }

  /** The values the hashtags are made from: topic (lower-cased), group, subject, teacher, each only when present. */
  function TagSources(t: Task): (r: seq<string>)
    ensures |r| == (if Truthy(t.topic) then 1 else 0) + (if t.group.Some? then 1 else 0)
      + (if Truthy(t.subjectCode) then 1 else 0) + (if Truthy(t.teacher) then 1 else 0)
    ensures Truthy(t.topic) ==> r[0] == Lower(t.topic.value)
    ensures t.group.Some? ==> r[if Truthy(t.topic) then 1 else 0] == GroupValue(t.group.value)
    ensures Truthy(t.subjectCode) ==> r[|r| - (if Truthy(t.teacher) then 2 else 1)] == t.subjectCode.value
    ensures Truthy(t.teacher) ==> r[|r| - 1] == t.teacher.value
  {
    (if Truthy(t.topic) then [Lower(t.topic.value)] else [])
    + (if t.group.Some? then [GroupValue(t.group.value)] else [])
    + (if Truthy(t.subjectCode) then [t.subjectCode.value] else [])
    + (if Truthy(t.teacher) then [t.teacher.value] else [])
  }

  /** The hashtags of a task, one per source value, in the same order. */
  function Hashtags(t: Task): (r: seq<string>)
    ensures |r| == |TagSources(t)|
    ensures forall i :: 0 <= i < |r| ==> r[i] == Tag(TagSources(t)[i])
  {
    var src := TagSources(t);
    seq(|src|, i requires 0 <= i < |src| => Tag(src[i]))
  }

  // ----- message lines -----

  datatype TagKind = TopicTag | GroupTag | SubjectTag | OtherTag

  /**
   * The emoji choice for one hashtag line, as the elif chain is written: the
   * subject branch compares the hashtag with the raw subject code.
   */
  function KindOfAsWritten(h: string, t: Task): (r: TagKind)
    ensures r == TopicTag <==> StartsWith(h, "#лекция") || StartsWith(h, "#семинар")
    ensures r == SubjectTag ==> Truthy(t.subjectCode) && EndsWith(h, t.subjectCode.value)
  {
    if StartsWith(h, "#лекция") || StartsWith(h, "#семинар") then TopicTag
    else if t.group.Some? && EndsWith(h, GroupValue(t.group.value)) then GroupTag
    else if Truthy(t.subjectCode) && EndsWith(h, t.subjectCode.value) then SubjectTag
    else OtherTag
  }

  /**
   * The emoji choice the model uses: the same chain, with the subject branch
   * comparing against the sanitised subject code, the form the hashtag
   * actually carries.
   */
  function KindOf(h: string, t: Task): (r: TagKind)
    ensures r == TopicTag <==> StartsWith(h, "#лекция") || StartsWith(h, "#семинар")
    ensures r == GroupTag ==> t.group.Some? && EndsWith(h, GroupValue(t.group.value))
    ensures r == SubjectTag ==> Truthy(t.subjectCode) && EndsWith(h, SanitizeTag(t.subjectCode.value))
  {
    if StartsWith(h, "#лекция") || StartsWith(h, "#семинар") then TopicTag
    else if t.group.Some? && EndsWith(h, GroupValue(t.group.value)) then GroupTag
    else if Truthy(t.subjectCode) && EndsWith(h, SanitizeTag(t.subjectCode.value)) then SubjectTag
    else OtherTag
  }

  /** A string made of `#` and tag characters. */
  predicate HashtagShaped(h: string) {
    forall i :: 0 <= i < |h| ==> h[i] == '#' || IsTagChar(h[i])
  }

  lemma TagShaped(v: string)
    ensures HashtagShaped(Tag(v))
  {
    var c := SanitizeTag(v);
    assert forall j :: 0 <= j < |c| ==> IsTagChar(c[j]);
    var h := "#" + c;
    forall i | 0 <= i < |h| ensures h[i] == '#' || IsTagChar(h[i]) {
      if i > 0 { assert h[i] == c[i - 1]; }
    }
  }

  /**
   * As written, a subject code holding a character a hashtag cannot carry (a
   * space, a quote) never gets the subject emoji: no hashtag ends with it.
   */
  lemma SubjectWithSpaceNeverMatches(h: string, t: Task, k: nat)
    requires HashtagShaped(h)
    requires Truthy(t.subjectCode) && k < |t.subjectCode.value|
    requires t.subjectCode.value[k] != '#' && !IsTagChar(t.subjectCode.value[k])
    ensures KindOfAsWritten(h, t) != SubjectTag
  {
  }

  /**
   * The discrepancy on a real key: a recording of "История России" gets its
   * subject hashtag printed with the generic tag emoji.
   */
  lemma HistorySubjectTagMisclassified(t: Task)
    requires t.subjectCode == Some("История России")
    ensures KindOfAsWritten(Tag(t.subjectCode.value), t) != SubjectTag
  {
    assert t.subjectCode.value[7] == ' ';
    OwnTagNeverMatches(t, 7);
  }

  /** In particular the hashtag built from such a subject code does not get the subject emoji. */
  lemma OwnTagNeverMatches(t: Task, k: nat)
    requires Truthy(t.subjectCode) && k < |t.subjectCode.value|
    requires t.subjectCode.value[k] != '#' && !IsTagChar(t.subjectCode.value[k])
    ensures KindOfAsWritten(Tag(t.subjectCode.value), t) != SubjectTag
  {
    TagShaped(t.subjectCode.value);
    SubjectWithSpaceNeverMatches(Tag(t.subjectCode.value), t, k);
  }

  /**
   * Corrected: the hashtag made from the subject code gets the subject emoji
   * whenever the earlier branches of the chain do not claim it.
   */
  lemma SubjectTagRecognised(t: Task)
    requires Truthy(t.subjectCode)
    requires var h := Tag(t.subjectCode.value);
      && !StartsWith(h, "#лекция") && !StartsWith(h, "#семинар")
      && (t.group.Some? ==> !EndsWith(h, GroupValue(t.group.value)))
    ensures KindOf(Tag(t.subjectCode.value), t) == SubjectTag
  {
    var h := Tag(t.subjectCode.value);
    var c := SanitizeTag(t.subjectCode.value);
    assert h[|h| - |c|..] == c;
  }

  /** On subject codes that are already valid hashtags the two chains agree. */
  lemma KindOfAgreesOnCleanCodes(h: string, t: Task)
    requires Truthy(t.subjectCode) ==> CleanTag(t.subjectCode.value)
    ensures KindOf(h, t) == KindOfAsWritten(h, t)
  {
    if Truthy(t.subjectCode) { CleanTagFixed(t.subjectCode.value); }
  }

  /** One line of a notification message. */
  datatype Line =
    | Header(subject: string)
    | DateLine(text: string)
    | TeacherLine(name: string)
    | TagLine(kind: TagKind, tag: string)
    | WatchLine(url: string)
    | DownloadLine(url: string)
    | FileLine(name: string)

  function Render(l: Line): string {
    match l
    case Header(s) => "\U{1F4DA} <b>" + s + "</b>"
    case DateLine(s) => "\U{1F4C5} " + s
    case TeacherLine(s) => "\U{1F468}\U{200D}\U{1F3EB} " + s
    case TagLine(k, h) =>
      (match k
       case TopicTag => "\U{1F4BC} "
       case GroupTag => "\U{1F465} "
       case SubjectTag => "\U{1F4D6} "
       case OtherTag => "\U{1F3F7}\U{FE0F} ") + h
    case WatchLine(u) => "\n\U{1F517} <a href='" + u + "'>Смотреть видео</a>"
    case DownloadLine(u) => "\U{1F517} <a href='" + u + "'>Скачать видео</a>"
    case FileLine(n) => "\n\U{1F4C4} Файл: " + n
  }

  function RenderAll(lines: seq<Line>): seq<string> {
    seq(|lines|, i requires 0 <= i < |lines| => Render(lines[i]))
  }

  /** `SUBJECTS.get(code, code)` for a present code, "Неизвестно" otherwise. */
  function SubjectDisplayText(code: Option<string>): (r: string)
    ensures r != ""
    ensures !Truthy(code) ==> r == "Неизвестно"
    ensures Truthy(code) && IsSubject(code.value) ==> r == SubjectDisplay(code.value).value
    ensures Truthy(code) && !IsSubject(code.value) ==> r == code.value
  {
    if !Truthy(code) then "Неизвестно"
    else match SubjectDisplay(code.value)
      case Some(title) => title
      case None => code.value
  }

  /** `strftime('%d.%m %H:%M')`. */
  function LessonDateText(d: DateTime): (r: string)
    requires 1 <= d.day <= 31 && 1 <= d.month <= 12 && 0 <= d.hour < 24 && 0 <= d.minute < 60
    ensures |r| == 11 && r[2] == '.' && r[5] == ' ' && r[8] == ':'
    ensures r[..2] == Pad2(d.day) && r[3..5] == Pad2(d.month) && r[6..8] == Pad2(d.hour) && r[9..] == Pad2(d.minute)
  {
    Pad2(d.day) + "." + Pad2(d.month) + " " + Pad2(d.hour) + ":" + Pad2(d.minute)
  }

  /** The dates a task can carry: those the path parser builds. */
  predicate WellDated(t: Task) {
    t.lessonDate.Some? ==> ValidDateTime(t.lessonDate.value)
  }

  /** One line per hashtag, each with the emoji its kind gets. */
  function TagLines(t: Task): (r: seq<Line>)
    ensures |r| == |Hashtags(t)|
    ensures forall i :: 0 <= i < |r| ==> r[i] == TagLine(KindOf(Hashtags(t)[i], t), Hashtags(t)[i])
  {
    var tags := Hashtags(t);
    seq(|tags|, i requires 0 <= i < |tags| => TagLine(KindOf(tags[i], t), tags[i]))
  }

  predicate IsDateLine(l: Line) { l.DateLine? }
  predicate IsTeacherLine(l: Line) { l.TeacherLine? }
  predicate IsWatchLine(l: Line) { l.WatchLine? }
  predicate IsDownloadLine(l: Line) { l.DownloadLine? }
  predicate IsFileLine(l: Line) { l.FileLine? }

  /** Some line of `lines` satisfies `p`. */
  predicate Has(lines: seq<Line>, p: Line -> bool) {
    exists i :: 0 <= i < |lines| && p(lines[i])
  }

  /** A line of some kind is in a concatenation exactly when it is in one of the parts. */
  lemma HasAppend(a: seq<Line>, b: seq<Line>, p: Line -> bool)
    ensures Has(a + b, p) <==> Has(a, p) || Has(b, p)
  {
    if Has(a + b, p) {
      var i :| 0 <= i < |a + b| && p((a + b)[i]);
      if i >= |a| { assert (a + b)[i] == b[i - |a|]; }
    }
    if Has(b, p) {
      var i :| 0 <= i < |b| && p(b[i]);
      assert (a + b)[|a| + i] == b[i];
    }
    if Has(a, p) {
      var i :| 0 <= i < |a| && p(a[i]);
      assert (a + b)[i] == a[i];
    }
  }

  lemma HasSingle(l: Line, p: Line -> bool)
    ensures Has([l], p) <==> p(l)
  {
    if p(l) { assert [l][0] == l; }
  }

  lemma TagLinesAreTags(t: Task)
    ensures !Has(TagLines(t), IsDateLine) && !Has(TagLines(t), IsTeacherLine)
    ensures !Has(TagLines(t), IsWatchLine) && !Has(TagLines(t), IsDownloadLine) && !Has(TagLines(t), IsFileLine)
  {
  }

  /** The lines both renderers share: subject, date, teacher, one line per hashtag. */
  function HeaderLines(t: Task): (r: seq<Line>)
    requires WellDated(t)
    ensures |r| == 1 + (if t.lessonDate.Some? then 1 else 0) + (if Truthy(t.teacher) then 1 else 0) + |TagLines(t)|
    ensures r[0] == Header(SubjectDisplayText(t.subjectCode))
    ensures Has(r, IsDateLine) <==> t.lessonDate.Some?
    ensures Has(r, IsTeacherLine) <==> Truthy(t.teacher)
    ensures !Has(r, IsWatchLine) && !Has(r, IsDownloadLine) && !Has(r, IsFileLine)
    ensures t.lessonDate.Some? ==> r[1] == DateLine(LessonDateText(t.lessonDate.value))
    ensures Truthy(t.teacher) ==> r[if t.lessonDate.Some? then 2 else 1] == TeacherLine(t.teacher.value)
    ensures r[|r| - |TagLines(t)|..] == TagLines(t)
  {
    var date := if t.lessonDate.Some? then Some(LessonDateText(t.lessonDate.value)) else None;
    var teacher := if Truthy(t.teacher) then Some(t.teacher.value) else None;
    TagLinesAreTags(t);
    AssembleHeader(SubjectDisplayText(t.subjectCode), date, teacher, TagLines(t))
  }

  /** The header line, then the optional date and teacher lines, then the hashtag lines. */
  function AssembleHeader(subject: string, date: Option<string>, teacher: Option<string>, tags: seq<Line>): (r: seq<Line>)
    requires !Has(tags, IsDateLine) && !Has(tags, IsTeacherLine)
    requires !Has(tags, IsWatchLine) && !Has(tags, IsDownloadLine) && !Has(tags, IsFileLine)
    ensures |r| == 1 + (if date.Some? then 1 else 0) + (if teacher.Some? then 1 else 0) + |tags|
    ensures r[0] == Header(subject)
    ensures Has(r, IsDateLine) <==> date.Some?
    ensures Has(r, IsTeacherLine) <==> teacher.Some?
    ensures !Has(r, IsWatchLine) && !Has(r, IsDownloadLine) && !Has(r, IsFileLine)
    ensures date.Some? ==> r[1] == DateLine(date.value)
    ensures teacher.Some? ==> r[if date.Some? then 2 else 1] == TeacherLine(teacher.value)
    ensures r[|r| - |tags|..] == tags
  {
    var head := [Header(subject)];
    var dateLines := if date.Some? then [DateLine(date.value)] else [];
    var teacherLines := if teacher.Some? then [TeacherLine(teacher.value)] else [];
    HeaderShape(head, dateLines, teacherLines, tags, date.Some?, teacher.Some?);
    head + dateLines + teacherLines + tags
  }

  lemma HeaderShape(head: seq<Line>, dates: seq<Line>, teachers: seq<Line>, tags: seq<Line>, dated: bool, taught: bool)
    requires |head| == 1 && head[0].Header?
    requires dated ==> |dates| == 1 && dates[0].DateLine?
    requires !dated ==> dates == []
    requires taught ==> |teachers| == 1 && teachers[0].TeacherLine?
    requires !taught ==> teachers == []
    requires !Has(tags, IsDateLine) && !Has(tags, IsTeacherLine)
    requires !Has(tags, IsWatchLine) && !Has(tags, IsDownloadLine) && !Has(tags, IsFileLine)
    ensures var r := head + dates + teachers + tags;
      && (Has(r, IsDateLine) <==> dated) && (Has(r, IsTeacherLine) <==> taught)
      && !Has(r, IsWatchLine) && !Has(r, IsDownloadLine) && !Has(r, IsFileLine)
  {
    var ps: seq<Line -> bool> := [IsDateLine, IsTeacherLine, IsWatchLine, IsDownloadLine, IsFileLine];
    forall k | 0 <= k < |ps|
      ensures Has(head + dates + teachers + tags, ps[k]) <==> Has(head, ps[k]) || Has(dates, ps[k]) || Has(teachers, ps[k]) || Has(tags, ps[k])
    {
      HasAppend(head, dates, ps[k]);
      HasAppend(head + dates, teachers, ps[k]);
      HasAppend(head + dates + teachers, tags, ps[k]);
    }
    assert ps[0] == IsDateLine && ps[1] == IsTeacherLine && ps[2] == IsWatchLine && ps[3] == IsDownloadLine && ps[4] == IsFileLine;
    HasSingle(head[0], IsDateLine);
    HasSingle(head[0], IsTeacherLine);
    HasSingle(head[0], IsWatchLine);
    HasSingle(head[0], IsDownloadLine);
    HasSingle(head[0], IsFileLine);
    assert head == [head[0]];
    if dated {
      assert dates == [dates[0]];
      HasSingle(dates[0], IsDateLine);
    }
    if taught {
      assert teachers == [teachers[0]];
      HasSingle(teachers[0], IsTeacherLine);
    }
  }

  /**
   * `format_notification_message`: the shared lines, then a watch link when
   * there is a public URL, then a download link, or the file name when there
   * is no download URL.
   */
  function NotificationLines(t: Task): (r: seq<Line>)
    requires WellDated(t)
    ensures |r| == |HeaderLines(t)| + (if Truthy(t.publicUrl) then 1 else 0) + 1
    ensures r[..|HeaderLines(t)|] == HeaderLines(t) && r[0] == Header(SubjectDisplayText(t.subjectCode))
    ensures Has(r, IsDateLine) <==> t.lessonDate.Some?
    ensures Has(r, IsTeacherLine) <==> Truthy(t.teacher)
    ensures Has(r, IsWatchLine) <==> Truthy(t.publicUrl)
    ensures Has(r, IsDownloadLine) <==> Truthy(t.downloadUrl)
    ensures Has(r, IsFileLine) <==> !Truthy(t.downloadUrl)
    ensures r[|r| - 1] == if Truthy(t.downloadUrl) then DownloadLine(t.downloadUrl.value) else FileLine(t.fileName)
    ensures Truthy(t.publicUrl) ==> r[|r| - 2] == WatchLine(t.publicUrl.value)
  {
    var head := HeaderLines(t);
    var watch := if Truthy(t.publicUrl) then [WatchLine(t.publicUrl.value)] else [];
    var last := if Truthy(t.downloadUrl) then DownloadLine(t.downloadUrl.value) else FileLine(t.fileName);
    LinkShape(head, watch, last);
    head + watch + [last]
  }

  lemma LinkShape(head: seq<Line>, watch: seq<Line>, last: Line)
    requires |head| >= 1
    requires watch == [] || (|watch| == 1 && watch[0].WatchLine?)
    requires last.DownloadLine? || last.FileLine?
    requires !Has(head, IsWatchLine) && !Has(head, IsDownloadLine) && !Has(head, IsFileLine)
    ensures var r := head + watch + [last];
      && |r| == |head| + |watch| + 1 && r[..|head|] == head && r[0] == head[0]
      && r[|r| - 1] == last && (watch != [] ==> r[|r| - 2] == watch[0])
      && (Has(r, IsDateLine) <==> Has(head, IsDateLine))
      && (Has(r, IsTeacherLine) <==> Has(head, IsTeacherLine))
      && (Has(r, IsWatchLine) <==> watch != [])
      && (Has(r, IsDownloadLine) <==> last.DownloadLine?)
      && (Has(r, IsFileLine) <==> last.FileLine?)
  {
    var ps: seq<Line -> bool> := [IsDateLine, IsTeacherLine, IsWatchLine, IsDownloadLine, IsFileLine];
    forall k | 0 <= k < |ps|
      ensures Has(head + watch + [last], ps[k]) <==> Has(head, ps[k]) || Has(watch, ps[k]) || ps[k](last)
    {
      HasAppend(head, watch, ps[k]);
      HasAppend(head + watch, [last], ps[k]);
      HasSingle(last, ps[k]);
    }
    assert ps[0] == IsDateLine && ps[1] == IsTeacherLine && ps[2] == IsWatchLine && ps[3] == IsDownloadLine && ps[4] == IsFileLine;
    if watch != [] {
      assert watch == [watch[0]];
      HasSingle(watch[0], IsDateLine);
      HasSingle(watch[0], IsTeacherLine);
      HasSingle(watch[0], IsWatchLine);
      HasSingle(watch[0], IsDownloadLine);
      HasSingle(watch[0], IsFileLine);
    }
  }

  /** The message text: the rendered lines joined by newlines. */
  function FormatNotificationMessage(t: Task): string
    requires WellDated(t)
  {
    Join(RenderAll(NotificationLines(t)), "\n")
  }
}

=== FILE: lesson_dates.dfy ===
/**
 * Lesson dates written in file and folder names. Three layouts are searched
 * for, in order: year-month-day with dashes, day.month.year, and
 * year.month.day; each may be followed by a time of day. The first
 * occurrence of a layout is the only one tried, and an impossible calendar
 * date there hands over to the next layout.
 */
module LessonDates {
  import opened Optional
  import opened Text
  import opened Clock

  datatype DateLayout = IsoDate | DayFirst | YearFirst

  /** The layouts in the order they are tried. */
  const Layouts: seq<DateLayout> := [IsoDate, DayFirst, YearFirst]

  /** The fields one match captures; the time parts are absent when not written. */
  datatype DateFields = DateFields(year: int, month: int, day: int,
                                   hour: Option<int>, minute: Option<int>, second: Option<int>)

  /** `\d{n}` at position `i` (decimal digits are the ASCII ones here). */
  predicate DigitsAt(s: string, i: nat, n: nat) {
    i + n <= |s| && forall j :: i <= j < i + n ==> IsAsciiDigit(s[j])
  }

  /** `int()` of two digits at `i`. */
  function Num2(s: string, i: nat): (v: int)
    requires DigitsAt(s, i, 2)
    ensures 0 <= v < 100
  {
    DigitValue(s[i]) * 10 + DigitValue(s[i + 1])
  }

  /** `int()` of four digits at `i`. */
  function Num4(s: string, i: nat): (v: int)
    requires DigitsAt(s, i, 4)
    ensures 0 <= v < 10000
  {
    Num2(s, i) * 100 + Num2(s, i + 2)
  }

  /** The two-digit value read is what `int()` makes of the captured digits. */
  lemma Num2IsInt(s: string, i: nat)
    requires DigitsAt(s, i, 2)
    ensures ParseInt(s[i..i + 2]) == Some(Num2(s, i))
  {
    assert s[i..i + 2] == [s[i], s[i + 1]];
    ParsePair(s[i], s[i + 1]);
  }

  /** The four-digit value read is what `int()` makes of the captured digits. */
  lemma Num4IsInt(s: string, i: nat)
    requires DigitsAt(s, i, 4)
    ensures ParseInt(s[i..i + 4]) == Some(Num4(s, i))
  {
    var b := s[i..i + 4];
    assert AllDigits(b);
    assert DigitsValue(b) == Num4(s, i) by {
      assert b == [s[i], s[i + 1], s[i + 2], s[i + 3]];
      DigitsValue4(s[i], s[i + 1], s[i + 2], s[i + 3]);
    }
    ParseDigits(b);
  }

  lemma DigitsValue4(a: char, b: char, c: char, d: char)
    requires IsAsciiDigit(a) && IsAsciiDigit(b) && IsAsciiDigit(c) && IsAsciiDigit(d)
    ensures DigitsValue([a, b, c, d])
      == (DigitValue(a) * 10 + DigitValue(b)) * 100 + DigitValue(c) * 10 + DigitValue(d)
  {
    assert [a, b, c, d][..3] == [a, b, c];
    assert [a, b, c][..2] == [a, b];
    DigitsValuePair(a, b);
  }

  /** The separator allowed between date parts: only '-' for the first layout, '.' or '-' otherwise. */
  predicate DateSep(layout: DateLayout, c: char) {
    if layout == IsoDate then c == '-' else c == '.' || c == '-'
  }

  /** `[T _]`, between the date and the time. */
  predicate TimeLead(c: char) {
    c == 'T' || c == ' ' || c == '_'
  }

  /** `[:\-.]`, between the parts of the time. */
  predicate TimeSep(c: char) {
    c == ':' || c == '-' || c == '.'
  }

  /** The ten-character date part of `layout` starts at `i`. */
  predicate DateAt(s: string, i: nat, layout: DateLayout) {
    if layout == DayFirst then
      DigitsAt(s, i, 2) && DigitsAt(s, i + 3, 2) && DigitsAt(s, i + 6, 4)
      && i + 10 <= |s| && DateSep(layout, s[i + 2]) && DateSep(layout, s[i + 5])
    else
      DigitsAt(s, i, 4) && DigitsAt(s, i + 5, 2) && DigitsAt(s, i + 8, 2)
      && i + 10 <= |s| && DateSep(layout, s[i + 4]) && DateSep(layout, s[i + 7])
  }

  /** `[T _]HH[sep]MM` at `j`. */
  predicate HourMinuteAt(s: string, j: nat) {
    j + 6 <= |s| && TimeLead(s[j]) && DigitsAt(s, j + 1, 2) && TimeSep(s[j + 3]) && DigitsAt(s, j + 4, 2)
  }

  /** `[sep]SS` at `j`. */
  predicate SecondsAt(s: string, j: nat) {
    j + 3 <= |s| && TimeSep(s[j]) && DigitsAt(s, j + 1, 2)
  }

  /**
   * The groups captured by a match starting at `i`: the optional time is
   * taken whenever it is there (the regular expression is greedy), the
   * seconds likewise.
   */
  function FieldsAt(s: string, i: nat, layout: DateLayout): (f: DateFields)
    requires DateAt(s, i, layout)
    ensures f.hour.Some? <==> f.minute.Some?
    ensures f.second.Some? ==> f.hour.Some?
    ensures 0 <= f.year < 10000 && 0 <= f.month < 100 && 0 <= f.day < 100
  {
    var year := if layout == DayFirst then Num4(s, i + 6) else Num4(s, i);
    var month := if layout == DayFirst then Num2(s, i + 3) else Num2(s, i + 5);
    var day := if layout == DayFirst then Num2(s, i) else Num2(s, i + 8);
    var j := i + 10;
    if HourMinuteAt(s, j) then
      var second := if SecondsAt(s, j + 6) then Some(Num2(s, j + 7)) else None;
      DateFields(year, month, day, Some(Num2(s, j + 1)), Some(Num2(s, j + 4)), second)
    else
      DateFields(year, month, day, None, None, None)
  }

  /** `re.search` from position `i` on: the leftmost match of the layout. */
  function SearchFrom(s: string, layout: DateLayout, i: nat): (r: Option<nat>)
    requires i <= |s|
    ensures r.Some? ==> i <= r.value <= |s| && DateAt(s, r.value, layout)
    ensures r.Some? ==> forall j: nat :: i <= j < r.value ==> !DateAt(s, j, layout)
    ensures r.None? ==> forall j: nat :: i <= j <= |s| ==> !DateAt(s, j, layout)
    decreases |s| - i
  {
    if DateAt(s, i, layout) then Some(i)
    else if i == |s| then None
    else SearchFrom(s, layout, i + 1)
  }

  /** The fields of the leftmost match of the layout in `s`. */
  function Search(s: string, layout: DateLayout): (r: Option<DateFields>)
    ensures r.None? <==> forall j: nat :: j <= |s| ==> !DateAt(s, j, layout)
  {
    match SearchFrom(s, layout, 0)
    case None => None
    case Some(i) => Some(FieldsAt(s, i, layout))
  }

  /** `_try_build_datetime`: absent time parts become 0; an impossible date or time is None. */
  function BuildDateTime(f: DateFields): (r: Option<DateTime>)
    ensures r.Some? <==> ValidDateTime(DateTime(f.year, f.month, f.day,
                                                f.hour.GetOr(0), f.minute.GetOr(0), f.second.GetOr(0)))
    ensures r.Some? ==> r.value == DateTime(f.year, f.month, f.day,
                                            f.hour.GetOr(0), f.minute.GetOr(0), f.second.GetOr(0))
  {
    var d := DateTime(f.year, f.month, f.day, f.hour.GetOr(0), f.minute.GetOr(0), f.second.GetOr(0));
    if ValidDateTime(d) then Some(d) else None
  }

  /** One layout's attempt: its leftmost match, if that is a real date. */
  function TryLayout(s: string, layout: DateLayout): Option<DateTime> {
    match Search(s, layout)
    case None => None
    case Some(f) => BuildDateTime(f)
  }

  /**
   * `_extract_datetime_from_text` (and `extract_date_from_filename`): the
   * first layout, in order, whose leftmost match is a real date.
   */
  function DateFromText(s: string): (r: Option<DateTime>)
    ensures s == "" ==> r.None?
    ensures r.Some? ==> ValidDateTime(r.value)
    ensures s != "" ==> r == (if TryLayout(s, IsoDate).Some? then TryLayout(s, IsoDate)
                              else if TryLayout(s, DayFirst).Some? then TryLayout(s, DayFirst)
                              else TryLayout(s, YearFirst))
    ensures r.None? <==> s == "" || forall l :: l in Layouts ==> TryLayout(s, l).None?
  {
    if s == "" then None
    else if TryLayout(s, IsoDate).Some? then TryLayout(s, IsoDate)
    else if TryLayout(s, DayFirst).Some? then TryLayout(s, DayFirst)
    else TryLayout(s, YearFirst)
  }

  // ----- writing dates back -----

  /** The two digits of `n`, zero-padded. */
  function Digits2(n: int): (r: seq<char>)
    requires 0 <= n < 100
    ensures |r| == 2 && IsAsciiDigit(r[0]) && IsAsciiDigit(r[1])
    ensures DigitValue(r[0]) * 10 + DigitValue(r[1]) == n
  {
    [DigitChar(n / 10), DigitChar(n % 10)]
  }

  /** A date written as `YYYY-MM-DD HH:MM:SS`, the form the bot's files carry. */
  function WriteIso(d: DateTime): (r: string)
    requires ValidDateTime(d)
    ensures |r| == 19
  {
    Digits2(d.year / 100) + Digits2(d.year % 100) + "-" + Digits2(d.month) + "-" + Digits2(d.day)
    + " " + Digits2(d.hour) + ":" + Digits2(d.minute) + ":" + Digits2(d.second)
  }

  /** A date written as `DD.MM.YYYY`. */
  function WriteDayFirst(d: DateTime): (r: string)
    requires ValidDateTime(d)
    ensures |r| == 10
  {
    Digits2(d.day) + "." + Digits2(d.month) + "." + Digits2(d.year / 100) + Digits2(d.year % 100)
  }

  /** A date written as `YYYY.MM.DD`. */
  function WriteYearFirst(d: DateTime): (r: string)
    requires ValidDateTime(d)
    ensures |r| == 10
  {
    Digits2(d.year / 100) + Digits2(d.year % 100) + "." + Digits2(d.month) + "." + Digits2(d.day)
  }

  /** A full timestamp in the first layout reads back as itself. */
  lemma IsoRoundTrip(d: DateTime)
    requires ValidDateTime(d)
    ensures DateFromText(WriteIso(d)) == Some(d)
  {
    var s := WriteIso(d);
    IsoLayout(d);
    assert FieldsAt(s, 0, IsoDate) == DateFields(d.year, d.month, d.day, Some(d.hour), Some(d.minute), Some(d.second));
  }

  /** Where each field of the first layout sits in the written string, and what it reads as. */
  lemma IsoLayout(d: DateTime)
    requires ValidDateTime(d)
    ensures var s := WriteIso(d);
      && DateAt(s, 0, IsoDate) && HourMinuteAt(s, 10) && SecondsAt(s, 16)
      && Num4(s, 0) == d.year && Num2(s, 5) == d.month && Num2(s, 8) == d.day
      && Num2(s, 11) == d.hour && Num2(s, 14) == d.minute && Num2(s, 17) == d.second
  {
    var s := WriteIso(d);
    var y1, y2, mo, da := Digits2(d.year / 100), Digits2(d.year % 100), Digits2(d.month), Digits2(d.day);
    var h, mi, se := Digits2(d.hour), Digits2(d.minute), Digits2(d.second);
    assert s == [y1[0], y1[1], y2[0], y2[1], '-', mo[0], mo[1], '-', da[0], da[1],
                 ' ', h[0], h[1], ':', mi[0], mi[1], ':', se[0], se[1]];
    assert DateAt(s, 0, IsoDate);
    assert Num4(s, 0) == d.year;
  }

  /** A bare day-first date reads back as that day at midnight. */
  lemma DayFirstRoundTrip(d: DateTime)
    requires ValidDateTime(d)
    ensures DateFromText(WriteDayFirst(d)) == Some(DateTime(d.year, d.month, d.day, 0, 0, 0))
  {
    var s := WriteDayFirst(d);
    var y1, y2, mo, da := Digits2(d.year / 100), Digits2(d.year % 100), Digits2(d.month), Digits2(d.day);
    assert s == [da[0], da[1], '.', mo[0], mo[1], '.', y1[0], y1[1], y2[0], y2[1]];
    assert !DateAt(s, 0, IsoDate);
    assert TryLayout(s, IsoDate) == None;
    assert DateAt(s, 0, DayFirst) && !HourMinuteAt(s, 10);
    assert Num4(s, 6) == d.year;
    assert FieldsAt(s, 0, DayFirst) == DateFields(d.year, d.month, d.day, None, None, None);
  }

  /** A bare year-first dotted date reads back as that day at midnight. */
  lemma YearFirstRoundTrip(d: DateTime)
    requires ValidDateTime(d)
    ensures DateFromText(WriteYearFirst(d)) == Some(DateTime(d.year, d.month, d.day, 0, 0, 0))
  {
    var s := WriteYearFirst(d);
    var y1, y2, mo, da := Digits2(d.year / 100), Digits2(d.year % 100), Digits2(d.month), Digits2(d.day);
    assert s == [y1[0], y1[1], y2[0], y2[1], '.', mo[0], mo[1], '.', da[0], da[1]];
    assert !DateAt(s, 0, IsoDate) && !DateAt(s, 0, DayFirst);
    assert TryLayout(s, IsoDate) == None && TryLayout(s, DayFirst) == None;
    assert DateAt(s, 0, YearFirst) && !HourMinuteAt(s, 10);
    assert Num4(s, 0) == d.year;
    assert FieldsAt(s, 0, YearFirst) == DateFields(d.year, d.month, d.day, None, None, None);
  }
}

=== FILE: long_poll.dfy ===
/**
 * The disk poller: one pass walks the public folder breadth-first, keeps the
 * files modified after the stored checkpoint, turns each into a task for the
 * queue, and moves the checkpoint to the newest modification time seen.
 *
 * The remote listing is a finite tree of resources (each directory's
 * children are its listing after paging); the paging loop of a single
 * directory is modelled separately over the sequence of responses its
 * requests receive. Parsing a modification timestamp is a parameter.
 */
module LongPoll {
  import opened Optional
  import opened Text
  import opened Notifications
  import opened NotificationStore
  import PathParser

  /** One entry of a directory listing, as the disk API returns it. */
  datatype Resource = Resource(
    kind: Option<string>,
    path: Option<string>,
    name: Option<string>,
    file: Option<string>,
    md5: Option<string>,
    resourceId: Option<string>,
    modified: Option<string>)

  predicate IsFile(r: Resource) { r.kind == Some("file") }
  predicate IsDir(r: Resource) { r.kind == Some("dir") }

  /** A resource together with, for a directory, its own listing. */
  datatype Node = Node(info: Resource, children: seq<Node>)

  // ----- paging of one directory -----

  const PageLimit: nat := 200

  /** What one listing request came back with. */
  datatype Response = Failed | Page(items: seq<Resource>)

  /** The response to the k-th request; past the recorded ones the folder is exhausted. */
  function ResponseAt(resps: seq<Response>, k: nat): Response {
    if k < |resps| then resps[k] else Page([])
  }

  /** Whether the loop stops after this response: a failure, an empty page or a short one. */
  predicate Stops(r: Response) {
    r.Failed? || r.items == [] || |r.items| < PageLimit
  }

  /** Reference definition: the items collected from the k-th request on. */
  function Collected(resps: seq<Response>, k: nat): seq<Resource>
    decreases |resps| - k
  {
    if k >= |resps| then []
    else match resps[k]
      case Failed => []
      case Page(items) => if |items| < PageLimit then items else items + Collected(resps, k + 1)
  }

  /**
   * `_fetch_directory`: pages requested at offsets 0, 200, 400, ... until a
   * failure, an empty page or a page shorter than the limit; items of the
   * pages fetched before a failure are kept.
   */
  method FetchDirectory(resps: seq<Response>) returns (items: seq<Resource>, offsets: seq<nat>)
    ensures items == Collected(resps, 0)
    ensures |offsets| >= 1 && forall i :: 0 <= i < |offsets| ==> offsets[i] == PageLimit * i
    ensures Stops(ResponseAt(resps, |offsets| - 1))
    ensures forall i :: 0 <= i < |offsets| - 1 ==> !Stops(ResponseAt(resps, i))
  {
    items := [];
    offsets := [];
    var offset: nat := 0;
    while true
      invariant offset == PageLimit * |offsets| && |offsets| <= |resps|
      invariant forall i :: 0 <= i < |offsets| ==> offsets[i] == PageLimit * i
      invariant forall i :: 0 <= i < |offsets| ==> !Stops(ResponseAt(resps, i))
      invariant items + Collected(resps, |offsets|) == Collected(resps, 0)
      decreases |resps| - |offsets|
    {
      var k := |offsets|;
      var resp := ResponseAt(resps, k);
      offsets := offsets + [offset];
      if resp.Failed? || resp.items == [] {
        return;
      }
      items := items + resp.items;
      if |resp.items| < PageLimit {
        return;
      }
      offset := offset + PageLimit;
    }
  }

  // ----- breadth-first walk -----

  function ListSize(l: seq<Node>): nat
    decreases l
  {
    if l == [] then 1 else 1 + ListSize(l[0].children) + ListSize(l[1..])
  }

  function QueueSize(q: seq<seq<Node>>): nat {
    if q == [] then 0 else ListSize(q[0]) + QueueSize(q[1..])
  }

  /** The files of one listing, in listing order. */
  function FilesOf(l: seq<Node>): seq<Resource> {
    if l == [] then [] else (if IsFile(l[0].info) then [l[0].info] else []) + FilesOf(l[1..])
  }

  /** The listings of the sub-directories of one listing, in listing order. */
  function SubDirs(l: seq<Node>): seq<seq<Node>> {
    if l == [] then [] else (if IsDir(l[0].info) then [l[0].children] else []) + SubDirs(l[1..])
  }

  lemma QueueSizeAppend(a: seq<seq<Node>>, b: seq<seq<Node>>)
    ensures QueueSize(a + b) == QueueSize(a) + QueueSize(b)
  {
    if a == [] {
      assert a + b == b;
    } else {
      assert (a + b)[1..] == a[1..] + b;
      QueueSizeAppend(a[1..], b);
    }
  }

  lemma SubDirsSmaller(l: seq<Node>)
    ensures QueueSize(SubDirs(l)) < ListSize(l)
  {
    if l != [] {
      SubDirsSmaller(l[1..]);
      var head: seq<seq<Node>> := if IsDir(l[0].info) then [l[0].children] else [];
      QueueSizeAppend(head, SubDirs(l[1..]));
    }
  }

  /**
   * `_fetch_all_files`: the queue of listings still to scan; the head is
   * taken, its files are yielded and its directories appended, in order.
   */
  function Walk(q: seq<seq<Node>>): seq<Resource>
    decreases QueueSize(q)
  {
    if q == [] then []
    else
      SubDirsSmaller(q[0]);
      QueueSizeAppend(q[1..], SubDirs(q[0]));
      FilesOf(q[0]) + Walk(q[1..] + SubDirs(q[0]))
  }

  /** The walk from the root listing. */
  function FetchAllFiles(root: seq<Node>): (r: seq<Resource>)
    ensures FilesOf(root) <= r
    ensures forall f :: f in r ==> IsFile(f)
  {
    WalkFilesOnly([root]);
    Walk([root])
  }

  lemma FilesOfFilesOnly(l: seq<Node>)
    ensures forall f :: f in FilesOf(l) ==> IsFile(f)
  {
  }

  lemma {:induction false} WalkFilesOnly(q: seq<seq<Node>>)
    ensures forall f :: f in Walk(q) ==> IsFile(f)
    decreases QueueSize(q)
  {
    if q != [] {
      SubDirsSmaller(q[0]);
      QueueSizeAppend(q[1..], SubDirs(q[0]));
      FilesOfFilesOnly(q[0]);
      WalkFilesOnly(q[1..] + SubDirs(q[0]));
    }
  }

  /** Reference definition: every file of the tree, depth-first. */
  function TreeFiles(l: seq<Node>): seq<Resource>
    decreases l
  {
    if l == [] then []
    else
      var own := if IsFile(l[0].info) then [l[0].info] else if IsDir(l[0].info) then TreeFiles(l[0].children) else [];
      own + TreeFiles(l[1..])
  }

  function QueueFiles(q: seq<seq<Node>>): multiset<Resource> {
    if q == [] then multiset{} else multiset(TreeFiles(q[0])) + QueueFiles(q[1..])
  }

  lemma QueueFilesAppend(a: seq<seq<Node>>, b: seq<seq<Node>>)
    ensures QueueFiles(a + b) == QueueFiles(a) + QueueFiles(b)
  {
    if a == [] {
      assert a + b == b;
    } else {
      assert (a + b)[1..] == a[1..] + b;
      QueueFilesAppend(a[1..], b);
    }
  }

  /** A listing's files: its own, plus those under its sub-directories. */
  lemma {:induction false} TreeFilesSplit(l: seq<Node>)
    ensures multiset(TreeFiles(l)) == multiset(FilesOf(l)) + QueueFiles(SubDirs(l))
  {
    if l != [] {
      var n, rest := l[0], l[1..];
      TreeFilesSplit(rest);
      var own := if IsFile(n.info) then [n.info] else if IsDir(n.info) then TreeFiles(n.children) else [];
      var file := if IsFile(n.info) then [n.info] else [];
      var dirs: seq<seq<Node>> := if IsDir(n.info) then [n.children] else [];
      assert TreeFiles(l) == own + TreeFiles(rest);
      assert FilesOf(l) == file + FilesOf(rest);
      assert SubDirs(l) == dirs + SubDirs(rest);
      QueueFilesAppend(dirs, SubDirs(rest));
      HeadFiles(n);
      assert multiset(TreeFiles(l)) == multiset(own) + multiset(TreeFiles(rest));
      assert multiset(FilesOf(l)) == multiset(file) + multiset(FilesOf(rest));
      Regroup(multiset(own), multiset(file), QueueFiles(dirs), multiset(FilesOf(rest)), QueueFiles(SubDirs(rest)));
    }
  }

  lemma Regroup<T>(own: multiset<T>, file: multiset<T>, dirs: multiset<T>, files: multiset<T>, queued: multiset<T>)
    requires own == file + dirs
    ensures own + (files + queued) == (file + files) + (dirs + queued)
  {
  }

  /** One entry's files: itself when it is a file, its sub-tree's when it is a directory. */
  lemma HeadFiles(n: Node)
    ensures var own := if IsFile(n.info) then [n.info] else if IsDir(n.info) then TreeFiles(n.children) else [];
      var dirs: seq<seq<Node>> := if IsDir(n.info) then [n.children] else [];
      multiset(own) == multiset(if IsFile(n.info) then [n.info] else []) + QueueFiles(dirs)
  {
    FileNotDir(n.info);
    if IsDir(n.info) {
      var dirs: seq<seq<Node>> := [n.children];
      assert dirs[1..] == [];
      assert QueueFiles(dirs) == multiset(TreeFiles(n.children));
    }
  }

  lemma FileNotDir(r: Resource)
    ensures !(IsFile(r) && IsDir(r))
  {
    if IsFile(r) { assert r.kind.value == "file"; assert r.kind.value[0] != "dir"[0]; }
  }

  lemma {:induction false} WalkFindsQueueFiles(q: seq<seq<Node>>)
    ensures multiset(Walk(q)) == QueueFiles(q)
    decreases QueueSize(q)
  {
    if q != [] {
      SubDirsSmaller(q[0]);
      QueueSizeAppend(q[1..], SubDirs(q[0]));
      WalkFindsQueueFiles(q[1..] + SubDirs(q[0]));
      QueueFilesAppend(q[1..], SubDirs(q[0]));
      TreeFilesSplit(q[0]);
    }
  }

  /** The breadth-first walk yields exactly the files of the tree, each as often as it occurs. */
  lemma WalkFindsEveryFile(root: seq<Node>)
    ensures multiset(FetchAllFiles(root)) == multiset(TreeFiles(root))
  {
    WalkFindsQueueFiles([root]);
  }

  // ----- one pass -----

  /** `_parse_datetime`: an empty or missing value has no time; otherwise `parse` decides. */
  function ModTime(r: Resource, parse: string -> Option<int>): Option<int> {
    if !Truthy(r.modified) then None else parse(r.modified.value)
  }

  /** The modification time of a readable file. */
  function MTime(r: Resource, parse: string -> Option<int>): int {
    ModTime(r, parse).GetOr(0)
  }

  /** Every file's modification time can be read (an unreadable one aborts the pass). */
  predicate Readable(files: seq<Resource>, parse: string -> Option<int>) {
    forall f :: f in files ==> ModTime(f, parse).Some?
  }

  /** `_create_notification_task`: only the subject is read off the path; the file's own fields are copied. */
  function CreateTask(r: Resource, now: int): (t: Task)
    ensures t.fileName == r.name.GetOr("") && t.filePath == r.path.GetOr("")
    ensures t.downloadUrl == r.file && t.md5 == r.md5 && t.resourceId == r.resourceId && t.modifiedIso == r.modified
    ensures t.subjectCode == PathParser.ExtractSubject(r.path.GetOr(""))
    ensures t.subjectTitle.None? && t.topic.None? && t.group.None? && t.groupRaw.None?
    ensures t.teacher.None? && t.lessonDate.None? && t.publicUrl.None?
  {
    var path := r.path.GetOr("");
    NewTask(r.name.GetOr(""), path, now).(
      subjectCode := PathParser.ExtractSubject(path),
      downloadUrl := r.file, md5 := r.md5, resourceId := r.resourceId, modifiedIso := r.modified)
  }

  /** A file is new when there is no checkpoint or it was modified strictly after it. */
  predicate IsNew(last: Option<int>, m: int) {
    last.None? || m > last.value
  }

  /** Reference definition: the new files, in walk order. */
  function NewFiles(last: Option<int>, files: seq<Resource>, parse: string -> Option<int>): seq<Resource>
  {
    if files == [] then []
    else (if IsNew(last, MTime(files[0], parse)) then [files[0]] else []) + NewFiles(last, files[1..], parse)
  }

  function Newer(newest: Option<int>, m: int): Option<int> {
    if newest.None? || m > newest.value then Some(m) else newest
  }

  /** The tasks of the loop of `_check_for_new_files`, one per new file, in order. */
  function Tasks(files: seq<Resource>, now: int): seq<Task> {
    if files == [] then [] else [CreateTask(files[0], now)] + Tasks(files[1..], now)
  }

  /** The same loop's running newest modification time: raised by every new file. */
  function Scan(last: Option<int>, files: seq<Resource>, parse: string -> Option<int>, newest: Option<int>): Option<int>
  {
    if files == [] then newest
    else
      var m := MTime(files[0], parse);
      Scan(last, files[1..], parse, if IsNew(last, m) then Newer(newest, m) else newest)
  }

  /** Without new files the scan keeps the newest time it started with. */
  lemma {:induction false} ScanKeepsNewest(last: Option<int>, files: seq<Resource>, parse: string -> Option<int>, newest: Option<int>)
    requires NewFiles(last, files, parse) == []
    ensures Scan(last, files, parse, newest) == newest
  {
    if files != [] {
      ScanKeepsNewest(last, files[1..], parse, newest);
    }
  }

  /** The newest time never goes down during the scan. */
  lemma {:induction false} ScanRaisesNewest(last: Option<int>, files: seq<Resource>, parse: string -> Option<int>, newest: Option<int>)
    requires newest.Some?
    ensures Scan(last, files, parse, newest).Some?
    ensures Scan(last, files, parse, newest).value >= newest.value
  {
    if files != [] {
      var m := MTime(files[0], parse);
      if !IsNew(last, m) {
        ScanRaisesNewest(last, files[1..], parse, newest);
      } else {
        ScanRaisesNewest(last, files[1..], parse, Newer(newest, m));
      }
    }
  }

  /** The newest time the scan ends with is at or after every new file's time. */
  lemma {:induction false} ScanNewest(last: Option<int>, files: seq<Resource>, parse: string -> Option<int>, newest: Option<int>)
    ensures forall f :: f in NewFiles(last, files, parse) ==>
      Scan(last, files, parse, newest).Some? && MTime(f, parse) <= Scan(last, files, parse, newest).value
  {
    if files != [] {
      var m := MTime(files[0], parse);
      if !IsNew(last, m) {
        ScanNewest(last, files[1..], parse, newest);
      } else {
        ScanNewest(last, files[1..], parse, Newer(newest, m));
        ScanRaisesNewest(last, files[1..], parse, Newer(newest, m));
      }
    }
  }

  /** ... and no more: a newest time the scan moved to is some new file's time. */
  lemma {:induction false} ScanNewestIsAFile(last: Option<int>, files: seq<Resource>, parse: string -> Option<int>, newest: Option<int>)
    ensures var n := Scan(last, files, parse, newest);
      n.Some? && n != newest ==> exists f :: f in NewFiles(last, files, parse) && Some(MTime(f, parse)) == n
  {
    if files != [] {
      var m := MTime(files[0], parse);
      if !IsNew(last, m) {
        ScanNewestIsAFile(last, files[1..], parse, newest);
      } else {
        ScanNewestIsAFile(last, files[1..], parse, Newer(newest, m));
        ScanRaisesNewest(last, files[1..], parse, Newer(newest, m));
        var n := Scan(last, files[1..], parse, Newer(newest, m));
        var nf := NewFiles(last, files, parse);
        assert nf == [files[0]] + NewFiles(last, files[1..], parse);
        if n != Newer(newest, m) {
          var f :| f in NewFiles(last, files[1..], parse) && Some(MTime(f, parse)) == n;
          assert f in nf;
        } else if n != newest {
          assert files[0] in nf;
        }
      }
    }
  }

  /** The state one pass reads and writes: the store (its queue) and the checkpoint. */
  datatype PassResult = PassResult(store: Store, checkpoint: Option<int>, count: nat)

  /**
   * `_check_for_new_files`: the new files' tasks join the queue; the
   * checkpoint moves to the newest time, and only when there were tasks.
   */
  function CheckForNewFiles(st: Store, checkpoint: Option<int>, files: seq<Resource>, parse: string -> Option<int>, now: int): (r: PassResult)
    requires Readable(files, parse)
    ensures r.count == |NewFiles(checkpoint, files, parse)|
    ensures r.store == st.(queue := r.store.queue)
    ensures r.count == 0 ==> r.checkpoint == checkpoint && r.store == st
  {
    TasksOneEach(NewFiles(checkpoint, files, parse), now);
    var tasks := Tasks(NewFiles(checkpoint, files, parse), now);
    if tasks != [] then PassResult(PushToQueue(st, tasks), Scan(checkpoint, files, parse, checkpoint), |tasks|)
    else PassResult(st, checkpoint, 0)
  }

  lemma {:induction false} TasksOneEach(files: seq<Resource>, now: int)
    ensures |Tasks(files, now)| == |files|
    ensures forall i :: 0 <= i < |files| ==> Tasks(files, now)[i] == CreateTask(files[i], now)
  {
    if files != [] {
      TasksOneEach(files[1..], now);
    }
  }

  /** A file becomes a task exactly when it is newer than the checkpoint, one task per file, in walk order, behind the queued ones. */
  lemma PassTasksAreNewFiles(st: Store, checkpoint: Option<int>, files: seq<Resource>, parse: string -> Option<int>, now: int)
    requires Readable(files, parse)
    ensures var r := CheckForNewFiles(st, checkpoint, files, parse, now);
      && |r.store.queue| == |st.queue| + r.count
      && r.store.queue[..|st.queue|] == st.queue
      && forall i :: 0 <= i < r.count ==> r.store.queue[|st.queue| + i] == CreateTask(NewFiles(checkpoint, files, parse)[i], now)
  {
    TasksOneEach(NewFiles(checkpoint, files, parse), now);
  }

  lemma NewFilesAreNew(last: Option<int>, files: seq<Resource>, parse: string -> Option<int>)
    ensures forall f :: f in NewFiles(last, files, parse) <==> f in files && IsNew(last, MTime(f, parse))
  {
    if files != [] {
      NewFilesAreNew(last, files[1..], parse);
    }
  }

  /**
   * The checkpoint never moves back; once moved it is the newest new file's
   * time, and every file of the listing is then at or before it.
   */
  lemma CheckpointAdvances(st: Store, checkpoint: Option<int>, files: seq<Resource>, parse: string -> Option<int>, now: int)
    requires Readable(files, parse)
    ensures var r := CheckForNewFiles(st, checkpoint, files, parse, now);
      && (checkpoint.Some? ==> r.checkpoint.Some? && r.checkpoint.value >= checkpoint.value)
      && (r.count > 0 ==> r.checkpoint.Some? && exists f :: f in files && ModTime(f, parse) == r.checkpoint)
      && (r.checkpoint.Some? ==> forall f :: f in files ==> MTime(f, parse) <= r.checkpoint.value)
  {
    var r := CheckForNewFiles(st, checkpoint, files, parse, now);
    var nf := NewFiles(checkpoint, files, parse);
    NewFilesAreNew(checkpoint, files, parse);
    if nf == [] {
      assert r.checkpoint == checkpoint;
      if checkpoint.Some? {
        forall f | f in files ensures MTime(f, parse) <= checkpoint.value {
          assert f !in nf;
        }
      }
    } else {
      var n := Scan(checkpoint, files, parse, checkpoint);
      assert r.checkpoint == n;
      ScanNewest(checkpoint, files, parse, checkpoint);
      assert nf[0] in nf;
      ScanNewestIsAFile(checkpoint, files, parse, checkpoint);
      if checkpoint.Some? {
        ScanRaisesNewest(checkpoint, files, parse, checkpoint);
      }
      var f :| f in nf && Some(MTime(f, parse)) == n;
      assert ModTime(f, parse) == n;
      forall g | g in files ensures MTime(g, parse) <= n.value {
        if g !in nf {
          assert checkpoint.Some?;
        }
      }
    }
  }

  lemma NoNewFiles(last: Option<int>, files: seq<Resource>, parse: string -> Option<int>)
    requires last.Some? && forall f :: f in files ==> MTime(f, parse) <= last.value
    ensures NewFiles(last, files, parse) == []
  {
    if files != [] {
      NoNewFiles(last, files[1..], parse);
    }
  }

  /** A second pass over the same listing finds nothing and changes nothing. */
  lemma SecondPassIsQuiet(st: Store, checkpoint: Option<int>, files: seq<Resource>, parse: string -> Option<int>, now: int, now': int)
    requires Readable(files, parse)
    ensures var r := CheckForNewFiles(st, checkpoint, files, parse, now);
      CheckForNewFiles(r.store, r.checkpoint, files, parse, now') == PassResult(r.store, r.checkpoint, 0)
  {
    var r := CheckForNewFiles(st, checkpoint, files, parse, now);
    CheckpointAdvances(st, checkpoint, files, parse, now);
    if r.checkpoint.Some? {
      NoNewFiles(r.checkpoint, files, parse);
    }
  }
}

=== FILE: mappings.dfy ===
/**
 * The enumerations and static tables of the bot's domain: study groups,
 * courses, roles, delivery modes and statuses, the subject and topic
 * dictionaries, and the subjects taught in each course.
 */
module Mappings {
  import opened Optional
  import opened Text

  // ----- enumerations -----

  datatype StudyGroup =
    | Bknad251 | Bknad252 | Bknad253
    | Bknad241 | Bknad242
    | Bknad231 | Bknad232
    | Bknad211 | Bknad212

  /** The string value of each group (`StudyGroups.X.value`). */
  function GroupValue(g: StudyGroup): string {
    match g
    case Bknad251 => "БКНАД251"
    case Bknad252 => "БКНАД252"
    case Bknad253 => "БКНАД253"
    case Bknad241 => "БКНАД241"
    case Bknad242 => "БКНАД242"
    case Bknad231 => "БКНАД231"
    case Bknad232 => "БКНАД232"
    case Bknad211 => "БКНАД211"
    case Bknad212 => "БКНАД212"
  }

  /** The groups in declaration order. */
  const AllGroups: seq<StudyGroup> :=
    [Bknad251, Bknad252, Bknad253, Bknad241, Bknad242, Bknad231, Bknad232, Bknad211, Bknad212]

  /** `StudyGroups(s)`: the group whose value is `s`, if any. */
  function GroupFromValue(s: string): (r: Option<StudyGroup>)
    ensures r.Some? ==> GroupValue(r.value) == s
    ensures r.None? ==> forall g: StudyGroup :: GroupValue(g) != s
  {
    if s == "БКНАД251" then Some(Bknad251)
    else if s == "БКНАД252" then Some(Bknad252)
    else if s == "БКНАД253" then Some(Bknad253)
    else if s == "БКНАД241" then Some(Bknad241)
    else if s == "БКНАД242" then Some(Bknad242)
    else if s == "БКНАД231" then Some(Bknad231)
    else if s == "БКНАД232" then Some(Bknad232)
    else if s == "БКНАД211" then Some(Bknad211)
    else if s == "БКНАД212" then Some(Bknad212)
    else None
  }

  /** The code shape of a group: the letters БКНАД and three decimal digits. */
  predicate IsGroupCode(s: string) {
    |s| == 8 && s[..5] == "БКНАД" && AllDigits(s[5..])
  }

  /** Every `StudyGroups` value has the group-code shape. */
  lemma GroupValuesAreCodes(g: StudyGroup)
    ensures IsGroupCode(GroupValue(g))
  {
  }

  /** Distinct groups have distinct values, and every group is listed once. */
  lemma GroupValueInjective(g: StudyGroup, h: StudyGroup)
    ensures GroupValue(g) == GroupValue(h) ==> g == h
    ensures g in AllGroups
  {
  }

  datatype StudyCourse = Course1 | Course2 | Course3 | Course4

  const AllCourses: seq<StudyCourse> := [Course1, Course2, Course3, Course4]

  function CourseValue(c: StudyCourse): string {
    match c
    case Course1 => "COURSE1"
    case Course2 => "COURSE2"
    case Course3 => "COURSE3"
    case Course4 => "COURSE4"
  }

  datatype UserType = RegularUser | Admin | Superuser

  /** How a user wants deliveries timed. */
  datatype ScheduleMode = Asap | AtTime | InWindow

  datatype NotificationStatus = Pending | Sent | Failed

  /** The stored string of each status. */
  function StatusValue(s: NotificationStatus): string {
    match s
    case Pending => "pending"
    case Sent => "sent"
    case Failed => "failed"
  }

  // ----- subjects and topics -----

  /** The keys of `SUBJECTS`, one constructor per folder name, in dictionary order. */
  datatype Subject =
    | LifeSafety | DiscreteMath | RussianHistory | LinearAlgebra | Calculus | PythonProgramming
    | Algorithms2 | Algebra | Calculus2 | Probability
    | DeepLearning1 | MathStatistics2Short | MathStatistics2 | MachineLearning1
    | SeminarMl1 | SeminarIndustrial1 | SeminarMl2 | SeminarIndustrial2
    | DeepLearning2 | Psychology

  /** The folder name on the disk: the key under which `SUBJECTS` stores the subject. */
  function SubjectKey(s: Subject): string {
    match s
    case LifeSafety => "БЖД"
    case DiscreteMath => "ДМ"
    case RussianHistory => "История России"
    case LinearAlgebra => "ЛА"
    case Calculus => "МА"
    case PythonProgramming => "Программирование на Python"
    case Algorithms2 => "АиСД2"
    case Algebra => "Алгебра"
    case Calculus2 => "МА2"
    case Probability => "Теория вероятностей"
    case DeepLearning1 => "Глубинное обучение 1"
    case MathStatistics2Short => "Мат статистика 2"
    case MathStatistics2 => "Математическая статистика 2"
    case MachineLearning1 => "Машинное обучение 1"
    case SeminarMl1 => "НИС \"Машинное обучение и приложение 1\""
    case SeminarIndustrial1 => "НИС \"Промышленное программирование 1\""
    case SeminarMl2 => "НИС \"Машинное обучение и приложение 2\""
    case SeminarIndustrial2 => "НИС \"Промышленное программирование 2\""
    case DeepLearning2 => "Глубинное обучение 2"
    case Psychology => "ДОЦ Психология"
  }

  /** The display name `SUBJECTS` stores for the subject. */
  function SubjectTitle(s: Subject): (r: string)
    ensures r != ""
  {
    match s
    case LifeSafety => "БЖД"
    case DiscreteMath => "Дискретная математика"
    case RussianHistory => "История России"
    case LinearAlgebra => "Линейная алгебра"
    case Calculus => "Математический анализ"
    case PythonProgramming => "Программирование на Python"
    case Algorithms2 => "Алгоритмы и структуры данных 2"
    case Algebra => "Алгебра"
    case Calculus2 => "Математический анализ 2"
    case Probability => "Теория вероятностей"
    case DeepLearning1 => "Глубинное обучение 1"
    case MathStatistics2Short => "Математическая статистика 2"
    case MathStatistics2 => "Математическая статистика 2"
    case MachineLearning1 => "Машинное обучение 1"
    case SeminarMl1 => "НИС 'Машинное обучение и приложение 1'"
    case SeminarIndustrial1 => "НИС 'Промышленное программирование 1'"
    case SeminarMl2 => "НИС 'Машинное обучение и приложение 2'"
    case SeminarIndustrial2 => "НИС 'Промышленное программирование 2'"
    case DeepLearning2 => "Глубинное обучение 2"
    case Psychology => "ДОЦ Психология"
  }

  /** `list(SUBJECTS.keys())`, in dictionary order. */
  const AllSubjects: seq<Subject> := [
    LifeSafety, DiscreteMath, RussianHistory, LinearAlgebra, Calculus, PythonProgramming,
    Algorithms2, Algebra, Calculus2, Probability,
    DeepLearning1, MathStatistics2Short, MathStatistics2, MachineLearning1,
    SeminarMl1, SeminarIndustrial1, SeminarMl2, SeminarIndustrial2,
    DeepLearning2, Psychology]

  /** The subject stored under `key` in `SUBJECTS`, if any. */
  function SubjectFromKey(key: string): (r: Option<Subject>)
    ensures r.Some? ==> SubjectKey(r.value) == key
  {
    if key == "БЖД" then Some(LifeSafety)
    else if key == "ДМ" then Some(DiscreteMath)
    else if key == "История России" then Some(RussianHistory)
    else if key == "ЛА" then Some(LinearAlgebra)
    else if key == "МА" then Some(Calculus)
    else if key == "Программирование на Python" then Some(PythonProgramming)
    else if key == "АиСД2" then Some(Algorithms2)
    else if key == "Алгебра" then Some(Algebra)
    else if key == "МА2" then Some(Calculus2)
    else if key == "Теория вероятностей" then Some(Probability)
    else if key == "Глубинное обучение 1" then Some(DeepLearning1)
    else if key == "Мат статистика 2" then Some(MathStatistics2Short)
    else if key == "Математическая статистика 2" then Some(MathStatistics2)
    else if key == "Машинное обучение 1" then Some(MachineLearning1)
    else if key == "НИС \"Машинное обучение и приложение 1\"" then Some(SeminarMl1)
    else if key == "НИС \"Промышленное программирование 1\"" then Some(SeminarIndustrial1)
    else if key == "НИС \"Машинное обучение и приложение 2\"" then Some(SeminarMl2)
    else if key == "НИС \"Промышленное программирование 2\"" then Some(SeminarIndustrial2)
    else if key == "Глубинное обучение 2" then Some(DeepLearning2)
    else if key == "ДОЦ Психология" then Some(Psychology)
    else None
  }

  /** Looking a subject's own key up finds that subject: the keys of `SUBJECTS` are distinct. */
  lemma SubjectKeyRoundTrip(s: Subject)
    ensures SubjectFromKey(SubjectKey(s)) == Some(s)
  {
    match s
    case LifeSafety => FindsLifeSafety();
    case DiscreteMath => FindsDiscreteMath();
    case RussianHistory => FindsRussianHistory();
    case LinearAlgebra => FindsLinearAlgebra();
    case Calculus => FindsCalculus();
    case PythonProgramming => FindsPythonProgramming();
    case Algorithms2 => FindsAlgorithms2();
    case Algebra => FindsAlgebra();
    case Calculus2 => FindsCalculus2();
    case Probability => FindsProbability();
    case DeepLearning1 => FindsDeepLearning1();
    case MathStatistics2Short => FindsMathStatistics2Short();
    case MathStatistics2 => FindsMathStatistics2();
    case MachineLearning1 => FindsMachineLearning1();
    case SeminarMl1 => FindsSeminarMl1();
    case SeminarIndustrial1 => FindsSeminarIndustrial1();
    case SeminarMl2 => FindsSeminarMl2();
    case SeminarIndustrial2 => FindsSeminarIndustrial2();
    case DeepLearning2 => FindsDeepLearning2();
    case Psychology => FindsPsychology();
  }

  // The lookup of each key of `SUBJECTS`, one closed computation per key. Where an
  // earlier key has the same length, the body names the character that tells them apart.
  lemma FindsLifeSafety() ensures SubjectFromKey("БЖД") == Some(LifeSafety) {}
  lemma FindsDiscreteMath() ensures SubjectFromKey("ДМ") == Some(DiscreteMath) {}
  lemma FindsRussianHistory() ensures SubjectFromKey("История России") == Some(RussianHistory) {}
  lemma FindsLinearAlgebra() ensures SubjectFromKey("ЛА") == Some(LinearAlgebra) {}
  lemma FindsCalculus() ensures SubjectFromKey("МА") == Some(Calculus) {}
  lemma FindsPythonProgramming() ensures SubjectFromKey("Программирование на Python") == Some(PythonProgramming) {}
  lemma FindsAlgorithms2() ensures SubjectFromKey("АиСД2") == Some(Algorithms2) {}
  lemma FindsAlgebra() ensures SubjectFromKey("Алгебра") == Some(Algebra) {}
  lemma FindsCalculus2() ensures SubjectFromKey("МА2") == Some(Calculus2) {}
  lemma FindsProbability() ensures SubjectFromKey("Теория вероятностей") == Some(Probability) {}
  lemma FindsDeepLearning1() ensures SubjectFromKey("Глубинное обучение 1") == Some(DeepLearning1) {}
  lemma FindsMathStatistics2Short() ensures SubjectFromKey("Мат статистика 2") == Some(MathStatistics2Short) {}
  lemma FindsMathStatistics2() ensures SubjectFromKey("Математическая статистика 2") == Some(MathStatistics2) {}
  lemma FindsMachineLearning1()
    ensures SubjectFromKey("Машинное обучение 1") == Some(MachineLearning1)
  {
    assert "Машинное обучение 1"[0] != "Теория вероятностей"[0];
  }
  lemma FindsSeminarMl1() ensures SubjectFromKey("НИС \"Машинное обучение и приложение 1\"") == Some(SeminarMl1) {}
  lemma FindsSeminarIndustrial1() ensures SubjectFromKey("НИС \"Промышленное программирование 1\"") == Some(SeminarIndustrial1) {}
  lemma FindsSeminarMl2() ensures SubjectFromKey("НИС \"Машинное обучение и приложение 2\"") == Some(SeminarMl2) {}
  lemma FindsSeminarIndustrial2() ensures SubjectFromKey("НИС \"Промышленное программирование 2\"") == Some(SeminarIndustrial2) {}
  lemma FindsDeepLearning2()
    ensures SubjectFromKey("Глубинное обучение 2") == Some(DeepLearning2)
  {
    assert "Глубинное обучение 2"[19] != "Глубинное обучение 1"[19];
  }
  lemma FindsPsychology()
    ensures SubjectFromKey("ДОЦ Психология") == Some(Psychology)
  {
    assert "ДОЦ Психология"[0] != "История России"[0];
  }

  /** `key in SUBJECTS`. */
  predicate IsSubject(key: string) {
    SubjectFromKey(key).Some?
  }

  /** `SUBJECTS.get(key)`. */
  function SubjectDisplay(key: string): (r: Option<string>)
    ensures r.Some? <==> IsSubject(key)
    ensures r.Some? ==> r.value != ""
  {
    match SubjectFromKey(key)
    case Some(s) => Some(SubjectTitle(s))
    case None => None
  }

  /** `list(SUBJECTS.keys())`. */
  function SubjectKeys(): (r: seq<string>)
    ensures |r| == |AllSubjects|
    ensures forall i :: 0 <= i < |r| ==> r[i] == SubjectKey(AllSubjects[i])
  {
    seq(|AllSubjects|, i requires 0 <= i < |AllSubjects| => SubjectKey(AllSubjects[i]))
  }

  /** `key in TOPICS`: the topic vocabulary is exactly Лекция and Семинар. */
  predicate IsTopic(key: string) {
    key == "Лекция" || key == "Семинар"
  }

  // ----- courses -----

  /** `COURSE_SUBJECTS[course]`, as subjects. */
  function CourseSubjectList(c: StudyCourse): seq<Subject> {
    match c
    case Course1 => [LifeSafety, DiscreteMath, RussianHistory, LinearAlgebra, Calculus, PythonProgramming]
    case Course2 => [Algorithms2, Algebra, Calculus2, Probability]
    case Course3 => [DeepLearning1, MathStatistics2Short, MathStatistics2, MachineLearning1, SeminarMl1, SeminarIndustrial1]
    case Course4 => [DeepLearning2, Psychology, SeminarMl2, SeminarIndustrial2]
  }

  /** `COURSE_SUBJECTS[course]`: the folder names the course's subjects live under. */
  function CourseSubjects(c: StudyCourse): (r: seq<string>)
    ensures |r| == |CourseSubjectList(c)|
    ensures forall i :: 0 <= i < |r| ==> r[i] == SubjectKey(CourseSubjectList(c)[i])
  {
    var l := CourseSubjectList(c);
    seq(|l|, i requires 0 <= i < |l| => SubjectKey(l[i]))
  }

  /** Every subject a course lists is a key of `SUBJECTS`, and no course list is empty. */
  lemma CourseSubjectsAreKnown(c: StudyCourse)
    ensures |CourseSubjects(c)| > 0
    ensures forall k :: k in CourseSubjects(c) ==> IsSubject(k)
  {
    forall k | k in CourseSubjects(c) ensures IsSubject(k) {
      var i :| 0 <= i < |CourseSubjects(c)| && CourseSubjects(c)[i] == k;
      SubjectKeyRoundTrip(CourseSubjectList(c)[i]);
    }
  }

  /**
   * `get_subject_keys_for_course`: the course's own list, or every subject key
   * when that list is empty.
   */
  function GetSubjectKeysForCourse(c: StudyCourse): (r: seq<string>)
    ensures |r| > 0
    ensures forall k :: k in r ==> IsSubject(k)
    ensures |CourseSubjects(c)| > 0 ==> r == CourseSubjects(c)
  {
    CourseSubjectsAreKnown(c);
    var keys := CourseSubjects(c);
    if |keys| > 0 then keys else SubjectKeys()
  }

  /** `iter_subjects_for_course`: each key paired with its display name, falling back to the key. */
  function IterSubjectsForCourse(c: StudyCourse): (r: seq<(string, string)>)
    ensures |r| == |GetSubjectKeysForCourse(c)|
    ensures forall i :: 0 <= i < |r| ==> r[i].0 == GetSubjectKeysForCourse(c)[i]
    ensures forall i :: 0 <= i < |r| ==> r[i].1 == SubjectDisplay(r[i].0).GetOr(r[i].0)
  {
    var keys := GetSubjectKeysForCourse(c);
    seq(|keys|, i requires 0 <= i < |keys| => (keys[i], SubjectDisplay(keys[i]).GetOr(keys[i])))
  }

  /** Every pair `iter_subjects_for_course` yields carries the title `SUBJECTS` stores for its key. */
  lemma IterSubjectsUseTitles(c: StudyCourse, i: int)
    requires 0 <= i < |IterSubjectsForCourse(c)|
    ensures SubjectDisplay(IterSubjectsForCourse(c)[i].0) == Some(IterSubjectsForCourse(c)[i].1)
  {
    var keys := GetSubjectKeysForCourse(c);
    assert keys[i] in keys;
  }
}

=== FILE: notification.dfy ===
/**
 * The two records the notification pipeline passes around: a task (one new
 * file found on the disk, with whatever metadata was read off it) and a
 * user notification (a task addressed to one user, with its delivery time,
 * status and idempotency id).
 */
module Notifications {
  import opened Optional
  import opened Clock
  import opened Mappings

  datatype Task = Task(
    subjectCode: Option<string>,
    subjectTitle: Option<string>,
    topic: Option<string>,
    group: Option<StudyGroup>,
    /** The raw group-like folder name, kept apart from the resolved group. */
    groupRaw: Option<string>,
    teacher: Option<string>,
    lessonDate: Option<DateTime>,
    fileName: string,
    filePath: string,
    publicUrl: Option<string>,
    downloadUrl: Option<string>,
    md5: Option<string>,
    resourceId: Option<string>,
    modifiedIso: Option<string>,
    createdAt: int)

  /** A task built from the two required fields; everything else is absent. */
  function NewTask(fileName: string, filePath: string, createdAt: int): (t: Task)
    ensures t.fileName == fileName && t.filePath == filePath && t.createdAt == createdAt
    ensures t.subjectCode.None? && t.subjectTitle.None? && t.topic.None?
    ensures t.group.None? && t.groupRaw.None? && t.teacher.None? && t.lessonDate.None?
    ensures t.publicUrl.None? && t.downloadUrl.None?
    ensures t.md5.None? && t.resourceId.None? && t.modifiedIso.None?
  {
    Task(None, None, None, None, None, None, None, fileName, filePath, None, None, None, None, None, createdAt)
  }

  datatype UserNotification = UserNotification(
    userId: int,
    task: Task,
    createdAt: int,
    /** When to deliver; None means immediately. */
    scheduledAt: Option<int>,
    status: NotificationStatus,
    /** Assigned when the notification is stored; the idempotency id. */
    id: Option<string>)

  /** A notification as first built: pending and without an id. */
  function NewUserNotification(userId: int, task: Task, createdAt: int, scheduledAt: Option<int>): (n: UserNotification)
    ensures n.userId == userId && n.task == task && n.createdAt == createdAt && n.scheduledAt == scheduledAt
    ensures n.status == Pending && n.id.None?
  {
    UserNotification(userId, task, createdAt, scheduledAt, Pending, None)
  }
}

=== FILE: notification_service.dfy ===
/**
 * The matcher: which users a new file is for, and when each of them should
 * receive it. Draining the task queue turns each task into one stored
 * notification per matching user.
 */
module NotificationService {
  import opened Optional
  import opened Text
  import opened Clock
  import opened Mappings
  import opened Users
  import opened Notifications
  import opened NotificationStore

  // ----- matching rules -----

  /**
   * `_matches_user_group`: a file in a group-like folder that is not a known
   * group is for nobody; a file without a group is for everyone; a file of
   * a group is for that group's members only.
   */
  predicate MatchesGroup(u: User, t: Task) {
    if Truthy(t.groupRaw) && t.group.None? then false
    else if t.group.None? then true
    else u.group.Some? && u.group.value == t.group.value
  }

  /** `COURSE_SUBJECTS.get(course, [])`. */
  function CourseSubjectsOf(c: Option<StudyCourse>): seq<string> {
    if c.Some? then CourseSubjects(c.value) else []
  }

  /**
   * `_matches_user_course`: the file's subject must be known and among the
   * subjects of the user's course; a course without a subject list matches
   * nothing.
   */
  predicate MatchesCourse(u: User, t: Task) {
    if !Truthy(t.subjectCode) then false
    else
      var subjects := CourseSubjectsOf(u.course);
      if |subjects| == 0 then false
      else t.subjectCode.value in subjects
  }

  /** Every rule of `_should_notify_user` before the duplicate check, in order. */
  predicate PassesRules(u: User, t: Task) {
    && u.notificationsEnabled
    && u.course.Some?
    && MatchesGroup(u, t)
    && MatchesCourse(u, t)
    && !(|Excluded(u)| > 0 && t.subjectCode.Some? && t.subjectCode.value in Excluded(u))
  }

  /**
   * `_should_notify_user`: the rules in order, the duplicate check last, so
   * a file is remembered as sent only for users who passed every other rule.
   */
  function ShouldNotify(st: Store, u: User, t: Task): (r: (bool, Store))
    ensures !PassesRules(u, t) ==> r == (false, st)
    ensures PassesRules(u, t) ==> r == (!IsDuplicate(st, u.tgId, t).0, IsDuplicate(st, u.tgId, t).1)
    ensures r.0 <==> PassesRules(u, t) && DedupKey(t) !in SentSet(st, u.tgId)
  {
    if !PassesRules(u, t) then (false, st)
    else
      var (dup, st') := IsDuplicate(st, u.tgId, t);
      (!dup, st')
  }

  /** Notifications off, no course, or an excluded subject: never notified. */
  lemma NeverNotified(st: Store, u: User, t: Task)
    requires !u.notificationsEnabled || u.course.None? || (t.subjectCode.Some? && t.subjectCode.value in Excluded(u))
    ensures ShouldNotify(st, u, t) == (false, st)
  {
  }

  /** Once a user has been notified of a file, the same file is refused for them, and nothing changes. */
  lemma RepeatRefused(st: Store, u: User, t: Task)
    ensures ShouldNotify(st, u, t).0 ==>
      ShouldNotify(ShouldNotify(st, u, t).1, u, t) == (false, ShouldNotify(st, u, t).1)
  {
    IsDuplicateTwice(st, u.tgId, t);
  }

  /**
   * Since every course has a subject list, the course rule reduces to: the
   * task's subject is one of the user's course subjects.
   */
  lemma CourseRuleSimplified(u: User, t: Task)
    requires u.course.Some?
    ensures MatchesCourse(u, t) <==> t.subjectCode.Some? && t.subjectCode.value in CourseSubjects(u.course.value)
  {
    CourseSubjectsAreKnown(u.course.value);
    if t.subjectCode.Some? && t.subjectCode.value in CourseSubjects(u.course.value) {
      assert IsSubject(t.subjectCode.value);
      assert t.subjectCode.value != "";
    }
  }

  /** A task with neither a group nor a raw group passes the group rule for every user. */
  lemma UngroupedTaskForEveryone(u: User, t: Task)
    requires t.group.None? && t.groupRaw.None?
    ensures MatchesGroup(u, t)
  {
  }

  /** A task of a known group reaches exactly the members of that group. */
  lemma GroupedTaskForMembers(u: User, t: Task)
    requires t.group.Some?
    ensures MatchesGroup(u, t) <==> u.group == t.group
  {
  }

  // ----- send time -----

  /**
   * `_next_scheduled_time`: today at the target hour and minute if that is
   * still ahead of `now`, otherwise the same clock time tomorrow.
   */
  function NextScheduledTime(now: int, target: Time): (r: int)
    ensures now < r <= now + SecondsPerDay
    ensures SecondOfDay(r) == MinuteOffset(target)
    ensures r == TodayAt(now, target) || r == TodayAt(now, target) + SecondsPerDay
    ensures TodayAt(now, target) > now ==> r == TodayAt(now, target)
  {
    var scheduled := TodayAt(now, target);
    if scheduled <= now then
      NextDay(scheduled);
      scheduled + SecondsPerDay
    else scheduled
  }

  /** The result is the earliest instant after `now` showing the target clock time. */
  lemma NextScheduledIsEarliest(now: int, target: Time, x: int)
    requires now < x && SecondOfDay(x) == MinuteOffset(target)
    ensures NextScheduledTime(now, target) <= x
  {
    MidnightsApart(now, x);
  }

  /** Inside the delivery window: start of today's window <= now <= end of today's window (both ends included). */
  predicate InsideWindow(now: int, start: Time, end: Time) {
    TodayAt(now, start) <= now <= TodayAt(now, end)
  }

  /**
   * `_next_window_time`: now when inside today's window, else the start of
   * today's window if it is still ahead, else the start of tomorrow's.
   */
  function NextWindowTime(now: int, start: Time, end: Time): (r: int)
    ensures r >= now
    ensures r == now <==> InsideWindow(now, start, end)
    ensures MinuteOffset(start) > MinuteOffset(end) ==> !InsideWindow(now, start, end)
  {
    var startToday := TodayAt(now, start);
    var endToday := TodayAt(now, end);
    if startToday <= now <= endToday then now
    else if now < startToday then startToday
    else startToday + SecondsPerDay
  }

  /** Outside the window the result is the next occurrence of the window's start. */
  lemma WindowFallsBackToStart(now: int, start: Time, end: Time)
    ensures NextWindowTime(now, start, end)
      == if InsideWindow(now, start, end) then now else NextScheduledTime(now, start)
  {
  }

  /**
   * `_calculate_send_time`: immediately unless the user asked for a time of
   * day or a window and set it.
   */
  function SendTime(u: User, now: int): (r: int)
    ensures r >= now
    ensures u.mode.None? || u.mode == Some(Asap) ==> r == now
    ensures u.mode == Some(AtTime) && u.sendTime.None? ==> r == now
    ensures u.mode == Some(InWindow) && (u.windowStart.None? || u.windowEnd.None?) ==> r == now
    ensures u.mode == Some(AtTime) && u.sendTime.Some? ==> r == NextScheduledTime(now, u.sendTime.value)
    ensures u.mode == Some(InWindow) && u.windowStart.Some? && u.windowEnd.Some? ==>
      r == NextWindowTime(now, u.windowStart.value, u.windowEnd.value)
  {
    match u.mode
    case None => now
    case Some(Asap) => now
    case Some(AtTime) =>
      if u.sendTime.Some? then NextScheduledTime(now, u.sendTime.value) else now
    case Some(InWindow) =>
      if u.windowStart.Some? && u.windowEnd.Some? then
        NextWindowTime(now, u.windowStart.value, u.windowEnd.value)
      else now
  }

  // ----- draining the queue -----

  /** A stored notification is for a user in `users` who passed every rule, timed by that user's settings. */
  predicate ValidNotification(n: UserNotification, users: seq<User>, tasks: seq<Task>, now: int) {
    && n.status == Pending && n.id.Some? && n.createdAt == now && n.task in tasks
    && exists u :: u in users && u.tgId == n.userId && PassesRules(u, n.task) && n.scheduledAt == Some(SendTime(u, now))
  }

  /** Every saved notification's file is remembered as sent to its user. */
  predicate Recorded(saved: seq<UserNotification>, st: Store) {
    forall n :: n in saved ==> DedupKey(n.task) in SentSet(st, n.userId)
  }

  /** No user gets the same file twice. */
  predicate NoRepeats(saved: seq<UserNotification>) {
    forall i, j :: 0 <= i < j < |saved| && saved[i].userId == saved[j].userId ==>
      DedupKey(saved[i].task) != DedupKey(saved[j].task)
  }

  /** Every eligible (task, user) pair has its file remembered as sent to that user. */
  predicate Covered(tasks: seq<Task>, users: seq<User>, st: Store) {
    forall t, u :: t in tasks && u in users && PassesRules(u, t) ==> DedupKey(t) in SentSet(st, u.tgId)
  }

  /** Every saved notification sits in its user's schedule, scored by its delivery instant. */
  predicate Stored(saved: seq<UserNotification>, st: Store) {
    forall n :: n in saved ==> n.scheduledAt.Some? && Entry(n.scheduledAt.value, n) in Schedule(st, n.userId)
  }

  /** Some saved notification carries file `k` to user `v`. */
  predicate Accounted(saved: seq<UserNotification>, v: int, k: string) {
    exists n :: n in saved && n.userId == v && DedupKey(n.task) == k
  }

  /** Some saved notification carries task `t` to user `v`. */
  predicate Delivers(saved: seq<UserNotification>, v: int, t: Task) {
    exists n :: n in saved && n.userId == v && n.task == t
  }

  /** The only file remembered as sent since `st0` is task `t`'s, each time carried by a saved notification of `t`. */
  ghost predicate ExplainedFor(st0: Store, saved: seq<UserNotification>, st: Store, t: Task) {
    forall v, k :: k in SentSet(st, v) && k !in SentSet(st0, v) ==> k == DedupKey(t) && Delivers(saved, v, t)
  }

  /** None of these notifications carries a file already remembered as sent to its user in `st0`. */
  predicate Fresh(added: seq<UserNotification>, st0: Store) {
    forall n :: n in added ==> DedupKey(n.task) !in SentSet(st0, n.userId)
  }

  /**
   * Every schedule entry of `st0` is still in `st`, unless its notification
   * is one of those saved (saving it again moves it).
   */
  ghost predicate Kept(st0: Store, saved: seq<UserNotification>, st: Store) {
    forall v, x :: x in Schedule(st0, v) ==> x in Schedule(st, v) || x.n in saved
  }

  /** Every file remembered as sent since `st0` was carried by a saved notification. */
  ghost predicate Explained(st0: Store, saved: seq<UserNotification>, st: Store) {
    forall v, k :: k in SentSet(st, v) && k !in SentSet(st0, v) ==> Accounted(saved, v, k)
  }

  /**
   * What a drain since `st0` leaves untouched: every saved notification
   * carries a file not yet sent to its user in `st0`, the status records are
   * as they were, schedule entries stay (see `Kept`), sent sets only grow, and
   * every newly sent file was carried by a saved notification.
   */
  ghost predicate Framed(st0: Store, saved: seq<UserNotification>, st: Store) {
    && Fresh(saved, st0)
    && st.status == st0.status
    && Kept(st0, saved, st)
    && (forall v :: SentSet(st0, v) <= SentSet(st, v))
    && Explained(st0, saved, st)
  }

  /**
   * One task offered to a single user: when the user should be notified, a
   * pending notification timed by their settings is stored.
   */
  function OfferToUser(st: Store, u: User, t: Task, now: int): (r: (Store, Option<UserNotification>))
    requires WellFormed(st)
    ensures WellFormed(r.0) && r.0.queue == st.queue
    ensures r.1.Some? <==> PassesRules(u, t) && DedupKey(t) !in SentSet(st, u.tgId)
    ensures r.1.Some? ==> var n := r.1.value;
      && n.userId == u.tgId && n.task == t && n.createdAt == now && n.status == Pending && n.id.Some?
      && n.scheduledAt == Some(SendTime(u, now))
    ensures SentSet(r.0, u.tgId) == if PassesRules(u, t) then SentSet(st, u.tgId) + {DedupKey(t)} else SentSet(st, u.tgId)
    ensures forall v :: v != u.tgId ==> SentSet(r.0, v) == SentSet(st, v)
    ensures r.1.Some? ==> Entry(SendTime(u, now), r.1.value) in Schedule(r.0, u.tgId)
    ensures r.1.None? ==> r.0.schedules == st.schedules
    ensures forall v :: v != u.tgId ==> Schedule(r.0, v) == Schedule(st, v)
    ensures forall x :: x in Schedule(st, u.tgId) && (r.1.None? || x.n != r.1.value) ==> x in Schedule(r.0, u.tgId)
    ensures r.1.Some? ==> forall x :: x in Schedule(r.0, u.tgId) ==>
              x == Entry(SendTime(u, now), r.1.value) || (x in Schedule(st, u.tgId) && x.n != r.1.value)
    ensures r.0.status == st.status
  {
    var (ok, st1) := ShouldNotify(st, u, t);
    if !ok then (st1, None)
    else
      var (st2, stored) := SaveUserNotification(st1, NewUserNotification(u.tgId, t, now, Some(SendTime(u, now))), now);
      (st2, Some(stored))
  }

  function Extend(saved: seq<UserNotification>, stored: Option<UserNotification>): seq<UserNotification> {
    if stored.Some? then saved + [stored.value] else saved
  }

  /** One offer keeps every fact the drain loop carries. */
  lemma OfferStep(st: Store, u: User, t: Task, now: int, users: seq<User>, tasks: seq<Task>, saved: seq<UserNotification>,
                  r: Store, stored: Option<UserNotification>)
    requires WellFormed(st) && u in users && t in tasks
    requires forall n :: n in saved ==> ValidNotification(n, users, tasks, now)
    requires Recorded(saved, st) && NoRepeats(saved) && Stored(saved, st)
    requires (r, stored) == OfferToUser(st, u, t, now)
    ensures saved <= Extend(saved, stored)
    ensures forall n :: n in Extend(saved, stored) ==> ValidNotification(n, users, tasks, now)
    ensures Recorded(Extend(saved, stored), r) && NoRepeats(Extend(saved, stored))
    ensures Stored(Extend(saved, stored), r) && ExplainedFor(st, Extend(saved, stored), r, t)
    ensures forall v :: SentSet(st, v) <= SentSet(r, v)
    ensures PassesRules(u, t) ==> DedupKey(t) in SentSet(r, u.tgId)
  {
    SentGrows(st, r);
    StepStored(st, u, t, now, saved, r, stored);
    StepExplained(st, u, t, now, saved);
    if stored.Some? {
      var n := stored.value;
      assert ValidNotification(n, users, tasks, now) by {
        assert u in users && u.tgId == n.userId && PassesRules(u, n.task);
      }
      AppendKeepsNoRepeats(saved, n, st);
      AppendKeepsFacts(saved, n, users, tasks, now, r);
    } else {
      assert Extend(saved, stored) == saved;
    }
  }

  /** One offer keeps every saved notification in its schedule and adds the new one to its user's. */
  lemma StepStored(st: Store, u: User, t: Task, now: int, saved: seq<UserNotification>,
                   r: Store, stored: Option<UserNotification>)
    requires WellFormed(st) && Recorded(saved, st) && Stored(saved, st)
    requires (r, stored) == OfferToUser(st, u, t, now)
    ensures Stored(Extend(saved, stored), r)
  {
    forall m | m in saved
      ensures Entry(m.scheduledAt.value, m) in Schedule(r, m.userId)
    {
      if m.userId == u.tgId && stored.Some? {
        assert DedupKey(m.task) in SentSet(st, u.tgId);
      }
    }
    AppendStored(saved, stored, r);
  }

  /** Appending a notification whose entry is scheduled keeps the saved list stored. */
  lemma AppendStored(saved: seq<UserNotification>, stored: Option<UserNotification>, r: Store)
    requires Stored(saved, r)
    requires stored.Some? ==>
               stored.value.scheduledAt.Some? &&
               Entry(stored.value.scheduledAt.value, stored.value) in Schedule(r, stored.value.userId)
    ensures Stored(Extend(saved, stored), r)
  {
    if stored.Some? {
      forall m | m in saved + [stored.value]
        ensures m.scheduledAt.Some? && Entry(m.scheduledAt.value, m) in Schedule(r, m.userId)
      {
        if m != stored.value { assert m in saved; }
      }
    }
  }

  /** A file first remembered during one offer is the offered task's, carried by the notification that offer saved. */
  lemma StepExplained(st: Store, u: User, t: Task, now: int, saved: seq<UserNotification>)
    requires WellFormed(st)
    ensures var (r, stored) := OfferToUser(st, u, t, now);
      ExplainedFor(st, Extend(saved, stored), r, t)
  {
    var (r, stored) := OfferToUser(st, u, t, now);
    var s := Extend(saved, stored);
    forall v, k | k in SentSet(r, v) && k !in SentSet(st, v)
      ensures k == DedupKey(t) && Delivers(s, v, t)
    {
      assert v == u.tgId && k == DedupKey(t) && stored.Some?;
      assert stored.value in s;
    }
  }

  /** Two stretches of one task's pass explained by that task make the whole pass explained by it. */
  lemma ExplainedForTrans(a: Store, b: Store, c: Store, s1: seq<UserNotification>, s2: seq<UserNotification>, t: Task)
    requires ExplainedFor(a, s1, b, t) && ExplainedFor(b, s2, c, t) && s1 <= s2
    ensures ExplainedFor(a, s2, c, t)
  {
    forall v, k | k in SentSet(c, v) && k !in SentSet(a, v)
      ensures k == DedupKey(t) && Delivers(s2, v, t)
    {
      if k in SentSet(b, v) {
        var n :| n in s1 && n.userId == v && n.task == t;
        assert n in s2;
      }
    }
  }

  /** A pass explained by one task is explained. */
  lemma ExplainedForIsExplained(a: Store, s: seq<UserNotification>, c: Store, t: Task)
    requires ExplainedFor(a, s, c, t)
    ensures Explained(a, s, c)
  {
    forall v, k | k in SentSet(c, v) && k !in SentSet(a, v)
      ensures Accounted(s, v, k)
    {
      var n :| n in s && n.userId == v && n.task == t;
    }
  }

  /** Files explained over two stretches of a run are explained over the whole run. */
  lemma ExplainedTrans(a: Store, b: Store, c: Store, s1: seq<UserNotification>, s2: seq<UserNotification>)
    requires Explained(a, s1, b) && Explained(b, s2, c) && s1 <= s2
    ensures Explained(a, s2, c)
  {
    forall v, k | k in SentSet(c, v) && k !in SentSet(a, v)
      ensures Accounted(s2, v, k)
    {
      if k in SentSet(b, v) {
        var n :| n in s1 && n.userId == v && DedupKey(n.task) == k;
        assert n in s2;
      }
    }
  }

  /** The saved list stays valid and recorded when a valid, recorded notification joins it. */
  lemma AppendKeepsFacts(saved: seq<UserNotification>, n: UserNotification, users: seq<User>, tasks: seq<Task>, now: int, st: Store)
    requires forall m :: m in saved ==> ValidNotification(m, users, tasks, now)
    requires Recorded(saved, st) && ValidNotification(n, users, tasks, now)
    requires DedupKey(n.task) in SentSet(st, n.userId)
    ensures saved <= saved + [n]
    ensures forall m :: m in saved + [n] ==> ValidNotification(m, users, tasks, now)
    ensures Recorded(saved + [n], st)
  {
    forall m | m in saved + [n] ensures ValidNotification(m, users, tasks, now) && DedupKey(m.task) in SentSet(st, m.userId) {
      if m != n { assert m in saved; }
    }
  }

  /** One task offered to every user in turn (the inner loop of `process_queue`). */
  method OfferTask(st: Store, users: seq<User>, t: Task, now: int, ghost tasks: seq<Task>, saved0: seq<UserNotification>)
    returns (saved: seq<UserNotification>, r: Store)
    requires WellFormed(st) && t in tasks
    requires forall n :: n in saved0 ==> ValidNotification(n, users, tasks, now)
    requires Recorded(saved0, st) && NoRepeats(saved0) && Stored(saved0, st)
    ensures WellFormed(r) && r.queue == st.queue
    ensures saved0 <= saved
    ensures forall n :: n in saved ==> ValidNotification(n, users, tasks, now)
    ensures Recorded(saved, r) && NoRepeats(saved) && Stored(saved, r)
    ensures forall v :: SentSet(st, v) <= SentSet(r, v)
    ensures Covered([t], users, r) && Explained(st, saved, r)
    ensures forall u :: u in users && PassesRules(u, t) && DedupKey(t) !in SentSet(st, u.tgId) ==>
      exists n :: n in saved && n.userId == u.tgId && n.task == t
    ensures PassFramed(st, saved0, saved, r)
  {
    saved, r := OfferEach(st, users, t, now, tasks, saved0);
    assert Covered([t], users, r) by {
      forall u | u in users && PassesRules(u, t) ensures DedupKey(t) in SentSet(r, u.tgId) {
        var i :| 0 <= i < |users| && users[i] == u;
      }
    }
    TaskReachesEveryone(st, users, t, saved, r);
    ExplainedForIsExplained(st, saved, r, t);
  }

  /** The loop of `OfferTask`: each user in turn, the file of `t` explaining everything newly sent. */
  method OfferEach(st: Store, users: seq<User>, t: Task, now: int, ghost tasks: seq<Task>, saved0: seq<UserNotification>)
    returns (saved: seq<UserNotification>, r: Store)
    requires WellFormed(st) && t in tasks
    requires forall n :: n in saved0 ==> ValidNotification(n, users, tasks, now)
    requires Recorded(saved0, st) && NoRepeats(saved0) && Stored(saved0, st)
    ensures PassInv(st, users, t, now, tasks, saved0, |users|, saved, r) && PassFramed(st, saved0, saved, r)
  {
    saved := saved0;
    r := st;
    var j := 0;
    while j < |users|
      invariant 0 <= j <= |users|
      invariant PassInv(st, users, t, now, tasks, saved0, j, saved, r) && PassFramed(st, saved0, saved, r)
    {
      var (r1, stored) := OfferToUser(r, users[j], t, now);
      PassStep(st, users, t, now, tasks, saved0, j, saved, r, r1, stored);
      FrameStep(st, r, users[j], t, now, saved0, saved, r1, stored);
      r := r1;
      saved := Extend(saved, stored);
      j := j + 1;
    }
  }

  /** What the loop of `OfferTask` keeps after offering `t` to the first `j` users. */
  ghost predicate PassInv(st: Store, users: seq<User>, t: Task, now: int, tasks: seq<Task>, saved0: seq<UserNotification>,
                          j: int, saved: seq<UserNotification>, r: Store)
    requires 0 <= j <= |users|
  {
    && WellFormed(r) && r.queue == st.queue
    && (forall n :: n in saved ==> ValidNotification(n, users, tasks, now))
    && Recorded(saved, r) && NoRepeats(saved) && Stored(saved, r)
    && (forall v :: SentSet(st, v) <= SentSet(r, v))
    && (forall i :: 0 <= i < j && PassesRules(users[i], t) ==> DedupKey(t) in SentSet(r, users[i].tgId))
    && ExplainedFor(st, saved, r, t)
  }

  /** Offering `t` to the next user keeps the loop's facts. */
  lemma PassStep(st: Store, users: seq<User>, t: Task, now: int, tasks: seq<Task>, saved0: seq<UserNotification>,
                 j: int, saved: seq<UserNotification>, r: Store, r1: Store, stored: Option<UserNotification>)
    requires 0 <= j < |users| && t in tasks
    requires PassInv(st, users, t, now, tasks, saved0, j, saved, r)
    requires (r1, stored) == OfferToUser(r, users[j], t, now)
    ensures PassInv(st, users, t, now, tasks, saved0, j + 1, Extend(saved, stored), r1)
  {
    var u := users[j];
    OfferStep(r, u, t, now, users, tasks, saved, r1, stored);
    SentGrows(r, r1);
    ExplainedForTrans(st, r, r1, saved, Extend(saved, stored), t);
  }

  /**
   * What one task's pass has done so far, starting from `st` with `saved0`
   * already saved: the notifications it added carry files not yet sent to
   * their users in `st`, the status records are as they were, and schedule
   * entries stay (see `Kept`).
   */
  ghost predicate PassFramed(st: Store, saved0: seq<UserNotification>, saved: seq<UserNotification>, r: Store) {
    saved0 <= saved && Fresh(saved[|saved0|..], st) && r.status == st.status && Kept(st, saved, r)
  }

  /**
   * One offer saves only a notification whose file is new to its user since
   * `st`, leaves the status records alone, and keeps every schedule entry
   * other than one of the notification it saves.
   */
  lemma FrameStep(st: Store, before: Store, u: User, t: Task, now: int, saved0: seq<UserNotification>,
                  saved: seq<UserNotification>, r1: Store, stored: Option<UserNotification>)
    requires WellFormed(before)
    requires forall v :: SentSet(st, v) <= SentSet(before, v)
    requires PassFramed(st, saved0, saved, before)
    requires (r1, stored) == OfferToUser(before, u, t, now)
    ensures PassFramed(st, saved0, Extend(saved, stored), r1)
  {
    if stored.Some? {
      var s := Extend(saved, stored);
      assert DedupKey(stored.value.task) !in SentSet(before, u.tgId);
      assert s[|saved0|..] == saved[|saved0|..] + [stored.value];
    }
    KeptStep(st, before, u, t, now, saved, r1, stored);
  }

  /** One offer moves at most the entry of the notification it saves. */
  lemma KeptStep(st: Store, before: Store, u: User, t: Task, now: int,
                 saved: seq<UserNotification>, r1: Store, stored: Option<UserNotification>)
    requires WellFormed(before) && Kept(st, saved, before)
    requires (r1, stored) == OfferToUser(before, u, t, now)
    ensures Kept(st, Extend(saved, stored), r1)
  {
    var s := Extend(saved, stored);
    forall v, x | x in Schedule(st, v) ensures x in Schedule(r1, v) || x.n in s {
      if x.n in saved {
        assert x.n in s;
      } else if v == u.tgId && stored.Some? && x.n == stored.value {
        assert stored.value in s;
      }
    }
  }

  /** Entries kept over two consecutive stretches are kept over both. */
  lemma KeptTrans(a: Store, b: Store, c: Store, s1: seq<UserNotification>, s2: seq<UserNotification>)
    requires Kept(a, s1, b) && Kept(b, s2, c) && s1 <= s2
    ensures Kept(a, s2, c)
  {
    forall v, x | x in Schedule(a, v) ensures x in Schedule(c, v) || x.n in s2 {
      if x.n in s1 {
        assert x.n in s2;
      }
    }
  }

  /** A drain framed up to `b`, followed by one task's pass from `b`, is framed as a whole. */
  lemma FramedTrans(a: Store, b: Store, c: Store, s1: seq<UserNotification>, s2: seq<UserNotification>)
    requires Framed(a, s1, b) && PassFramed(b, s1, s2, c)
    requires (forall v :: SentSet(b, v) <= SentSet(c, v)) && Explained(b, s2, c)
    ensures Framed(a, s2, c)
  {
    ExplainedTrans(a, b, c, s1, s2);
    FreshJoin(a, b, s1, s2);
    KeptTrans(a, b, c, s1, s2);
  }

  /** Whether a drain is framed does not depend on the queue of the store it starts from. */
  lemma FramedIgnoresQueue(st: Store, start: Store, saved: seq<UserNotification>, r: Store)
    requires start == st.(queue := start.queue) && Framed(start, saved, r)
    ensures Framed(st, saved, r)
  {
    assert forall v :: SentSet(start, v) == SentSet(st, v) && Schedule(start, v) == Schedule(st, v);
  }

  /** Notifications fresh against `a`, joined by ones fresh against a later store, are all fresh against `a`. */
  lemma FreshJoin(a: Store, b: Store, s1: seq<UserNotification>, s2: seq<UserNotification>)
    requires s1 <= s2 && Fresh(s1, a) && Fresh(s2[|s1|..], b)
    requires forall v :: SentSet(a, v) <= SentSet(b, v)
    ensures Fresh(s2, a)
  {
    forall n | n in s2 ensures DedupKey(n.task) !in SentSet(a, n.userId) {
      var i :| 0 <= i < |s2| && s2[i] == n;
      if i >= |s1| {
        assert n == s2[|s1|..][i - |s1|];
      } else {
        assert n == s1[i];
      }
    }
  }

  /** After one task's pass, each eligible user not yet sent the file holds a notification of that task. */
  lemma TaskReachesEveryone(st: Store, users: seq<User>, t: Task, saved: seq<UserNotification>, r: Store)
    requires Covered([t], users, r) && ExplainedFor(st, saved, r, t)
    ensures forall u :: u in users && PassesRules(u, t) && DedupKey(t) !in SentSet(st, u.tgId) ==>
      exists n :: n in saved && n.userId == u.tgId && n.task == t
  {
    forall u | u in users && PassesRules(u, t) && DedupKey(t) !in SentSet(st, u.tgId)
      ensures exists n :: n in saved && n.userId == u.tgId && n.task == t
    {
      assert DedupKey(t) in SentSet(r, u.tgId);
      assert Delivers(saved, u.tgId, t);
    }
  }

  /**
   * `process_queue`: up to `batchSize` tasks taken from the queue, each
   * offered to every user in turn; every user who should be notified gets a
   * pending notification stored in their schedule, timed by their settings.
   * Returns how many were stored.
   */
  method ProcessQueue(st: Store, users: seq<User>, now: int, batchSize: int)
    returns (processed: nat, saved: seq<UserNotification>, r: Store)
    requires WellFormed(st)
    ensures WellFormed(r)
    ensures processed == |saved|
    ensures |r.queue| <= |st.queue| && r.queue == st.queue[|st.queue| - |r.queue|..]
    ensures |st.queue| - |r.queue| == if batchSize <= 0 then 0 else if batchSize < |st.queue| then batchSize else |st.queue|
    ensures forall n :: n in saved ==> ValidNotification(n, users, st.queue[..|st.queue| - |r.queue|], now)
    ensures Recorded(saved, r) && NoRepeats(saved) && Stored(saved, r)
    ensures Covered(st.queue[..|st.queue| - |r.queue|], users, r)
    ensures forall t, u ::
      t in st.queue[..|st.queue| - |r.queue|] && u in users && PassesRules(u, t) && DedupKey(t) !in SentSet(st, u.tgId) ==>
        exists n :: n in saved && n.userId == u.tgId && DedupKey(n.task) == DedupKey(t)
    ensures Framed(st, saved, r)
  {
    var popped;
    popped, r := PopFromQueue(st, batchSize);
    assert st.queue[..|popped|] == popped && st.queue[|popped|..] == r.queue;
    ghost var start := r;
    saved := [];
    var i := 0;
    while i < |popped|
      invariant 0 <= i <= |popped|
      invariant WellFormed(r) && r.queue == st.queue[|popped|..]
      invariant forall n :: n in saved ==> ValidNotification(n, users, popped, now)
      invariant Recorded(saved, r) && NoRepeats(saved) && Stored(saved, r)
      invariant Covered(popped[..i], users, r) && Framed(start, saved, r)
    {
      var before, savedBefore := r, saved;
      saved, r := OfferTask(r, users, popped[i], now, popped, saved);
      SentGrows(before, r);
      FramedTrans(start, before, r, savedBefore, saved);
      assert popped[..i + 1] == popped[..i] + [popped[i]];
      i := i + 1;
    }
    assert popped[..|popped|] == popped;
    EveryPairReached(popped, users, start, saved, r);
    FramedIgnoresQueue(st, start, saved, r);
    processed := |saved|;
  }

  /**
   * `process_queue` as written: it awaits the async generator that
   * `pop_from_queue` returns. Awaiting a generator raises `TypeError`, and
   * calling a generator runs none of its body, so no task leaves the queue.
   * The run returns no count (`None`) and leaves the store as it was.
   */
  function ProcessQueueAsWritten(st: Store, users: seq<User>, now: int, batchSize: int): (r: (Option<nat>, Store))
    ensures r.0.None? && r.1 == st
    ensures forall v :: SentSet(r.1, v) == SentSet(st, v) && Schedule(r.1, v) == Schedule(st, v)
  {
    (None, st)
  }

  /**
   * The two runs part ways as soon as the queue holds a task some user should
   * get: the intended drain notifies that user and counts at least one
   * notification, while the run as written raises and records nothing.
   */
  method ProcessQueueAsWrittenDiffers(st: Store, users: seq<User>, now: int, batchSize: int, u: User)
    returns (processed: nat, r: Store, raised: Option<nat>, left: Store)
    requires WellFormed(st) && batchSize >= 1 && st.queue != []
    requires u in users && PassesRules(u, st.queue[0]) && DedupKey(st.queue[0]) !in SentSet(st, u.tgId)
    ensures processed >= 1 && DedupKey(st.queue[0]) in SentSet(r, u.tgId)
    ensures raised.None? && DedupKey(st.queue[0]) !in SentSet(left, u.tgId)
  {
    var saved;
    processed, saved, r := ProcessQueue(st, users, now, batchSize);
    HeadReached(st.queue, |st.queue| - |r.queue|, users, st, saved, r, u);
    var run := ProcessQueueAsWritten(st, users, now, batchSize);
    raised, left := run.0, run.1;
  }

  /** A drain of at least one task reaches an eligible user who was not yet sent the head task. */
  lemma HeadReached(queue: seq<Task>, k: int, users: seq<User>, st: Store, saved: seq<UserNotification>, r: Store, u: User)
    requires 1 <= k <= |queue|
    requires u in users && PassesRules(u, queue[0]) && DedupKey(queue[0]) !in SentSet(st, u.tgId)
    requires Covered(queue[..k], users, r)
    requires forall t, u :: t in queue[..k] && u in users && PassesRules(u, t) && DedupKey(t) !in SentSet(st, u.tgId) ==>
        exists n :: n in saved && n.userId == u.tgId && DedupKey(n.task) == DedupKey(t)
    ensures |saved| >= 1 && DedupKey(queue[0]) in SentSet(r, u.tgId)
  {
    var t := queue[0];
    assert t == queue[..k][0];
    var n :| n in saved && n.userId == u.tgId && DedupKey(n.task) == DedupKey(t);
  }

  /** Every eligible pair not already sent has a saved notification carrying its file. */
  lemma EveryPairReached(tasks: seq<Task>, users: seq<User>, st0: Store, saved: seq<UserNotification>, r: Store)
    requires Covered(tasks, users, r) && Explained(st0, saved, r)
    ensures forall t, u :: t in tasks && u in users && PassesRules(u, t) && DedupKey(t) !in SentSet(st0, u.tgId) ==>
      exists n :: n in saved && n.userId == u.tgId && DedupKey(n.task) == DedupKey(t)
  {
    forall t, u | t in tasks && u in users && PassesRules(u, t) && DedupKey(t) !in SentSet(st0, u.tgId)
      ensures exists n :: n in saved && n.userId == u.tgId && DedupKey(n.task) == DedupKey(t)
    {
      assert DedupKey(t) in SentSet(r, u.tgId);
      assert Accounted(saved, u.tgId, DedupKey(t));
    }
  }

  /** Sent sets only grow across one rule check. */
  lemma SentGrows(st: Store, st': Store)
    requires forall v :: SentSet(st, v) <= SentSet(st', v)
    ensures forall saved :: Recorded(saved, st) ==> Recorded(saved, st')
    ensures forall ts, us :: Covered(ts, us, st) ==> Covered(ts, us, st')
  {
  }

  /** Adding a notification whose file was not yet remembered for its user keeps every user's files distinct. */
  lemma AppendKeepsNoRepeats(saved: seq<UserNotification>, n: UserNotification, st: Store)
    requires NoRepeats(saved) && Recorded(saved, st)
    requires DedupKey(n.task) !in SentSet(st, n.userId)
    ensures NoRepeats(saved + [n])
  {
    var s := saved + [n];
    forall i, j | 0 <= i < j < |s| && s[i].userId == s[j].userId
      ensures DedupKey(s[i].task) != DedupKey(s[j].task)
    {
      if j == |saved| {
        assert s[i] in saved;
      }
    }
  }
}

=== FILE: notification_store.dfy ===
/**
 * The notification store: a FIFO queue of tasks, one schedule per user
 * ordered by delivery time, one set of already-notified file ids per user,
 * and a status record per notification id. The key-value database behind it
 * is replaced by plain sequences, maps and sets; the key names are modelled
 * separately.
 */
module NotificationStore {
  import opened Optional
  import opened Text
  import opened Notifications

  // ----- key names -----

  /** The configured prefix, trimmed of surrounding whitespace and then of trailing colons. */
  function NormalizePrefix(prefix: string): (r: string)
    ensures r == [] || r[|r| - 1] != ':'
    ensures r == [] || !IsSpace(r[0])
  {
    TrimRight(Strip(prefix), c => c == ':')
  }

  /** `_key`: the base name under the prefix, or the bare base name when the prefix is empty. */
  function Key(prefix: string, base: string): (r: string)
    ensures NormalizePrefix(prefix) == [] ==> r == base
    ensures NormalizePrefix(prefix) != [] ==> r == NormalizePrefix(prefix) + ":" + base
  {
    var p := NormalizePrefix(prefix);
    if p == [] then base else p + ":" + base
  }

  function QueueKey(prefix: string): string {
    Key(prefix, "notifications:queue")
  }

  function UserKey(prefix: string, userId: int): string {
    Key(prefix, "notifications:user:" + IntToString(userId))
  }

  function SentKey(prefix: string, userId: int): string {
    Key(prefix, "notifications:sent:" + IntToString(userId))
  }

  function StatusKey(prefix: string, id: string): string {
    Key(prefix, "notifications:status:" + id)
  }

  /** Under one prefix, different base names give different keys. */
  lemma KeyInjective(prefix: string, a: string, b: string)
    requires Key(prefix, a) == Key(prefix, b)
    ensures a == b
  {
    var p := NormalizePrefix(prefix);
    if p != [] {
      var n := |p| + 1;
      assert Key(prefix, a)[n..] == a;
      assert Key(prefix, b)[n..] == b;
    }
  }

  /** Each user has their own schedule key. */
  lemma UserKeyInjective(prefix: string, u: int, v: int)
    requires UserKey(prefix, u) == UserKey(prefix, v)
    ensures u == v
  {
    var bu, bv := IntToString(u), IntToString(v);
    KeyInjective(prefix, "notifications:user:" + bu, "notifications:user:" + bv);
    assert ("notifications:user:" + bu)[19..] == bu;
    assert ("notifications:user:" + bv)[19..] == bv;
    IntToStringInjective(u, v);
  }

  /** Each user has their own sent-set key. */
  lemma SentKeyInjective(prefix: string, u: int, v: int)
    requires SentKey(prefix, u) == SentKey(prefix, v)
    ensures u == v
  {
    var bu, bv := IntToString(u), IntToString(v);
    KeyInjective(prefix, "notifications:sent:" + bu, "notifications:sent:" + bv);
    assert ("notifications:sent:" + bu)[19..] == bu;
    assert ("notifications:sent:" + bv)[19..] == bv;
    IntToStringInjective(u, v);
  }

  /** Under one prefix, different base names never collide. */
  lemma KeyDistinct(prefix: string, a: string, b: string)
    requires a != b
    ensures Key(prefix, a) != Key(prefix, b)
  {
    var p := NormalizePrefix(prefix);
    if p != [] {
      var n := |p| + 1;
      assert Key(prefix, a)[n..] == a;
      assert Key(prefix, b)[n..] == b;
    }
  }

  /** A schedule key is never a sent-set key or the queue key. */
  lemma KeyKindsDistinct(prefix: string, u: int, v: int)
    ensures UserKey(prefix, u) != SentKey(prefix, v)
    ensures UserKey(prefix, u) != QueueKey(prefix)
  {
    var bu := "notifications:user:" + IntToString(u);
    var bv := "notifications:sent:" + IntToString(v);
    var bq := "notifications:queue";
    assert bu[14] == 'u' && bv[14] == 's' && bq[14] == 'q';
    KeyDistinct(prefix, bu, bv);
    KeyDistinct(prefix, bu, bq);
  }

  // ----- state -----

  /** One member of a user's schedule and its score, the delivery instant. */
  datatype Entry = Entry(score: int, n: UserNotification)

  datatype Store = Store(
    queue: seq<Task>,
    schedules: map<int, seq<Entry>>,
    sent: map<int, set<string>>,
    status: map<string, map<string, string>>,
    nextId: nat)

  const EmptyStore: Store := Store([], map[], map[], map[], 0)

  /** A schedule is kept in ascending score order. */
  predicate Sorted(s: seq<Entry>) {
    forall i, j :: 0 <= i < j < |s| ==> s[i].score <= s[j].score
  }

  /** Every schedule holds only that user's notifications, in score order. */
  predicate WellFormed(st: Store) {
    forall u :: u in st.schedules ==>
      Sorted(st.schedules[u]) && forall e :: e in st.schedules[u] ==> e.n.userId == u
  }

  function Schedule(st: Store, userId: int): seq<Entry> {
    if userId in st.schedules then st.schedules[userId] else []
  }

  // ----- queue -----

  /** `push_to_queue`: the tasks join the tail, in order. */
  function PushToQueue(st: Store, tasks: seq<Task>): (r: Store)
    ensures r.queue == st.queue + tasks
    ensures r == st.(queue := r.queue)
    ensures tasks == [] ==> r == st
  {
    if tasks == [] then st else st.(queue := st.queue + tasks)
  }

  /** `pop_from_queue`: up to `batchSize` tasks taken from the head, one at a time. */
  method PopFromQueue(st: Store, batchSize: int) returns (popped: seq<Task>, r: Store)
    ensures popped + r.queue == st.queue
    ensures |popped| == if batchSize <= 0 then 0 else if batchSize < |st.queue| then batchSize else |st.queue|
    ensures r == st.(queue := r.queue)
  {
    popped := [];
    var rest := st.queue;
    var i := 0;
    while i < batchSize && rest != []
      invariant 0 <= i && (i <= batchSize || i == 0)
      invariant popped + rest == st.queue
      invariant |popped| == i
      decreases |rest|
    {
      popped := popped + [rest[0]];
      rest := rest[1..];
      i := i + 1;
    }
    r := st.(queue := rest);
  }

  // ----- schedules -----

  /** The id given to the `k`-th notification stored without one. */
  function FreshId(k: nat): string {
    "notification-" + NatToString(k)
  }

  lemma FreshIdInjective(j: nat, k: nat)
    requires FreshId(j) == FreshId(k)
    ensures j == k
  {
    assert FreshId(j)[13..] == NatToString(j);
    assert FreshId(k)[13..] == NatToString(k);
    NatToStringValue(j);
    NatToStringValue(k);
  }

  /** How many leading entries have a score no greater than `score`. */
  function Position(s: seq<Entry>, score: int): (k: nat)
    requires Sorted(s)
    ensures k <= |s|
    ensures forall i :: 0 <= i < k ==> s[i].score <= score
    ensures forall i :: k <= i < |s| ==> s[i].score > score
  {
    if s == [] || s[0].score > score then 0 else 1 + Position(s[1..], score)
  }

  /** The schedule with `e` placed after every entry of no greater score. */
  function Insert(s: seq<Entry>, e: Entry): (r: seq<Entry>)
    requires Sorted(s)
    ensures Sorted(r)
    ensures multiset(r) == multiset(s) + multiset{e}
    ensures forall x :: x in r <==> x in s || x == e
  {
    var k := Position(s, e.score);
    InsertAt(s, e, k);
    s[..k] + [e] + s[k..]
  }

  /** Placing `e` at a split of the schedule where the scores pass `e.score`. */
  lemma InsertAt(s: seq<Entry>, e: Entry, k: nat)
    requires Sorted(s) && k <= |s|
    requires forall i :: 0 <= i < k ==> s[i].score <= e.score
    requires forall i :: k <= i < |s| ==> s[i].score > e.score
    ensures Sorted(s[..k] + [e] + s[k..])
    ensures multiset(s[..k] + [e] + s[k..]) == multiset(s) + multiset{e}
    ensures forall x :: x in s[..k] + [e] + s[k..] <==> x in s || x == e
  {
    var r := s[..k] + [e] + s[k..];
    assert s == s[..k] + s[k..];
    forall i, j | 0 <= i < j < |r| ensures r[i].score <= r[j].score {
      if j < k || i > k {
        var i', j' := if i < k then i else i - 1, if j < k then j else j - 1;
        assert r[i] == s[i'] && r[j] == s[j'];
      }
    }
  }

  /** The schedule without the entries of notification `n` (a member is stored once). */
  function Without(s: seq<Entry>, n: UserNotification): (r: seq<Entry>)
    requires Sorted(s)
    ensures Sorted(r)
    ensures forall x :: x in r <==> x in s && x.n != n
    ensures forall x: Entry :: x.n != n ==> multiset(r)[x] == multiset(s)[x]
  {
    if s == [] then []
    else
      var t := Without(s[1..], n);
      assert s == [s[0]] + s[1..];
      if s[0].n == n then t
      else
        ConsSorted(s[0], t, s[1..]);
        [s[0]] + t
  }

  lemma ConsSorted(e: Entry, t: seq<Entry>, rest: seq<Entry>)
    requires Sorted(t)
    requires forall x :: x in t ==> x in rest
    requires forall i :: 0 <= i < |rest| ==> e.score <= rest[i].score
    ensures Sorted([e] + t)
  {
    forall i, j | 0 <= i < j < |[e] + t| ensures ([e] + t)[i].score <= ([e] + t)[j].score {
      if i == 0 {
        assert ([e] + t)[j] == t[j - 1];
        assert t[j - 1] in rest;
      } else {
        assert ([e] + t)[i] == t[i - 1] && ([e] + t)[j] == t[j - 1];
      }
    }
  }

  /** A schedule with notification `n` (re)placed at `score`, as adding a sorted-set member does. */
  function Reschedule(s: seq<Entry>, n: UserNotification, score: int): (r: seq<Entry>)
    requires Sorted(s)
    ensures Sorted(r)
    ensures Entry(score, n) in r
    ensures forall x :: x in r ==> x == Entry(score, n) || (x in s && x.n != n)
    ensures forall x :: x in s && x.n != n ==> x in r
  {
    Insert(Without(s, n), Entry(score, n))
  }

  /**
   * `save_user_notification`: the notification gets a fresh id when it has
   * none, and is stored in its user's schedule under its delivery instant,
   * or under `now` when it is to be sent immediately. Storing the same
   * notification again moves it to the new score.
   */
  function SaveUserNotification(st: Store, n: UserNotification, now: int): (r: (Store, UserNotification))
    requires WellFormed(st)
    ensures WellFormed(r.0)
    ensures r.1.id.Some? && r.1.id.value != ""
    ensures Truthy(n.id) ==> r.1 == n
    ensures !Truthy(n.id) ==> r.1 == n.(id := Some(FreshId(st.nextId))) && r.0.nextId == st.nextId + 1
    ensures Entry(n.scheduledAt.GetOr(now), r.1) in Schedule(r.0, n.userId)
    ensures forall x :: x in Schedule(st, n.userId) && x.n != r.1 ==> x in Schedule(r.0, n.userId)
    ensures forall x :: x in Schedule(r.0, n.userId) ==>
              x == Entry(n.scheduledAt.GetOr(now), r.1) || (x in Schedule(st, n.userId) && x.n != r.1)
    ensures forall u :: u != n.userId ==> Schedule(r.0, u) == Schedule(st, u)
    ensures r.0.schedules.Keys == st.schedules.Keys + {n.userId}
    ensures r.0.queue == st.queue && r.0.sent == st.sent && r.0.status == st.status
  {
    var stored := if Truthy(n.id) then n else n.(id := Some(FreshId(st.nextId)));
    var next := if Truthy(n.id) then st.nextId else st.nextId + 1;
    var score := n.scheduledAt.GetOr(now);
    var schedule := Reschedule(Schedule(st, n.userId), stored, score);
    RescheduleOwned(st, stored, score);
    PutSchedule(st, n.userId, schedule, next);
    (st.(schedules := st.schedules[n.userId := schedule], nextId := next), stored)
  }

  /** Rescheduling a user's own notification keeps the schedule sorted and owned by that user. */
  lemma RescheduleOwned(st: Store, n: UserNotification, score: int)
    requires WellFormed(st)
    ensures var s := Reschedule(Schedule(st, n.userId), n, score);
      Sorted(s) && forall e :: e in s ==> e.n.userId == n.userId
  {
  }

  /** Replacing one user's schedule with a sorted schedule of their own keeps the store well formed. */
  lemma PutSchedule(st: Store, userId: int, s: seq<Entry>, next: nat)
    requires WellFormed(st) && Sorted(s) && forall e :: e in s ==> e.n.userId == userId
    ensures WellFormed(st.(schedules := st.schedules[userId := s], nextId := next))
    ensures forall u :: u != userId ==> Schedule(st.(schedules := st.schedules[userId := s], nextId := next), u) == Schedule(st, u)
  {
  }

  // ----- due notifications -----

  /** Entries whose score lies in `[0, before]`. */
  predicate IsDue(e: Entry, before: int) {
    0 <= e.score <= before
  }

  /** Reference reading of a range query: every due entry of the schedule, in schedule order. */
  function Due(s: seq<Entry>, before: int): (r: seq<Entry>)
    ensures forall x :: x in r <==> x in s && IsDue(x, before)
  {
    if s == [] then []
    else if IsDue(s[0], before) then [s[0]] + Due(s[1..], before)
    else Due(s[1..], before)
  }

  function Min(a: int, b: int): int {
    if a < b then a else b
  }

  /**
   * One user's share of `get_due_notifications`: the first `limit` due
   * entries in score order, and the schedule without them.
   */
  function TakeDue(s: seq<Entry>, before: int, limit: nat): (r: (seq<Entry>, seq<Entry>))
    requires Sorted(s)
    ensures |r.0| <= limit
    ensures forall x :: x in r.0 ==> x in s && IsDue(x, before)
    ensures multiset(r.0) + multiset(r.1) == multiset(s)
    ensures forall x :: x in r.1 ==> x in s
    decreases |s|
  {
    if s == [] || limit == 0 then ([], s)
    else if s[0].score < 0 then
      var (t, rest) := TakeDue(s[1..], before, limit);
      assert s == [s[0]] + s[1..];
      (t, [s[0]] + rest)
    else if s[0].score <= before then
      var (t, rest) := TakeDue(s[1..], before, limit - 1);
      assert s == [s[0]] + s[1..];
      ([s[0]] + t, rest)
    else ([], s)
  }

  /** Both what is taken and what stays are in score order. */
  lemma {:induction false} TakeDueSorted(s: seq<Entry>, before: int, limit: nat)
    requires Sorted(s)
    ensures Sorted(TakeDue(s, before, limit).0) && Sorted(TakeDue(s, before, limit).1)
    decreases |s|
  {
    if s == [] || limit == 0 {
    } else if s[0].score < 0 {
      TakeDueSorted(s[1..], before, limit);
      ConsSorted(s[0], TakeDue(s[1..], before, limit).1, s[1..]);
    } else if s[0].score <= before {
      TakeDueSorted(s[1..], before, limit - 1);
      ConsSorted(s[0], TakeDue(s[1..], before, limit - 1).0, s[1..]);
    }
  }

  /** What is taken is exactly the first `limit` due entries (fewer when fewer are due). */
  lemma {:induction false} TakeDueIsDuePrefix(s: seq<Entry>, before: int, limit: nat)
    requires Sorted(s)
    ensures TakeDue(s, before, limit).0 == Due(s, before)[..Min(limit, |Due(s, before)|)]
    decreases |s|
  {
    if s != [] && limit != 0 {
      TailSorted(s);
      if s[0].score < 0 {
        TakeDueIsDuePrefix(s[1..], before, limit);
        SkipNegative(s, before, limit);
      } else if s[0].score <= before {
        TakeDueIsDuePrefix(s[1..], before, limit - 1);
        TakeHead(s, before, limit);
      } else {
        NothingDueAfter(s, before);
      }
    }
  }

  /** An entry with a negative score is passed over by both readings. */
  lemma SkipNegative(s: seq<Entry>, before: int, limit: nat)
    requires Sorted(s) && s != [] && limit != 0 && s[0].score < 0 && Sorted(s[1..])
    requires TakeDue(s[1..], before, limit).0 == Due(s[1..], before)[..Min(limit, |Due(s[1..], before)|)]
    ensures TakeDue(s, before, limit).0 == Due(s, before)[..Min(limit, |Due(s, before)|)]
  {
    assert Due(s, before) == Due(s[1..], before);
  }

  /** A due first entry is the first one taken, and the rest come from the tail. */
  lemma TakeHead(s: seq<Entry>, before: int, limit: nat)
    requires Sorted(s) && s != [] && limit != 0 && 0 <= s[0].score <= before && Sorted(s[1..])
    requires TakeDue(s[1..], before, limit - 1).0 == Due(s[1..], before)[..Min(limit - 1, |Due(s[1..], before)|)]
    ensures TakeDue(s, before, limit).0 == Due(s, before)[..Min(limit, |Due(s, before)|)]
  {
    var d := Due(s[1..], before);
    assert Due(s, before) == [s[0]] + d;
    assert TakeDue(s, before, limit).0 == [s[0]] + TakeDue(s[1..], before, limit - 1).0;
    ConsTake(s[0], d, limit);
  }

  /** The tail of a sorted schedule is sorted. */
  lemma TailSorted(s: seq<Entry>)
    requires Sorted(s) && s != []
    ensures Sorted(s[1..])
  {
    forall i, j | 0 <= i < j < |s| - 1 ensures s[1..][i].score <= s[1..][j].score {
      assert s[1..][i] == s[i + 1] && s[1..][j] == s[j + 1];
    }
  }

  /** The first `m` of `x` followed by `d` are `x` followed by the first `m - 1` of `d`. */
  lemma ConsTake(x: Entry, d: seq<Entry>, m: nat)
    requires m >= 1
    ensures ([x] + d)[..Min(m, 1 + |d|)] == [x] + d[..Min(m - 1, |d|)]
  {
  }

  /** In a sorted schedule whose first score is past `before`, nothing is due. */
  lemma {:induction false} NothingDueAfter(s: seq<Entry>, before: int)
    requires Sorted(s) && s != [] && s[0].score > before
    ensures Due(s, before) == []
    decreases |s|
  {
    if |s| > 1 {
      TailSorted(s);
      assert s[1..][0] == s[1];
      NothingDueAfter(s[1..], before);
    }
  }

  /** The notifications carried by a run of entries. */
  function Notes(es: seq<Entry>): (r: seq<UserNotification>)
    ensures |r| == |es|
    ensures forall i :: 0 <= i < |es| ==> r[i] == es[i].n
  {
    seq(|es|, i requires 0 <= i < |es| => es[i].n)
  }

  /**
   * `get_due_notifications`: the user schedules in the order the key scan
   * visits them (`order`), each giving up its first `limit` due entries,
   * which are removed as they are yielded.
   */
  function GetDueNotifications(st: Store, before: int, limit: nat, order: seq<int>): (r: (seq<Entry>, Store))
    requires WellFormed(st)
    ensures WellFormed(r.1)
    ensures r.1 == st.(schedules := r.1.schedules)
    ensures r.1.schedules.Keys == st.schedules.Keys
    ensures forall x :: x in r.0 ==> IsDue(x, before)
    ensures |r.0| <= limit * |order|
    decreases |order|
  {
    if order == [] then ([], st)
    else
      var u := order[0];
      var (taken, mid) := if u in st.schedules then TakeFrom(st, u, before, limit) else ([], st);
      var (more, st') := GetDueNotifications(mid, before, limit, order[1..]);
      assert limit * |order| == limit + limit * |order[1..]|;
      (taken + more, st')
  }

  /** One schedule visited: its first `limit` due entries taken out. */
  function TakeFrom(st: Store, u: int, before: int, limit: nat): (r: (seq<Entry>, Store))
    requires WellFormed(st) && u in st.schedules
    ensures WellFormed(r.1)
    ensures r.0 == TakeDue(st.schedules[u], before, limit).0
    ensures r.1 == st.(schedules := st.schedules[u := TakeDue(st.schedules[u], before, limit).1])
    ensures |r.0| <= limit
    ensures forall x :: x in r.0 ==> IsDue(x, before) && x.n.userId == u
  {
    TakeDueSorted(st.schedules[u], before, limit);
    var (taken, rest) := TakeDue(st.schedules[u], before, limit);
    (taken, st.(schedules := st.schedules[u := rest]))
  }

  /** The entries among `es` that belong to user `u`. */
  function OfUser(es: seq<Entry>, u: int): (r: seq<Entry>)
    ensures forall x :: x in r <==> x in es && x.n.userId == u
  {
    if es == [] then []
    else if es[0].n.userId == u then [es[0]] + OfUser(es[1..], u)
    else OfUser(es[1..], u)
  }

  /**
   * Nothing is lost or invented: for every user, what the schedule held is
   * what it holds afterwards plus what was yielded for that user.
   */
  lemma {:induction false} GetDueConserves(st: Store, before: int, limit: nat, order: seq<int>, v: int)
    requires WellFormed(st)
    ensures var (yielded, st') := GetDueNotifications(st, before, limit, order);
      multiset(Schedule(st, v)) == multiset(Schedule(st', v)) + multiset(OfUser(yielded, v))
    decreases |order|
  {
    if order != [] {
      var u := order[0];
      var (taken, mid) := if u in st.schedules then TakeFrom(st, u, before, limit) else ([], st);
      var (more, st') := GetDueNotifications(mid, before, limit, order[1..]);
      assert GetDueNotifications(st, before, limit, order) == (taken + more, st');
      GetDueConserves(mid, before, limit, order[1..], v);
      VisitConserves(st, u, before, limit, v);
      OfUserAppend(taken, more, v);
      SplitSum(multiset(Schedule(st, v)), multiset(Schedule(mid, v)), multiset(OfUser(taken, v)),
               multiset(Schedule(st', v)), multiset(OfUser(more, v)));
    }
  }

  /**
   * What each user receives: a user the scan visits once gets exactly the
   * first `limit` due entries of their schedule, in score order; a user it
   * never visits gets nothing.
   */
  lemma {:induction false} GetDueYieldsDuePrefix(st: Store, before: int, limit: nat, order: seq<int>, v: int)
    requires WellFormed(st)
    ensures var yielded := GetDueNotifications(st, before, limit, order).0;
      v !in order ==> OfUser(yielded, v) == []
    ensures var yielded := GetDueNotifications(st, before, limit, order).0;
      multiset(order)[v] == 1 ==>
        OfUser(yielded, v) == Due(Schedule(st, v), before)[..Min(limit, |Due(Schedule(st, v), before)|)]
    decreases |order|
  {
    if order != [] {
      var u := order[0];
      var (taken, mid) := if u in st.schedules then TakeFrom(st, u, before, limit) else ([], st);
      var (more, st') := GetDueNotifications(mid, before, limit, order[1..]);
      assert GetDueNotifications(st, before, limit, order).0 == taken + more;
      assert order == [u] + order[1..];
      GetDueYieldsDuePrefix(mid, before, limit, order[1..], v);
      OfUserAppend(taken, more, v);
      if u == v {
        if multiset(order)[v] == 1 {
          assert v !in order[1..];
          if u in st.schedules {
            OfUserAll(taken, v);
            TakeDueIsDuePrefix(st.schedules[u], before, limit);
          }
        }
      } else {
        OfUserNone(taken, v);
        assert Schedule(mid, v) == Schedule(st, v);
      }
    }
  }

  /** One visited schedule: what user `v` held is what it holds afterwards plus what was taken for `v`. */
  lemma VisitConserves(st: Store, u: int, before: int, limit: nat, v: int)
    requires WellFormed(st)
    ensures var (taken, mid) := if u in st.schedules then TakeFrom(st, u, before, limit) else ([], st);
      multiset(Schedule(st, v)) == multiset(Schedule(mid, v)) + multiset(OfUser(taken, v))
  {
    if u in st.schedules {
      var (taken, mid) := TakeFrom(st, u, before, limit);
      if v == u {
        OfUserAll(taken, u);
      } else {
        OfUserNone(taken, v);
      }
    }
  }

  lemma SplitSum<T>(whole: multiset<T>, mid: multiset<T>, here: multiset<T>, after: multiset<T>, later: multiset<T>)
    requires whole == mid + here && mid == after + later
    ensures whole == after + (here + later)
  {
  }

  lemma {:induction false} OfUserAppend(a: seq<Entry>, b: seq<Entry>, u: int)
    ensures OfUser(a + b, u) == OfUser(a, u) + OfUser(b, u)
    decreases |a|
  {
    if a == [] {
      assert a + b == b;
    } else {
      assert (a + b)[1..] == a[1..] + b;
      OfUserAppend(a[1..], b, u);
    }
  }

  lemma {:induction false} OfUserAll(a: seq<Entry>, u: int)
    requires forall x :: x in a ==> x.n.userId == u
    ensures OfUser(a, u) == a
    decreases |a|
  {
    if a != [] {
      OfUserAll(a[1..], u);
    }
  }

  lemma {:induction false} OfUserNone(a: seq<Entry>, u: int)
    requires forall x :: x in a ==> x.n.userId != u
    ensures OfUser(a, u) == []
    decreases |a|
  {
    if a != [] {
      OfUserNone(a[1..], u);
    }
  }

  // ----- sent files and statuses -----

  /** `str()` of an optional string, as an f-string renders it. */
  function Show(o: Option<string>): string {
    if o.Some? then o.value else "None"
  }

  /** The id a task's file is remembered by: its md5, else its resource id, else path and modification time. */
  function DedupKey(t: Task): (r: string)
    ensures Truthy(t.md5) ==> r == t.md5.value
    ensures !Truthy(t.md5) && Truthy(t.resourceId) ==> r == t.resourceId.value
    ensures !Truthy(t.md5) && !Truthy(t.resourceId) ==> r == t.filePath + ":" + Show(t.modifiedIso)
    ensures r != ""
  {
    if Truthy(t.md5) then t.md5.value
    else if Truthy(t.resourceId) then t.resourceId.value
    else t.filePath + ":" + Show(t.modifiedIso)
  }

  function SentSet(st: Store, userId: int): set<string> {
    if userId in st.sent then st.sent[userId] else {}
  }

  /**
   * `is_duplicate`: whether the file was already sent to the user; a file
   * seen for the first time is remembered.
   */
  function IsDuplicate(st: Store, userId: int, t: Task): (r: (bool, Store))
    ensures r.0 <==> DedupKey(t) in SentSet(st, userId)
    ensures SentSet(r.1, userId) == SentSet(st, userId) + {DedupKey(t)}
    ensures forall u :: u != userId ==> SentSet(r.1, u) == SentSet(st, u)
    ensures r.1 == st.(sent := r.1.sent)
    ensures r.0 ==> r.1 == st
  {
    var key := DedupKey(t);
    if key in SentSet(st, userId) then (true, st)
    else (false, st.(sent := st.sent[userId := SentSet(st, userId) + {key}]))
  }

  /** Asking twice about the same file: the first answer may be no, the second is always yes and changes nothing. */
  lemma IsDuplicateTwice(st: Store, userId: int, t: Task)
    ensures var (_, st1) := IsDuplicate(st, userId, t);
      IsDuplicate(st1, userId, t) == (true, st1)
  {
  }

  /** Two tasks for the same file (same md5) count as one for a user. */
  lemma SameFileSameKey(t1: Task, t2: Task)
    requires Truthy(t1.md5) && t1.md5 == t2.md5
    ensures DedupKey(t1) == DedupKey(t2)
  {
  }

  /** `mark_as_sent`: the record's status becomes sent, with the time it was sent; other fields stay. */
  function MarkAsSent(st: Store, id: string, nowIso: string): (r: Store)
    ensures id in r.status && "status" in r.status[id] && "sent_at" in r.status[id]
    ensures r.status[id]["status"] == "sent" && r.status[id]["sent_at"] == nowIso
    ensures forall f :: f in r.status[id] <==> f in StatusRecord(st, id) || f == "status" || f == "sent_at"
    ensures forall f :: f in StatusRecord(st, id) && f != "status" && f != "sent_at" ==>
      r.status[id][f] == StatusRecord(st, id)[f]
    ensures forall k :: k != id ==> (k in r.status <==> k in st.status) && (k in st.status ==> r.status[k] == st.status[k])
    ensures r == st.(status := r.status)
  {
    var rec := StatusRecord(st, id)["status" := "sent"]["sent_at" := nowIso];
    st.(status := st.status[id := rec])
  }

  /** `mark_as_failed`: the record's status becomes failed, with the error text and time; other fields stay. */
  function MarkAsFailed(st: Store, id: string, error: string, nowIso: string): (r: Store)
    ensures id in r.status && "status" in r.status[id] && "error" in r.status[id] && "failed_at" in r.status[id]
    ensures r.status[id]["status"] == "failed"
    ensures r.status[id]["error"] == error && r.status[id]["failed_at"] == nowIso
    ensures forall f :: f in r.status[id] <==> f in StatusRecord(st, id) || f == "status" || f == "error" || f == "failed_at"
    ensures forall f :: f in StatusRecord(st, id) && f != "status" && f != "error" && f != "failed_at" ==>
      r.status[id][f] == StatusRecord(st, id)[f]
    ensures forall k :: k != id ==> (k in r.status <==> k in st.status) && (k in st.status ==> r.status[k] == st.status[k])
    ensures r == st.(status := r.status)
  {
    var rec := StatusRecord(st, id)["status" := "failed"]["error" := error]["failed_at" := nowIso];
    st.(status := st.status[id := rec])
  }

  function StatusRecord(st: Store, id: string): map<string, string> {
    if id in st.status then st.status[id] else map[]
  }
}

=== FILE: optional.dfy ===
/** The `Optional[...]` of the Python models: a value that may be absent. */
module Optional {

  datatype Option<+T> = None | Some(value: T) {

    /** The wrapped value, or `default` when absent (Python's `x or default` for non-falsy values). */
    function GetOr(default: T): T {
      match this
      case Some(v) => v
      case None => default
    }
  }
}

=== FILE: pagination.dfy ===
/** Splitting a list into fixed-size pages for the inline keyboards. */
module Pagination {
  import opened Arith

  /** One page of a list, with the bookkeeping the keyboards show. */
  datatype Page<T> = Page(
    items: seq<T>,
    page: int,
    totalPages: int,
    totalItems: int,
    pageSize: int,
    startIndex: int,
    endIndex: int)

  /** `has_prev`. */
  predicate HasPrev<T>(p: Page<T>) {
    p.page > 0
  }

  /** `has_next`. */
  predicate HasNext<T>(p: Page<T>) {
    p.page < p.totalPages - 1
  }

  /** `max(1, ceil(total / size))`: an empty list still has one (empty) page. */
  function TotalPages(total: nat, size: int): (n: int)
    requires size >= 1
    ensures n >= 1
    ensures total == 0 ==> n == 1
    ensures total > 0 ==> (n - 1) * size < total <= n * size
  {
    if total == 0 then
      assert (total + size - 1) / size == 0 by { DivModUnique(size - 1, size, 0, size - 1); }
      1
    else
      CeilDivBounds(total, size);
      (total + size - 1) / size
  }

  function Min(a: int, b: int): int {
    if a <= b then a else b
  }

  /**
   * `paginate`: clamp the requested page into range, then cut out that page's
   * items.
   */
  function Paginate<T>(xs: seq<T>, page: int, size: int): (p: Page<T>)
    requires size >= 1
    ensures p.totalItems == |xs| && p.pageSize == size && p.totalPages == TotalPages(|xs|, size)
    ensures 0 <= p.page < p.totalPages
    ensures 0 <= page < p.totalPages ==> p.page == page
    ensures page < 0 ==> p.page == 0
    ensures page >= p.totalPages ==> p.page == p.totalPages - 1
    ensures p.startIndex == p.page * size && p.endIndex == Min(p.startIndex + size, |xs|)
    ensures 0 <= p.startIndex <= p.endIndex <= |xs|
    ensures |p.items| <= size
    ensures p.items == xs[p.startIndex..p.endIndex]
    ensures xs != [] ==> p.items != []
    ensures HasNext(p) ==> |p.items| == size
  {
    var total := |xs|;
    var n := TotalPages(total, size);
    var k := if page < 0 then 0 else if page > n - 1 then n - 1 else page;
    var start := k * size;
    var end := Min(start + size, total);
    PageStartInRange(total, size, k);
    Page(xs[start..end], k, n, total, size, start, end)
  }

  /** The first item of a page that exists lies inside the list (or is 0 for an empty list). */
  lemma PageStartInRange(total: nat, size: int, k: int)
    requires size >= 1 && 0 <= k < TotalPages(total, size)
    ensures 0 <= k * size <= total
    ensures total > 0 ==> k * size < total
    ensures k < TotalPages(total, size) - 1 ==> k * size + size < total
    ensures k == TotalPages(total, size) - 1 ==> total <= k * size + size
  {
    var n := TotalPages(total, size);
    MulMono(0, k, size);
    if total > 0 {
      MulMono(k, n - 1, size);
      if k < n - 1 {
        MulMono(k + 1, n - 1, size);
        assert (k + 1) * size == k * size + size;
      }
      if k == n - 1 {
        assert n * size == k * size + size;
      }
    }
  }

  /** There is a previous page exactly when the page does not start at the first item. */
  lemma HasPrevIffNotAtStart<T>(xs: seq<T>, page: int, size: int)
    requires size >= 1
    ensures var p := Paginate(xs, page, size);
      HasPrev(p) <==> p.startIndex > 0 || (xs == [] && p.page > 0)
  {
    var p := Paginate(xs, page, size);
    if p.page > 0 { MulMono(1, p.page, size); }
  }

  /** There is a next page exactly when items remain after this page. */
  lemma HasNextIffMoreItems<T>(xs: seq<T>, page: int, size: int)
    requires size >= 1
    ensures var p := Paginate(xs, page, size);
      HasNext(p) <==> p.endIndex < |xs|
  {
    var p := Paginate(xs, page, size);
    PageStartInRange(|xs|, size, p.page);
  }

  /** Asking again for the page a call returned gives the same page. */
  lemma PaginateStable<T>(xs: seq<T>, page: int, size: int)
    requires size >= 1
    ensures Paginate(xs, Paginate(xs, page, size).page, size) == Paginate(xs, page, size)
  {
  }

  /** The items of pages 0 .. k-1, one after another. */
  function AllPages<T>(xs: seq<T>, size: int, k: nat): seq<T>
    requires size >= 1
  {
    if k == 0 then [] else AllPages(xs, size, k - 1) + Paginate(xs, k - 1, size).items
  }

  lemma {:induction false} AllPagesPrefix<T>(xs: seq<T>, size: int, k: nat)
    requires size >= 1 && k <= TotalPages(|xs|, size)
    ensures AllPages(xs, size, k) == xs[..Min(k * size, |xs|)]
  {
    MulSucc(k - 1, size);
    if k > 0 {
      var p := Paginate(xs, k - 1, size);
      AllPagesPrefix(xs, size, k - 1);
      PageStartInRange(|xs|, size, k - 1);
      var before := (k - 1) * size;
      assert p.page == k - 1 && p.startIndex == before;
      assert AllPages(xs, size, k) == xs[..p.startIndex] + xs[p.startIndex..p.endIndex];
      PrefixJoin(xs, p.startIndex, p.endIndex);
    }
  }

  lemma PrefixJoin<T>(xs: seq<T>, a: int, b: int)
    requires 0 <= a <= b <= |xs|
    ensures xs[..a] + xs[a..b] == xs[..b]
  {
  }

  /** Reading every page in order gives back the whole list, nothing lost or repeated. */
  lemma PagesCoverList<T>(xs: seq<T>, size: int)
    requires size >= 1
    ensures AllPages(xs, size, TotalPages(|xs|, size)) == xs
  {
    AllPagesPrefix(xs, size, TotalPages(|xs|, size));
  }

  /** Item `i` sits on page `i / size`, at position `i % size`. */
  lemma ItemOnItsPage<T>(xs: seq<T>, size: int, i: int)
    requires size >= 1 && 0 <= i < |xs|
    ensures var p := Paginate(xs, i / size, size);
      p.page == i / size && i % size < |p.items| && p.items[i % size] == xs[i]
  {
    var k, r := i / size, i % size;
    PageOfIndex(|xs|, size, i, k, r);
    var p := Paginate(xs, k, size);
    assert p.page == k && p.startIndex + r == i && i < p.endIndex;
    assert p.items[r] == xs[p.startIndex + r];
  }

  /** The page number `i / size` of an item is a page that exists, and that page spans the item. */
  lemma PageOfIndex(total: nat, size: int, i: int, k: int, r: int)
    requires size >= 1 && 0 <= i < total && k == i / size && r == i % size
    ensures 0 <= k < TotalPages(total, size)
    ensures k * size + r == i && 0 <= r < size
  {
    assert i == size * k + r;
    MulMono(0, k, size);
    var n := TotalPages(total, size);
    if k >= n {
      MulMono(n, k, size);
    }
  }
}

=== FILE: path_parser.dfy ===
/**
 * Metadata the bot reads off a file's location on the disk: the subject,
 * topic and study group folders it sits in, the teacher named at the start
 * of the file name, the lesson date written in a name, and the public link
 * to the file.
 */
module PathParser {
  import opened Optional
  import opened Text
  import opened Clock
  import opened Mappings
  import opened LessonDates

  // ----- path segments -----

  /** `path.replace("\\", "/")`. */
  function Normalize(path: string): (r: string)
    ensures |r| == |path|
    ensures forall i :: 0 <= i < |path| ==> r[i] == (if path[i] == '\\' then '/' else path[i])
  {
    seq(|path|, i requires 0 <= i < |path| => if path[i] == '\\' then '/' else path[i])
  }

  /** `[s for s in parts if s]`: the non-empty parts, in order. */
  function NonEmpty(parts: seq<string>): (r: seq<string>)
    ensures |r| <= |parts|
    ensures forall s :: s in r <==> s in parts && s != ""
  {
    if parts == [] then []
    else if parts[0] == "" then NonEmpty(parts[1..])
    else [parts[0]] + NonEmpty(parts[1..])
  }

  /** The non-empty path segments, with both slash kinds as separators. */
  function Segments(path: string): (r: seq<string>)
    ensures forall s :: s in r ==> s != "" && '/' !in s && '\\' !in s
  {
    var parts := Split(Normalize(path), '/');
    forall s | s in parts ensures '\\' !in s {
      var k :| 0 <= k < |parts| && parts[k] == s;
      SplitPartIn(Normalize(path), '/', k);
    }
    NonEmpty(parts)
  }

  /** Every part `Split` yields is a slice of its input. */
  lemma {:induction false} SplitPartIn(s: string, sep: char, k: int)
    requires 0 <= k < |Split(s, sep)|
    ensures forall c :: c in Split(s, sep)[k] ==> c in s
    decreases |s|
  {
    if s != [] {
      var rest := Split(s[1..], sep);
      if s[0] == sep {
        if k > 0 { SplitPartIn(s[1..], sep, k - 1); }
      } else if k == 0 {
        SplitPartIn(s[1..], sep, 0);
      } else {
        SplitPartIn(s[1..], sep, k);
      }
    }
  }

  /** Segments of a path joined with a separator are the segments of each side, in order. */
  lemma SegmentsAppend(a: string, sep: char, b: string)
    requires sep == '/' || sep == '\\'
    ensures Segments(a + [sep] + b) == Segments(a) + Segments(b)
  {
    assert Normalize(a + [sep] + b) == Normalize(a) + ['/'] + Normalize(b);
    SplitAppend(Normalize(a), '/', Normalize(b));
    NonEmptyAppend(Split(Normalize(a), '/'), Split(Normalize(b), '/'));
  }

  lemma {:induction false} NonEmptyAppend(x: seq<string>, y: seq<string>)
    ensures NonEmpty(x + y) == NonEmpty(x) + NonEmpty(y)
    decreases |x|
  {
    if x != [] {
      assert (x + y)[0] == x[0];
      assert (x + y)[1..] == x[1..] + y;
      NonEmptyAppend(x[1..], y);
    } else {
      assert x + y == y;
    }
  }

  /** A path whose separators are already forward slashes splits the same way. */
  lemma NormalizeIdempotent(path: string)
    ensures Normalize(Normalize(path)) == Normalize(path)
    ensures Segments(Normalize(path)) == Segments(path)
  {
  }

  /** The index of the first element satisfying `p`, if any. */
  function FindFirst(s: seq<string>, p: string -> bool): (r: Option<nat>)
    ensures r.Some? ==> r.value < |s| && p(s[r.value])
    ensures r.Some? ==> forall j :: 0 <= j < r.value ==> !p(s[j])
    ensures r.None? ==> forall j :: 0 <= j < |s| ==> !p(s[j])
  {
    if s == [] then None
    else if p(s[0]) then Some(0)
    else match FindFirst(s[1..], p)
      case None => None
      case Some(k) => Some(k + 1)
  }

  /** The index of the last element satisfying `p`, if any. */
  function FindLast(s: seq<string>, p: string -> bool): (r: Option<nat>)
    ensures r.Some? ==> r.value < |s| && p(s[r.value])
    ensures r.Some? ==> forall j :: r.value < j < |s| ==> !p(s[j])
    ensures r.None? ==> forall j :: 0 <= j < |s| ==> !p(s[j])
  {
    if s == [] then None
    else if p(s[|s| - 1]) then Some(|s| - 1)
    else FindLast(s[..|s| - 1], p)
  }

  /** The first element satisfying `p`. */
  function FirstMatch(s: seq<string>, p: string -> bool): Option<string> {
    var k := FindFirst(s, p);
    if k.None? then None else Some(s[k.value])
  }

  /** The last element satisfying `p`. */
  function LastMatch(s: seq<string>, p: string -> bool): Option<string> {
    var k := FindLast(s, p);
    if k.None? then None else Some(s[k.value])
  }

  /** Scanning a concatenation from the front: the first part decides when it has a match. */
  lemma FirstMatchAppend(x: seq<string>, y: seq<string>, p: string -> bool)
    ensures FirstMatch(x + y, p) == if FirstMatch(x, p).Some? then FirstMatch(x, p) else FirstMatch(y, p)
  {
    var k, kx, ky := FindFirst(x + y, p), FindFirst(x, p), FindFirst(y, p);
    if kx.Some? {
      assert (x + y)[kx.value] == x[kx.value];
    } else if ky.Some? {
      assert (x + y)[|x| + ky.value] == y[ky.value];
      assert (x + y)[k.value] == y[k.value - |x|];
    }
  }

  /** Scanning a concatenation from the back: the second part decides when it has a match. */
  lemma LastMatchAppend(x: seq<string>, y: seq<string>, p: string -> bool)
    ensures LastMatch(x + y, p) == if LastMatch(y, p).Some? then LastMatch(y, p) else LastMatch(x, p)
  {
    var k, kx, ky := FindLast(x + y, p), FindLast(x, p), FindLast(y, p);
    if ky.Some? {
      assert (x + y)[|x| + ky.value] == y[ky.value];
      assert (x + y)[k.value] == y[k.value - |x|];
    } else if kx.Some? {
      assert (x + y)[kx.value] == x[kx.value];
      assert (x + y)[k.value] == x[k.value];
    }
  }

  // ----- subject, topic and group -----

  /**
   * `extract_subject_from_path`: the segment nearest the file that is a key
   * of `SUBJECTS`.
   */
  function ExtractSubject(path: string): (r: Option<string>)
    ensures r.None? <==> forall s :: s in Segments(path) ==> !IsSubject(s)
    ensures r.Some? ==> r.value != "" && IsSubject(r.value)
    ensures r.Some? ==> exists i :: 0 <= i < |Segments(path)| && Segments(path)[i] == r.value &&
                          forall j :: i < j < |Segments(path)| ==> !IsSubject(Segments(path)[j])
  {
    LastMatch(Segments(path), IsSubject)
  }

  /** A subject folder deeper in the path overrides one nearer the root. */
  lemma SubjectDeeperWins(a: string, sep: char, b: string)
    requires sep == '/' || sep == '\\'
    ensures ExtractSubject(a + [sep] + b)
      == if ExtractSubject(b).Some? then ExtractSubject(b) else ExtractSubject(a)
  {
    SegmentsAppend(a, sep, b);
    LastMatchAppend(Segments(a), Segments(b), IsSubject);
  }

  /** The segments with surrounding whitespace stripped (a blank segment becomes ""). */
  function StrippedSegments(path: string): (r: seq<string>)
    ensures |r| == |Segments(path)|
    ensures forall i :: 0 <= i < |r| ==> r[i] == Strip(Segments(path)[i])
  {
    var segs := Segments(path);
    seq(|segs|, i requires 0 <= i < |segs| => Strip(segs[i]))
  }

  /**
   * `extract_topic_from_path`: the first stripped segment, from the root,
   * that is a key of `TOPICS`.
   */
  function ExtractTopic(path: string): (r: Option<string>)
    ensures r.None? <==> forall i :: 0 <= i < |Segments(path)| ==> !IsTopic(Strip(Segments(path)[i]))
    ensures r.Some? ==> IsTopic(r.value)
  {
    FirstMatch(StrippedSegments(path), IsTopic)
  }

  /** The topic found is the first stripped segment, from the root, that is a topic. */
  lemma TopicIsFirst(path: string)
    ensures ExtractTopic(path).Some? ==>
      exists i :: 0 <= i < |Segments(path)| && Strip(Segments(path)[i]) == ExtractTopic(path).value &&
                  forall j :: 0 <= j < i ==> !IsTopic(Strip(Segments(path)[j]))
  {
    var segs := StrippedSegments(path);
    var k := FindFirst(segs, IsTopic);
    if k.Some? {
      assert Strip(Segments(path)[k.value]) == ExtractTopic(path).value;
      forall j | 0 <= j < k.value
        ensures !IsTopic(Strip(Segments(path)[j]))
      {
        assert segs[j] == Strip(Segments(path)[j]);
      }
    }
  }

  /** A topic folder nearer the root overrides one deeper in the path. */
  lemma TopicRootWins(a: string, sep: char, b: string)
    requires sep == '/' || sep == '\\'
    ensures ExtractTopic(a + [sep] + b)
      == if ExtractTopic(a).Some? then ExtractTopic(a) else ExtractTopic(b)
  {
    StrippedSegmentsAppend(a, sep, b);
    FirstMatchAppend(StrippedSegments(a), StrippedSegments(b), IsTopic);
  }

  lemma StrippedSegmentsAppend(a: string, sep: char, b: string)
    requires sep == '/' || sep == '\\'
    ensures StrippedSegments(a + [sep] + b) == StrippedSegments(a) + StrippedSegments(b)
  {
    SegmentsAppend(a, sep, b);
    var x, y, xy := StrippedSegments(a), StrippedSegments(b), StrippedSegments(a + [sep] + b);
    assert |xy| == |x| + |y|;
    forall i | 0 <= i < |xy|
      ensures xy[i] == (x + y)[i]
    {
      if i < |x| {
        assert Segments(a + [sep] + b)[i] == Segments(a)[i];
      } else {
        assert Segments(a + [sep] + b)[i] == Segments(b)[i - |x|];
      }
    }
  }

  /** A segment equal to the value of some `StudyGroups` member. */
  predicate IsGroupValue(s: string) {
    GroupFromValue(s).Some?
  }

  /** `extract_group_from_path`: the group of the first segment, from the root, that is a group value. */
  function ExtractGroup(path: string): (r: Option<StudyGroup>)
    ensures r.None? <==> forall s :: s in Segments(path) ==> !IsGroupValue(s)
    ensures r.Some? ==> exists i :: 0 <= i < |Segments(path)| && Segments(path)[i] == GroupValue(r.value) &&
                          forall j :: 0 <= j < i ==> !IsGroupValue(Segments(path)[j])
  {
    match FirstMatch(Segments(path), IsGroupValue)
    case None => None
    case Some(s) => GroupFromValue(s)
  }

  /** A group folder nearer the root overrides one deeper in the path. */
  lemma GroupRootWins(a: string, sep: char, b: string)
    requires sep == '/' || sep == '\\'
    ensures ExtractGroup(a + [sep] + b)
      == if ExtractGroup(a).Some? then ExtractGroup(a) else ExtractGroup(b)
  {
    SegmentsAppend(a, sep, b);
    FirstMatchAppend(Segments(a), Segments(b), IsGroupValue);
  }

  /** Pattern letters of the group code, compared ignoring case. */
  predicate SameLetterIgnoringCase(c: char, pattern: char) {
    LowerChar(c) == LowerChar(pattern)
  }

  /** Exactly БКНАД (in any case) followed by three decimal digits. */
  predicate GroupCodeCore(t: string) {
    && |t| == 8
    && (forall i :: 0 <= i < 5 ==> SameLetterIgnoringCase(t[i], "БКНАД"[i]))
    && (forall i :: 5 <= i < 8 ==> IsAsciiDigit(t[i]))
  }

  /**
   * A segment `^БКНАД\d{3}$` matches under `re.IGNORECASE`: `$` also accepts
   * one newline at the very end.
   */
  predicate GroupShaped(s: string) {
    || GroupCodeCore(s)
    || (|s| == 9 && s[8] == '\n' && GroupCodeCore(s[..8]))
  }

  /** `extract_group_raw_from_path`: the first segment, from the root, shaped like a group code. */
  function ExtractGroupRaw(path: string): (r: Option<string>)
    ensures r.None? <==> forall s :: s in Segments(path) ==> !GroupShaped(s)
    ensures r.Some? ==> GroupShaped(r.value)
    ensures r.Some? ==> exists i :: 0 <= i < |Segments(path)| && Segments(path)[i] == r.value &&
                          forall j :: 0 <= j < i ==> !GroupShaped(Segments(path)[j])
  {
    FirstMatch(Segments(path), GroupShaped)
  }

  /** Every `StudyGroups` value is shaped like a group code. */
  lemma GroupValueShaped(g: StudyGroup)
    ensures GroupShaped(GroupValue(g))
  {
    GroupValuesAreCodes(g);
    var v := GroupValue(g);
    assert v[..5] == "БКНАД";
    forall i | 0 <= i < 5 ensures SameLetterIgnoringCase(v[i], "БКНАД"[i]) {
      assert v[i] == v[..5][i];
    }
    forall i | 5 <= i < 8 ensures IsAsciiDigit(v[i]) {
      assert v[i] == v[5..][i - 5];
    }
  }

  /** A path with a resolved group also has a raw group, nearer the root or at the same segment. */
  lemma GroupImpliesRaw(path: string)
    ensures ExtractGroup(path).Some? ==> ExtractGroupRaw(path).Some?
  {
    if ExtractGroup(path).Some? {
      var g := ExtractGroup(path).value;
      GroupValueShaped(g);
      assert GroupValue(g) in Segments(path);
    }
  }

  /**
   * A group-shaped folder that is not a `StudyGroups` value yields a raw
   * group and no resolved group, wherever the path places it.
   */
  lemma UnknownGroupIsRaw(a: string, g: string, b: string)
    requires '/' !in g && '\\' !in g && GroupShaped(g) && !IsGroupValue(g)
    requires forall s :: s in Segments(a) ==> !GroupShaped(s)
    requires forall s :: s in Segments(b) ==> !IsGroupValue(s)
    ensures ExtractGroupRaw(a + "/" + g + "/" + b) == Some(g)
    ensures ExtractGroup(a + "/" + g + "/" + b) == None
  {
    var sa, sb := Segments(a), Segments(b);
    SegmentsOfMiddle(a, g, b);
    var segs := Segments(a + "/" + g + "/" + b);
    assert segs == sa + ([g] + sb);
    assert FirstMatch(sa, GroupShaped) == None;
    FirstMatchAppend(sa, [g] + sb, GroupShaped);
    assert FirstMatch([g] + sb, GroupShaped) == Some(g) by {
      FirstMatchAppend([g], sb, GroupShaped);
    }
    forall s | s in segs ensures !IsGroupValue(s) {
      if s in sa {
        GroupShapedNotValue(s);
      }
    }
  }

  /** The segments of `a/g/b` when `g` holds no separator. */
  lemma SegmentsOfMiddle(a: string, g: string, b: string)
    requires '/' !in g && '\\' !in g && g != ""
    ensures Segments(a + "/" + g + "/" + b) == Segments(a) + ([g] + Segments(b))
  {
    SegmentsSingle(g);
    SegmentsAppend(a, '/', g);
    SegmentsAppend(a + "/" + g, '/', b);
  }

  /** A segment not shaped like a group code is not a group value. */
  lemma GroupShapedNotValue(s: string)
    requires !GroupShaped(s)
    ensures !IsGroupValue(s)
  {
    if IsGroupValue(s) {
      GroupValueShaped(GroupFromValue(s).value);
    }
  }

  /** БКНАД999 is shaped like a group code but is not a `StudyGroups` value. */
  lemma Bknad999IsUnknown()
    ensures GroupShaped("БКНАД999") && !IsGroupValue("БКНАД999")
  {
  }

  /** A name without separators is one segment, and the empty name none. */
  lemma SegmentsSingle(s: string)
    requires '/' !in s && '\\' !in s
    ensures Segments(s) == if s == "" then [] else [s]
  {
    assert Normalize(s) == s;
    SplitNoSep(s, '/');
  }

  // ----- teacher -----

  /** `[А-ЯЁа-яё]`: the Russian letters in either case. */
  predicate IsRussianLetter(c: char) {
    ('А' <= c <= 'я') || c == 'Ё' || c == 'ё'
  }

  /** `[А-ЯЁ]`: the Russian capitals. */
  predicate IsRussianCapital(c: char) {
    ('А' <= c <= 'Я') || c == 'Ё'
  }

  /** The length of the longest run of characters satisfying `p` that starts at `i`. */
  function RunLength(s: string, i: nat, p: char -> bool): (n: nat)
    requires i <= |s|
    ensures i + n <= |s|
    ensures forall j :: i <= j < i + n ==> p(s[j])
    ensures i + n == |s| || !p(s[i + n])
    decreases |s| - i
  {
    if i == |s| || !p(s[i]) then 0 else 1 + RunLength(s, i + 1, p)
  }

  /**
   * The teacher pattern read with explicit lengths: a word of `w` Russian
   * letters, `k` whitespace characters, then a capital, a dot, a capital and a dot.
   */
  predicate TeacherShape(name: string, w: nat, k: nat) {
    && w >= 1 && k >= 1 && w + k + 4 <= |name|
    && (forall j :: 0 <= j < w ==> IsRussianLetter(name[j]))
    && (forall j :: w <= j < w + k ==> IsSpace(name[j]))
    && IsRussianCapital(name[w + k]) && name[w + k + 1] == '.'
    && IsRussianCapital(name[w + k + 2]) && name[w + k + 3] == '.'
  }

  /**
   * `extract_teacher_from_filename`: the surname-and-initials prefix of the
   * name, as `^([А-ЯЁа-яё]+\s+[А-ЯЁ]\.[А-ЯЁ]\.)` matches it, stripped.
   */
  function ExtractTeacher(name: string): (r: Option<string>)
    ensures r.Some? ==> StartsWith(name, r.value) && |r.value| >= 6
  {
    match TeacherMatchEnd(name)
    case None => None
    case Some(n) =>
      TeacherMatchStripped(name, n);
      Some(Strip(name[..n]))
  }

  /** Where the teacher pattern's match ends, if it matches at the start of the name. */
  function TeacherMatchEnd(name: string): (r: Option<nat>)
    ensures r.Some? ==> 6 <= r.value <= |name|
  {
    var w := RunLength(name, 0, IsRussianLetter);
    var k := RunLength(name, w, IsSpace);
    if TeacherShape(name, w, k) then Some(w + k + 4) else None
  }

  /** The matched prefix is left unchanged by stripping. */
  lemma TeacherMatchStripped(name: string, n: nat)
    requires TeacherMatchEnd(name) == Some(n)
    ensures n <= |name| && Strip(name[..n]) == name[..n]
  {
    var w := RunLength(name, 0, IsRussianLetter);
    var k := RunLength(name, w, IsSpace);
    assert TeacherShape(name, w, k) && n == w + k + 4;
    TeacherPrefixStripped(name, w, k, n);
  }

  /** A teacher found is a prefix of the name that has the teacher shape. */
  lemma TeacherSound(name: string)
    ensures ExtractTeacher(name).Some? ==>
      exists w: nat, k: nat :: TeacherShape(name, w, k) && ExtractTeacher(name).value == name[..w + k + 4]
  {
    var w := RunLength(name, 0, IsRussianLetter);
    var k := RunLength(name, w, IsSpace);
    if TeacherShape(name, w, k) {
      TeacherPrefixStripped(name, w, k, w + k + 4);
    }
  }

  /** Any prefix with the teacher shape is the teacher found. */
  lemma TeacherComplete(name: string, w: nat, k: nat)
    requires TeacherShape(name, w, k)
    ensures ExtractTeacher(name) == Some(name[..w + k + 4])
  {
    TeacherMatchEndIs(name, w, k);
    TeacherAtMatchEnd(name, w + k + 4);
  }

  lemma TeacherAtMatchEnd(name: string, n: nat)
    requires TeacherMatchEnd(name) == Some(n)
    ensures ExtractTeacher(name) == Some(name[..n])
  {
    TeacherMatchStripped(name, n);
  }

  lemma TeacherMatchEndIs(name: string, w: nat, k: nat)
    requires TeacherShape(name, w, k)
    ensures TeacherMatchEnd(name) == Some(w + k + 4)
  {
    TeacherShapeUnique(name, w, k);
  }

  /** The word and the gap in a teacher shape are the maximal runs, so the shape is unique. */
  lemma TeacherShapeUnique(name: string, w: nat, k: nat)
    requires TeacherShape(name, w, k)
    ensures RunLength(name, 0, IsRussianLetter) == w
    ensures RunLength(name, w, IsSpace) == k
  {
    assert !IsRussianLetter(name[w]);
    assert !IsSpace(name[w + k]);
  }

  /** The matched prefix starts with a letter and ends with a dot, so stripping keeps it. */
  lemma TeacherPrefixStripped(name: string, w: nat, k: nat, n: nat)
    requires TeacherShape(name, w, k) && n == w + k + 4
    ensures n <= |name| && Strip(name[..n]) == name[..n]
  {
    var p := name[..n];
    assert p[0] == name[0] && IsRussianLetter(p[0]);
    assert p[|p| - 1] == '.';
    StripKeeps(p);
  }

  /** A name that starts with a dot, digit or Latin letter never names a teacher. */
  lemma NoTeacherWithoutRussianWord(name: string)
    requires name == [] || !IsRussianLetter(name[0])
    ensures ExtractTeacher(name) == None
  {
  }

  // ----- lesson date -----

  /** The value `read` finds in the last segment where it finds one. */
  function LastRead<T>(segs: seq<string>, read: string -> Option<T>): (r: Option<T>)
    ensures r.None? <==> forall i :: 0 <= i < |segs| ==> read(segs[i]).None?
    ensures r.Some? ==> exists i :: 0 <= i < |segs| && read(segs[i]) == r &&
                          forall j :: i < j < |segs| ==> read(segs[j]).None?
  {
    if segs == [] then None
    else if read(segs[|segs| - 1]).Some? then read(segs[|segs| - 1])
    else
      var r := LastRead(segs[..|segs| - 1], read);
      LastReadSkipsLast(segs, read, r);
      r
  }

  /** A last segment that reads as nothing leaves the answer for the others standing. */
  lemma LastReadSkipsLast<T>(segs: seq<string>, read: string -> Option<T>, r: Option<T>)
    requires segs != [] && read(segs[|segs| - 1]).None?
    requires var init := segs[..|segs| - 1];
      && (r.None? <==> forall i :: 0 <= i < |init| ==> read(init[i]).None?)
      && (r.Some? ==> exists i :: 0 <= i < |init| && read(init[i]) == r &&
                        forall j :: i < j < |init| ==> read(init[j]).None?)
    ensures r.None? <==> forall i :: 0 <= i < |segs| ==> read(segs[i]).None?
    ensures r.Some? ==> exists i :: 0 <= i < |segs| && read(segs[i]) == r &&
                          forall j :: i < j < |segs| ==> read(segs[j]).None?
  {
    var init := segs[..|segs| - 1];
    var last := |segs| - 1;
    if r.None? {
      forall i | 0 <= i < |segs| ensures read(segs[i]).None? {
        if i < last { assert segs[i] == init[i]; }
      }
    } else {
      var i :| 0 <= i < |init| && read(init[i]) == r && forall j :: i < j < |init| ==> read(init[j]).None?;
      assert segs[i] == init[i];
      forall j | i < j < |segs| ensures read(segs[j]).None? {
        if j < last { assert segs[j] == init[j]; }
      }
    }
  }

  /**
   * `extract_date_from_path`: the lesson date written in the segment nearest
   * the file that carries one.
   */
  function ExtractDateFromPath(path: string): (r: Option<DateTime>)
    ensures path == "" ==> r.None?
    ensures r.Some? ==> ValidDateTime(r.value)
    ensures r.None? <==> forall s :: s in Segments(path) ==> DateFromText(s).None?
  {
    if path == "" then None else LastRead(Segments(path), DateFromText)
  }

  /** `extract_date_from_filename`: the date in the name itself. */
  function ExtractDateFromFilename(name: string): (r: Option<DateTime>)
    ensures r.Some? ==> ValidDateTime(r.value)
  {
    DateFromText(name)
  }

  /** For a bare file name, reading the name and reading the one-segment path agree. */
  lemma FilenameDateIsPathDate(name: string)
    requires '/' !in name && '\\' !in name
    ensures ExtractDateFromFilename(name) == ExtractDateFromPath(name)
  {
    SegmentsSingle(name);
  }

  /** A dated folder deeper in the path overrides one nearer the root. */
  lemma DateDeeperWins(a: string, sep: char, b: string)
    requires sep == '/' || sep == '\\'
    ensures ExtractDateFromPath(a + [sep] + b)
      == if ExtractDateFromPath(b).Some? then ExtractDateFromPath(b) else ExtractDateFromPath(a)
  {
    SegmentsAppend(a, sep, b);
    LastReadAppend(Segments(a), Segments(b), DateFromText);
  }

  lemma {:induction false} LastReadAppend<T>(x: seq<string>, y: seq<string>, read: string -> Option<T>)
    ensures LastRead(x + y, read) == if LastRead(y, read).Some? then LastRead(y, read) else LastRead(x, read)
    decreases |y|
  {
    if y == [] {
      assert x + y == x;
    } else {
      assert (x + y)[|x + y| - 1] == y[|y| - 1];
      assert (x + y)[..|x + y| - 1] == x + y[..|y| - 1];
      LastReadAppend(x, y[..|y| - 1], read);
    }
  }

  // ----- public link -----

  /**
   * `build_public_file_url`: the root link up to its first '?', without
   * trailing slashes, then '/', then the path without leading slashes,
   * percent-encoded by `quote` (which keeps '/').
   */
  function BuildPublicFileUrl(filePath: string, publicRootUrl: string, quote: string -> string): (r: string)
    ensures var base := Split(publicRootUrl, '?')[0];
      var root := TrimRight(base, c => c == '/');
      && StartsWith(publicRootUrl, root)
      && '?' !in root && (root == [] || root[|root| - 1] != '/')
      && r == root + "/" + quote(TrimLeft(filePath, c => c == '/'))
  {
    var clean := TrimLeft(filePath, c => c == '/');
    var base := Split(publicRootUrl, '?')[0];
    SplitFirstIsPrefix(publicRootUrl, '?');
    TrimRight(base, c => c == '/') + "/" + quote(clean)
  }

  /** The first part `Split` yields is a prefix of its input without the separator. */
  lemma {:induction false} SplitFirstIsPrefix(s: string, sep: char)
    ensures StartsWith(s, Split(s, sep)[0])
    decreases |s|
  {
    if s != [] && s[0] != sep {
      SplitFirstIsPrefix(s[1..], sep);
    }
  }
}

=== FILE: permissions.dfy ===
/** Who may use the administrative commands. */
module Permissions {
  import opened Mappings
  import opened Users

  /** `is_admin`: an administrator or a superuser. */
  function IsAdmin(u: User): (r: bool)
    ensures r <==> u.role != RegularUser
  {
    u.role == Admin || u.role == Superuser
  }

  /** `is_superuser`: the superuser role only. */
  function IsSuperuser(u: User): (r: bool)
    ensures r ==> IsAdmin(u)
    ensures r <==> u.role == Superuser
  {
    u.role == Superuser
  }

  /** The two checks split the roles three ways: plain users pass neither, admins only the first. */
  lemma RolesRanked(u: User)
    ensures u.role == RegularUser ==> !IsAdmin(u) && !IsSuperuser(u)
    ensures u.role == Admin ==> IsAdmin(u) && !IsSuperuser(u)
    ensures u.role == Superuser ==> IsAdmin(u) && IsSuperuser(u)
  {
  }
}

=== FILE: scheduler.dfy ===
/**
 * The delivery side: the scheduler that sends due notifications, marks each
 * as sent or failed, and formats the message it sends; and the start/stop
 * guard it shares with the disk poller.
 */
module Scheduler {
  import opened Optional
  import opened Text
  import opened Notifications
  import opened NotificationStore
  import opened Formatting

  // ----- start / stop -----

  /**
   * A background service: whether it is running, the handle of the last loop
   * it created, the loops not yet cancelled, and how many it has created.
   */
  datatype Service = Service(running: bool, task: Option<nat>, live: set<nat>, created: nat)

  const Stopped: Service := Service(false, None, {}, 0)

  /** Exactly one loop is alive while the service runs, and none once it is stopped. */
  predicate Sound(s: Service) {
    && (s.running ==> s.task.Some? && s.task.value < s.created && s.live == {s.task.value})
    && (!s.running ==> s.live == {})
  }

  /** `start`: a running service is left alone; otherwise a new loop is created. */
  function Start(s: Service): (r: Service)
    ensures r.running
    ensures s.running ==> r == s
    ensures !s.running ==> r.created == s.created + 1 && r.task == Some(s.created) && r.live == s.live + {s.created}
  {
    if s.running then s
    else Service(true, Some(s.created), s.live + {s.created}, s.created + 1)
  }

  /** `stop`: the service stops and its last loop, if any, is cancelled. */
  function Stop(s: Service): (r: Service)
    ensures !r.running && r.task == s.task && r.created == s.created
    ensures s.task.Some? ==> r.live == s.live - {s.task.value}
    ensures s.task.None? ==> r.live == s.live
  {
    Service(false, s.task, if s.task.Some? then s.live - {s.task.value} else s.live, s.created)
  }

  lemma StartKeepsSound(s: Service)
    requires Sound(s)
    ensures Sound(Start(s))
  {
  }

  lemma StopKeepsSound(s: Service)
    requires Sound(s)
    ensures Sound(Stop(s))
  {
  }

  lemma StoppedIsSound()
    ensures Sound(Stopped)
  {
  }

  /** A sound service never has two loops alive. */
  lemma AtMostOneLoop(s: Service)
    requires Sound(s)
    ensures |s.live| <= 1
  {
  }

  /** Starting twice creates one loop, like starting once. */
  lemma StartIdempotent(s: Service)
    ensures Start(Start(s)) == Start(s)
  {
  }

  /** After a stop, the next start creates a fresh loop; the stopped one stays cancelled. */
  lemma RestartCreatesFreshLoop(s: Service)
    requires Sound(s)
    ensures var r := Start(Stop(s));
      r.task == Some(s.created) && r.live == {s.created}
  {
  }

  // ----- the send pass -----

  /** What happened in one attempt's `try` block: it went through, or something in it raised. */
  datatype Outcome = Delivered | Raised(error: string)

  /** How many of the first `n` attempts went through. */
  function CountDelivered(outcome: nat -> Outcome, n: nat): (c: nat)
    ensures c <= n
  {
    if n == 0 then 0 else CountDelivered(outcome, n - 1) + (if outcome(n - 1).Delivered? then 1 else 0)
  }

  /** The status record an attempt leaves behind. */
  predicate Reflects(rec: map<string, string>, o: Outcome, nowIso: string) {
    match o
    case Delivered => "status" in rec && rec["status"] == "sent" && "sent_at" in rec && rec["sent_at"] == nowIso
    case Raised(e) =>
      && "status" in rec && rec["status"] == "failed"
      && "error" in rec && rec["error"] == e
      && "failed_at" in rec && rec["failed_at"] == nowIso
  }

  /** Position `j` is the last attempt in `due` carrying its id. */
  predicate LastWithId(due: seq<UserNotification>, j: int)
    requires 0 <= j < |due|
  {
    forall k :: j < k < |due| ==> due[k].id != due[j].id
  }

  /** The ids the pass writes a status for: those that are present and non-empty. */
  function MarkedIds(due: seq<UserNotification>): (r: set<string>)
    ensures forall j :: 0 <= j < |due| && Truthy(due[j].id) ==> due[j].id.value in r
  {
    set j | 0 <= j < |due| && Truthy(due[j].id) :: due[j].id.value
  }

  /** One attempt: the status write the `try` or the `except` branch makes, if the id is usable. */
  function Attempt(st: Store, n: UserNotification, o: Outcome, nowIso: string): (r: Store)
    ensures r == st.(status := r.status)
    ensures !Truthy(n.id) ==> r == st
    ensures Truthy(n.id) ==> n.id.value in r.status && Reflects(r.status[n.id.value], o, nowIso)
    ensures forall k :: (!Truthy(n.id) || k != n.id.value) ==>
      (k in r.status <==> k in st.status) && (k in st.status ==> r.status[k] == st.status[k])
  {
    if !Truthy(n.id) then st
    else match o
      case Delivered => MarkAsSent(st, n.id.value, nowIso)
      case Raised(e) => MarkAsFailed(st, n.id.value, e, nowIso)
  }

  /**
   * The loop of `_send_due_notifications` over the notifications already
   * taken from the schedules: each attempt is counted as sent or failed, and
   * a usable id gets its status record updated.
   */
  method DeliverAll(st: Store, due: seq<UserNotification>, outcome: nat -> Outcome, nowIso: string)
    returns (sent: nat, failed: nat, r: Store)
    ensures sent + failed == |due|
    ensures sent == CountDelivered(outcome, |due|)
    ensures r == st.(status := r.status)
    ensures forall k :: k !in MarkedIds(due) ==>
      (k in r.status <==> k in st.status) && (k in st.status ==> r.status[k] == st.status[k])
    ensures forall j :: 0 <= j < |due| && Truthy(due[j].id) && LastWithId(due, j) ==>
      due[j].id.value in r.status && Reflects(r.status[due[j].id.value], outcome(j), nowIso)
  {
    sent, failed, r := 0, 0, st;
    var i := 0;
    while i < |due|
      invariant 0 <= i <= |due|
      invariant sent + failed == i
      invariant sent == CountDelivered(outcome, i)
      invariant r == st.(status := r.status)
      invariant Untouched(st, r, MarkedIds(due[..i]))
      invariant Recorded(r, due[..i], outcome, nowIso)
    {
      var r' := Attempt(r, due[i], outcome(i), nowIso);
      StepKeepsLast(r, r', due, i, outcome, nowIso);
      StepKeepsOthers(r, r', st, due, i, outcome, nowIso);
      if outcome(i).Delivered? { sent := sent + 1; } else { failed := failed + 1; }
      r := r';
      i := i + 1;
    }
    assert due[..|due|] == due;
  }

  /** Outside `ids`, the status records of `r` are those of `st`. */
  ghost predicate Untouched(st: Store, r: Store, ids: set<string>) {
    forall k :: k !in ids ==>
      (k in r.status <==> k in st.status) && (k in st.status ==> r.status[k] == st.status[k])
  }

  /** Every usable id in `due` carries the record its last attempt left. */
  ghost predicate Recorded(r: Store, due: seq<UserNotification>, outcome: nat -> Outcome, nowIso: string) {
    forall j :: 0 <= j < |due| && Truthy(due[j].id) && LastWithId(due, j) ==>
      due[j].id.value in r.status && Reflects(r.status[due[j].id.value], outcome(j), nowIso)
  }

  lemma StepKeepsLast(r: Store, r': Store, due: seq<UserNotification>, i: nat, outcome: nat -> Outcome, nowIso: string)
    requires i < |due|
    requires r' == Attempt(r, due[i], outcome(i), nowIso)
    requires Recorded(r, due[..i], outcome, nowIso)
    ensures Recorded(r', due[..i + 1], outcome, nowIso)
  {
    forall j | 0 <= j < i + 1 && Truthy(due[j].id) && LastWithId(due[..i + 1], j)
      ensures due[j].id.value in r'.status && Reflects(r'.status[due[j].id.value], outcome(j), nowIso)
    {
      if j < i {
        assert due[..i + 1][i] == due[i];
        assert due[i].id != due[j].id;
        forall k | j < k < i ensures due[..i][k].id != due[..i][j].id {
          assert due[..i + 1][k] == due[k];
        }
        assert due[..i][j] == due[j];
      }
    }
  }

  lemma StepKeepsOthers(r: Store, r': Store, st: Store, due: seq<UserNotification>, i: nat, outcome: nat -> Outcome, nowIso: string)
    requires i < |due|
    requires r' == Attempt(r, due[i], outcome(i), nowIso)
    requires Untouched(st, r, MarkedIds(due[..i]))
    ensures Untouched(st, r', MarkedIds(due[..i + 1]))
  {
    forall k | k !in MarkedIds(due[..i + 1])
      ensures (k in r'.status <==> k in st.status) && (k in st.status ==> r'.status[k] == st.status[k])
    {
      assert due[..i + 1][i] == due[i];
    }
  }

  /**
   * `_send_due_notifications`: take every due notification (up to 100 per
   * user, users in scan order) off the schedules, then attempt each one.
   */
  method SendDueNotifications(st: Store, now: int, order: seq<int>, outcome: nat -> Outcome, nowIso: string)
    returns (due: seq<UserNotification>, sent: nat, failed: nat, r: Store)
    requires WellFormed(st)
    ensures due == Notes(GetDueNotifications(st, now, 100, order).0)
    ensures sent + failed == |due|
    ensures sent == CountDelivered(outcome, |due|)
    ensures r.queue == st.queue && r.sent == st.sent && r.nextId == st.nextId
    ensures r.schedules == GetDueNotifications(st, now, 100, order).1.schedules
    ensures forall k :: k !in MarkedIds(due) ==>
      (k in r.status <==> k in st.status) && (k in st.status ==> r.status[k] == st.status[k])
    ensures forall j :: 0 <= j < |due| && Truthy(due[j].id) && LastWithId(due, j) ==>
      due[j].id.value in r.status && Reflects(r.status[due[j].id.value], outcome(j), nowIso)
  {
    var (taken, mid) := GetDueNotifications(st, now, 100, order);
    due := Notes(taken);
    sent, failed, r := DeliverAll(mid, due, outcome, nowIso);
  }

  /** Every notification handed to the loop was due. */
  lemma PassSendsOnlyDue(st: Store, now: int, order: seq<int>)
    requires WellFormed(st)
    ensures forall x :: x in GetDueNotifications(st, now, 100, order).0 ==> IsDue(x, now)
  {
  }

  /** When every attempt goes through, nothing is counted as failed, and the reverse. */
  lemma AllDeliveredNoneFailed(outcome: nat -> Outcome, n: nat)
    ensures CountDelivered(outcome, n) == n <==> forall j :: 0 <= j < n ==> outcome(j).Delivered?
  {
    if n > 0 {
      AllDeliveredNoneFailed(outcome, n - 1);
      if CountDelivered(outcome, n) == n {
        assert outcome(n - 1).Delivered?;
      }
    }
  }

  // ----- the scheduler's message -----

  /** `task.download_url or task.public_url or ""`. */
  function Link(t: Task): (r: string)
    ensures Truthy(t.downloadUrl) ==> r == t.downloadUrl.value
    ensures !Truthy(t.downloadUrl) && Truthy(t.publicUrl) ==> r == t.publicUrl.value
    ensures r == "" <==> !Truthy(t.downloadUrl) && !Truthy(t.publicUrl)
  {
    if Truthy(t.downloadUrl) then t.downloadUrl.value
    else if Truthy(t.publicUrl) then t.publicUrl.value
    else ""
  }

  /**
   * `_format_message`: the same shared lines as the formatter, then one
   * watch link to the preferred URL, or the file name when there is none.
   */
  function MessageLines(t: Task): (r: seq<Line>)
    requires WellDated(t)
    ensures |r| >= 2 && r[0] == Header(SubjectDisplayText(t.subjectCode))
    ensures r[..|r| - 1] == HeaderLines(t)
    ensures Has(r, IsDateLine) <==> t.lessonDate.Some?
    ensures Has(r, IsTeacherLine) <==> Truthy(t.teacher)
    ensures Has(r, IsWatchLine) <==> Link(t) != ""
    ensures Has(r, IsFileLine) <==> Link(t) == ""
    ensures !Has(r, IsDownloadLine)
    ensures r[|r| - 1] == if Link(t) != "" then WatchLine(Link(t)) else FileLine(t.fileName)
  {
    var head := HeaderLines(t);
    var link := Link(t);
    var last := if link != "" then WatchLine(link) else FileLine(t.fileName);
    LastLine(head, last);
    head + [last]
  }

  lemma LastLine(head: seq<Line>, last: Line)
    requires |head| >= 1
    requires last.WatchLine? || last.FileLine?
    requires !Has(head, IsWatchLine) && !Has(head, IsDownloadLine) && !Has(head, IsFileLine)
    ensures var r := head + [last];
      && r[0] == head[0] && r[..|r| - 1] == head && r[|r| - 1] == last
      && (Has(r, IsDateLine) <==> Has(head, IsDateLine))
      && (Has(r, IsTeacherLine) <==> Has(head, IsTeacherLine))
      && (Has(r, IsWatchLine) <==> last.WatchLine?)
      && (Has(r, IsFileLine) <==> last.FileLine?)
      && !Has(r, IsDownloadLine)
  {
    var ps: seq<Line -> bool> := [IsDateLine, IsTeacherLine, IsWatchLine, IsDownloadLine, IsFileLine];
    forall k | 0 <= k < |ps|
      ensures Has(head + [last], ps[k]) <==> Has(head, ps[k]) || ps[k](last)
    {
      HasAppend(head, [last], ps[k]);
      HasSingle(last, ps[k]);
    }
    assert ps[0] == IsDateLine && ps[1] == IsTeacherLine && ps[2] == IsWatchLine && ps[3] == IsDownloadLine && ps[4] == IsFileLine;
    assert (head + [last])[..|head|] == head;
  }

  /** The sent text. */
  function FormatMessage(t: Task): string
    requires WellDated(t)
  {
    Join(RenderAll(MessageLines(t)), "\n")
  }

  /** The two renderers agree on everything before their link lines. */
  lemma SameHeader(t: Task)
    requires WellDated(t)
    ensures var h := HeaderLines(t);
      |h| < |MessageLines(t)| && |h| < |NotificationLines(t)|
      && MessageLines(t)[..|h|] == h && NotificationLines(t)[..|h|] == h
  {
    var h := HeaderLines(t);
    var watch := if Truthy(t.publicUrl) then [WatchLine(t.publicUrl.value)] else [];
    var last := if Truthy(t.downloadUrl) then DownloadLine(t.downloadUrl.value) else FileLine(t.fileName);
    assert NotificationLines(t) == h + watch + [last];
    assert (h + watch + [last])[..|h|] == h;
  }

  /** Without any URL the scheduler sends exactly the formatter's message. */
  lemma NoLinkSameMessage(t: Task)
    requires WellDated(t)
    requires !Truthy(t.downloadUrl) && !Truthy(t.publicUrl)
    ensures MessageLines(t) == NotificationLines(t)
  {
    assert NotificationLines(t) == HeaderLines(t) + [] + [FileLine(t.fileName)];
  }

  /** With a download URL the scheduler links to it, where the formatter adds a separate download line. */
  lemma DownloadPreferred(t: Task)
    requires WellDated(t)
    requires Truthy(t.downloadUrl)
    ensures MessageLines(t)[|MessageLines(t)| - 1] == WatchLine(t.downloadUrl.value)
    ensures NotificationLines(t)[|NotificationLines(t)| - 1] == DownloadLine(t.downloadUrl.value)
  {
  }
}

=== FILE: sorting.dfy ===
/** The order user lists are shown in: by lower-cased display name, then Telegram id. */
module Sorting {
  import opened Text
  import opened Users

  /** Python's `<=` on strings: code-point lexicographic order. */
  predicate StrLe(a: string, b: string)
    decreases |a|
  {
    a == [] || (b != [] && (a[0] < b[0] || (a[0] == b[0] && StrLe(a[1..], b[1..]))))
  }

  lemma {:induction false} StrLeTotal(a: string, b: string)
    ensures StrLe(a, b) || StrLe(b, a)
    decreases |a|
  {
    if a != [] && b != [] && a[0] == b[0] { StrLeTotal(a[1..], b[1..]); }
  }

  lemma {:induction false} StrLeAntisym(a: string, b: string)
    requires StrLe(a, b) && StrLe(b, a)
    ensures a == b
    decreases |a|
  {
    if a != [] {
      StrLeAntisym(a[1..], b[1..]);
      assert a == [a[0]] + a[1..] && b == [b[0]] + b[1..];
    }
  }

  lemma {:induction false} StrLeTrans(a: string, b: string, c: string)
    requires StrLe(a, b) && StrLe(b, c)
    ensures StrLe(a, c)
    decreases |a|
  {
    if a != [] && a[0] == b[0] && b[0] == c[0] { StrLeTrans(a[1..], b[1..], c[1..]); }
  }

  /** The sort key of `sort_users`: the pair (lower-cased display name, Telegram id). */
  datatype SortKey = SortKey(name: string, id: int)

  function Key(u: User): SortKey {
    SortKey(Lower(DisplayName(u)), u.tgId)
  }

  /** Tuple order: by name, then by id. */
  predicate KeyLe(x: SortKey, y: SortKey) {
    (StrLe(x.name, y.name) && x.name != y.name) || (x.name == y.name && x.id <= y.id)
  }

  lemma KeyLeTotal(x: SortKey, y: SortKey)
    ensures KeyLe(x, y) || KeyLe(y, x)
  {
    StrLeTotal(x.name, y.name);
  }

  lemma KeyLeTrans(x: SortKey, y: SortKey, z: SortKey)
    requires KeyLe(x, y) && KeyLe(y, z)
    ensures KeyLe(x, z)
  {
    if x.name != y.name && y.name != z.name {
      StrLeTrans(x.name, y.name, z.name);
      if x.name == z.name { StrLeAntisym(x.name, y.name); }
    }
  }

  /** `s` is in order by `key`. */
  predicate Sorted<T>(s: seq<T>, key: T -> SortKey) {
    forall i, j :: 0 <= i < j < |s| ==> KeyLe(key(s[i]), key(s[j]))
  }

  /** Put `u` before the first element it does not sort after: earlier input stays earlier among equals. */
  function Insert<T>(u: T, s: seq<T>, key: T -> SortKey): (r: seq<T>)
    ensures multiset(r) == multiset(s) + multiset{u}
    ensures |r| == |s| + 1
  {
    if s == [] || KeyLe(key(u), key(s[0])) then [u] + s
    else
      assert s == [s[0]] + s[1..];
      [s[0]] + Insert(u, s[1..], key)
  }

  lemma {:induction false} InsertSorted<T>(u: T, s: seq<T>, key: T -> SortKey)
    requires Sorted(s, key)
    ensures Sorted(Insert(u, s, key), key)
  {
    if s == [] {
      assert Insert(u, s, key) == [u];
    } else if KeyLe(key(u), key(s[0])) {
      assert Insert(u, s, key) == [u] + s;
      forall x | x in s ensures KeyLe(key(u), key(x)) {
        var k :| 0 <= k < |s| && s[k] == x;
        if k > 0 { KeyLeTrans(key(u), key(s[0]), key(s[k])); }
      }
      ConsSorted(u, s, key);
    } else {
      var t := s[1..];
      var rest := Insert(u, t, key);
      assert Insert(u, s, key) == [s[0]] + rest;
      TailSorted(s, key);
      InsertSorted(u, t, key);
      KeyLeTotal(key(u), key(s[0]));
      InsertAbove(u, s, key);
      ConsSorted(s[0], rest, key);
    }
  }

  lemma TailSorted<T>(s: seq<T>, key: T -> SortKey)
    requires s != [] && Sorted(s, key)
    ensures Sorted(s[1..], key)
  {
    forall i, j | 0 <= i < j < |s| - 1 ensures KeyLe(key(s[1..][i]), key(s[1..][j])) {
      assert s[1..][i] == s[i + 1] && s[1..][j] == s[j + 1];
    }
  }

  /** An element no greater than everything in a sorted list can go in front of it. */
  lemma ConsSorted<T>(x: T, s: seq<T>, key: T -> SortKey)
    requires Sorted(s, key) && forall y :: y in s ==> KeyLe(key(x), key(y))
    ensures Sorted([x] + s, key)
  {
    var r := [x] + s;
    forall i, j | 0 <= i < j < |r| ensures KeyLe(key(r[i]), key(r[j])) {
      assert r[j] == s[j - 1];
      if i > 0 { assert r[i] == s[i - 1]; } else { assert s[j - 1] in s; }
    }
  }

  /** Inserting behind the head keeps the head below every element of the tail's result. */
  lemma InsertAbove<T>(u: T, s: seq<T>, key: T -> SortKey)
    requires s != [] && Sorted(s, key) && KeyLe(key(s[0]), key(u))
    ensures forall x :: x in Insert(u, s[1..], key) ==> KeyLe(key(s[0]), key(x))
  {
    var rest := Insert(u, s[1..], key);
    forall x | x in rest ensures KeyLe(key(s[0]), key(x)) {
      assert x in multiset(rest);
      if x != u {
        assert x in multiset(s[1..]);
        var k :| 0 <= k < |s[1..]| && s[1..][k] == x;
        assert s[k + 1] == x;
      }
    }
  }

  /**
   * Python's `sorted(xs, key=key)`: a stable sort. Sorting from the back and
   * inserting each element before its equals keeps the input order among
   * elements with the same key.
   */
  function SortBy<T>(xs: seq<T>, key: T -> SortKey): (r: seq<T>)
    ensures multiset(r) == multiset(xs)
    ensures |r| == |xs|
  {
    if xs == [] then []
    else
      assert xs == [xs[0]] + xs[1..];
      Insert(xs[0], SortBy(xs[1..], key), key)
  }

  /** The result is in key order. */
  lemma {:induction false} SortBySorted<T>(xs: seq<T>, key: T -> SortKey)
    ensures Sorted(SortBy(xs, key), key)
  {
    if xs != [] {
      SortBySorted(xs[1..], key);
      InsertSorted(xs[0], SortBy(xs[1..], key), key);
    }
  }

  /** A list already in key order comes back unchanged. */
  lemma {:induction false} SortByKeepsSorted<T>(xs: seq<T>, key: T -> SortKey)
    requires Sorted(xs, key)
    ensures SortBy(xs, key) == xs
  {
    if xs != [] {
      assert Sorted(xs[1..], key) by {
        forall i, j | 0 <= i < j < |xs[1..]| ensures KeyLe(key(xs[1..][i]), key(xs[1..][j])) {
          assert xs[1..][i] == xs[i + 1] && xs[1..][j] == xs[j + 1];
        }
      }
      SortByKeepsSorted(xs[1..], key);
      if |xs| > 1 {
        assert KeyLe(key(xs[0]), key(xs[1]));
      }
    }
  }

  /** The elements with key `k`, in list order. */
  function WithKey<T>(s: seq<T>, key: T -> SortKey, k: SortKey): (r: seq<T>)
    ensures forall i :: 0 <= i < |r| ==> key(r[i]) == k
  {
    if s == [] then [] else (if key(s[0]) == k then [s[0]] else []) + WithKey(s[1..], key, k)
  }

  lemma {:induction false} WithKeyAppend<T>(a: seq<T>, b: seq<T>, key: T -> SortKey, k: SortKey)
    ensures WithKey(a + b, key, k) == WithKey(a, key, k) + WithKey(b, key, k)
  {
    if a == [] {
      assert a + b == b;
    } else {
      assert (a + b)[0] == a[0];
      assert (a + b)[1..] == a[1..] + b;
      WithKeyAppend(a[1..], b, key, k);
    }
  }

  lemma WithKeySingle<T>(x: T, key: T -> SortKey, k: SortKey)
    ensures WithKey([x], key, k) == if key(x) == k then [x] else []
  {
    assert [x][1..] == [];
  }

  lemma {:induction false} InsertStable<T>(u: T, s: seq<T>, key: T -> SortKey, k: SortKey)
    ensures WithKey(Insert(u, s, key), key, k) == WithKey([u], key, k) + WithKey(s, key, k)
  {
    if s == [] || KeyLe(key(u), key(s[0])) {
      WithKeyAppend([u], s, key, k);
    } else {
      var t := s[1..];
      var rest := Insert(u, t, key);
      assert Insert(u, s, key) == [s[0]] + rest;
      assert s == [s[0]] + t;
      InsertStable(u, t, key, k);
      WithKeyAppend([s[0]], rest, key, k);
      WithKeyAppend([s[0]], t, key, k);
      OneSideEmpty(u, s[0], key, k);
      SwapEmpty(WithKey([s[0]], key, k), WithKey([u], key, k), WithKey(t, key, k));
    }
  }

  /** Elements with different keys cannot both have key `k`. */
  lemma OneSideEmpty<T>(u: T, v: T, key: T -> SortKey, k: SortKey)
    requires !KeyLe(key(u), key(v))
    ensures WithKey([v], key, k) == [] || WithKey([u], key, k) == []
  {
    assert key(u) != key(v);
    WithKeySingle(u, key, k);
    WithKeySingle(v, key, k);
  }

  /** When one of two pieces is empty, their order does not matter. */
  lemma SwapEmpty<T>(a: seq<T>, b: seq<T>, c: seq<T>)
    requires a == [] || b == []
    ensures a + (b + c) == b + (a + c)
  {
    if a == [] {
      assert a + (b + c) == b + c && a + c == c;
    } else {
      assert b + (a + c) == a + c && b + c == c;
    }
  }

  /** Stability: among elements with equal keys, the sorted list keeps their input order. */
  lemma {:induction false} SortByStable<T>(xs: seq<T>, key: T -> SortKey, k: SortKey)
    ensures WithKey(SortBy(xs, key), key, k) == WithKey(xs, key, k)
  {
    if xs != [] {
      var t := SortBy(xs[1..], key);
      calc {
        WithKey(SortBy(xs, key), key, k);
        WithKey(Insert(xs[0], t, key), key, k);
        { InsertStable(xs[0], t, key, k); }
        WithKey([xs[0]], key, k) + WithKey(t, key, k);
        { SortByStable(xs[1..], key, k); }
        WithKey([xs[0]], key, k) + WithKey(xs[1..], key, k);
        { WithKeyAppend([xs[0]], xs[1..], key, k); }
        WithKey([xs[0]] + xs[1..], key, k);
        { assert [xs[0]] + xs[1..] == xs; }
        WithKey(xs, key, k);
      }
    }
  }

  /** `sort_users`: by lower-cased display name, then Telegram id, stably. */
  function SortUsers(us: seq<User>): (r: seq<User>)
    ensures multiset(r) == multiset(us)
    ensures Sorted(r, Key)
  {
    SortBySorted(us, Key);
    SortBy(us, Key)
  }

  /** A list already in order comes back unchanged, and users with equal keys keep their order. */
  lemma SortUsersStable(us: seq<User>)
    ensures Sorted(us, Key) ==> SortUsers(us) == us
    ensures forall k :: WithKey(SortUsers(us), Key, k) == WithKey(us, Key, k)
  {
    if Sorted(us, Key) { SortByKeepsSorted(us, Key); }
    forall k ensures WithKey(SortBy(us, Key), Key, k) == WithKey(us, Key, k) {
      SortByStable(us, Key, k);
    }
  }

  /** Sorting twice gives what sorting once gives. */
  lemma SortUsersIdempotent(us: seq<User>)
    ensures SortUsers(SortUsers(us)) == SortUsers(us)
  {
    SortUsersStable(SortUsers(us));
  }
}

=== FILE: statistics.dfy ===
/**
 * The statistics snapshot: user counts, users per course and per group, the
 * most often excluded subjects, and the repository's own figures copied in.
 */
module Statistics {
  import opened Optional
  import opened Mappings
  import opened Users
  import opened Sorting

  const TopExcludedSize: nat := 10

  /** One `Counter` entry: a subject and how many users excluded it. */
  datatype Tally = Tally(key: string, count: nat)

  datatype Snapshot = Snapshot(
    usersTotal: nat,
    usersEnabled: nat,
    byCourse: map<string, nat>,
    byGroup: map<string, nat>,
    /** In `most_common` order: by count, descending, ties in first-seen order. */
    topExcluded: seq<Tally>,
    queueLen: int,
    scheduledTotal: int,
    diskGroups: map<string, int>,
    diskCommon: int,
    diskComputedAt: Option<int>)

  // ----- reference counts -----

  /** How many users have notifications enabled. */
  function EnabledCount(us: seq<User>): (n: nat)
    ensures n <= |us|
  {
    if us == [] then 0 else EnabledCount(us[..|us| - 1]) + (if us[|us| - 1].notificationsEnabled then 1 else 0)
  }

  /** The `str(course)` of a user, if the user has a course. */
  function CourseOf(u: User): Option<string> {
    if u.course.Some? then Some(CourseValue(u.course.value)) else None
  }

  /** The `str(group)` of a user, if the user has a group. */
  function GroupOf(u: User): Option<string> {
    if u.group.Some? then Some(GroupValue(u.group.value)) else None
  }

  /** How many users `tag` maps to `Some(c)`. */
  function LabelCount(us: seq<User>, tag: User -> Option<string>, c: string): (n: nat)
    ensures n <= |us|
  {
    if us == [] then 0 else LabelCount(us[..|us| - 1], tag, c) + (if tag(us[|us| - 1]) == Some(c) then 1 else 0)
  }

  /** How many users excluded subject `s`. */
  function ExcludedCount(us: seq<User>, s: string): (n: nat)
    ensures n <= |us|
  {
    if us == [] then 0 else ExcludedCount(us[..|us| - 1], s) + (if s in Excluded(us[|us| - 1]) then 1 else 0)
  }

  // ----- the counter -----

  function Keys(c: seq<Tally>): (r: seq<string>)
    ensures |r| == |c| && forall i :: 0 <= i < |c| ==> r[i] == c[i].key
  {
    seq(|c|, i requires 0 <= i < |c| => c[i].key)
  }

  predicate Distinct(ks: seq<string>) {
    forall i, j :: 0 <= i < j < |ks| ==> ks[i] != ks[j]
  }

  /** `counter[s]`: the entry's count, 0 when absent. */
  function CountOf(c: seq<Tally>, s: string): (n: nat)
    ensures s !in Keys(c) ==> n == 0
  {
    if c == [] then 0
    else if c[|c| - 1].key == s then c[|c| - 1].count
    else CountOf(c[..|c| - 1], s)
  }

  lemma {:induction false} CountOfAt(c: seq<Tally>, i: int)
    requires Distinct(Keys(c)) && 0 <= i < |c|
    ensures CountOf(c, c[i].key) == c[i].count
  {
    if i < |c| - 1 {
      assert Keys(c[..|c| - 1]) == Keys(c)[..|c| - 1];
      CountOfAt(c[..|c| - 1], i);
    }
  }

  /** `counter[s] += 1`: bump an existing entry in place or append a new one. */
  function Bump(c: seq<Tally>, s: string): (r: seq<Tally>)
    requires Distinct(Keys(c))
    ensures Distinct(Keys(r))
    ensures forall x :: CountOf(r, x) == CountOf(c, x) + (if x == s then 1 else 0)
    ensures forall x :: x in Keys(r) <==> x in Keys(c) || x == s
    ensures (forall t :: t in c ==> t.count > 0) ==> forall t :: t in r ==> t.count > 0
  {
    if c == [] then
      assert Keys([Tally(s, 1)]) == [s];
      [Tally(s, 1)]
    else
      var init := c[..|c| - 1];
      var last := c[|c| - 1];
      assert Keys(init) == Keys(c)[..|c| - 1];
      assert Keys(c) == Keys(init) + [last.key];
      if last.key == s then
        var r := init + [Tally(s, last.count + 1)];
        assert r[..|r| - 1] == init;
        assert Keys(r) == Keys(init) + [s];
        r
      else
        var r0 := Bump(init, s);
        var r := r0 + [last];
        assert r[..|r| - 1] == r0;
        assert Keys(r) == Keys(r0) + [last.key];
        assert last.key !in Keys(init) by {
          forall i | 0 <= i < |init| ensures Keys(init)[i] != last.key {
            assert Keys(c)[i] != Keys(c)[|c| - 1];
          }
        }
        assert last.key !in Keys(r0);
        r
  }

  /** The subjects a set holds, listed in the order the set iterates them: each once. */
  predicate Enumerates(xs: seq<string>, s: set<string>) {
    && (forall i :: 0 <= i < |xs| ==> xs[i] in s)
    && (forall x :: x in s ==> x in xs)
    && Distinct(xs)
  }

  // ----- most_common -----

  /** The sort key that puts larger counts first and keeps ties in their order. */
  function ByCountDesc(t: Tally): SortKey {
    SortKey("", -(t.count as int))
  }

  /** `Counter.most_common(n)`: a stable sort by count, descending, cut to `n` entries. */
  function MostCommon(c: seq<Tally>, n: nat): (r: seq<Tally>)
    ensures |r| == if |c| < n then |c| else n
    ensures forall i, j :: 0 <= i < j < |r| ==> r[i].count >= r[j].count
    ensures multiset(r) <= multiset(c)
  {
    var sorted := SortBy(c, ByCountDesc);
    SortBySorted(c, ByCountDesc);
    var k := if |sorted| < n then |sorted| else n;
    assert forall i, j :: 0 <= i < j < |sorted| ==> KeyLe(ByCountDesc(sorted[i]), ByCountDesc(sorted[j]));
    assert sorted == sorted[..k] + sorted[k..];
    sorted[..k]
  }

  /** Every entry left out of the top has a count no larger than any entry kept. */
  lemma MostCommonDominates(c: seq<Tally>, n: nat, t: Tally)
    requires t in c && t !in MostCommon(c, n)
    ensures forall x :: x in MostCommon(c, n) ==> t.count <= x.count
  {
    var sorted := SortBy(c, ByCountDesc);
    SortBySorted(c, ByCountDesc);
    var r := MostCommon(c, n);
    var k := |r|;
    assert r == sorted[..k];
    assert t in multiset(sorted);
    var j :| 0 <= j < |sorted| && sorted[j] == t;
    forall x | x in r ensures t.count <= x.count {
      var i :| 0 <= i < k && r[i] == x;
      assert KeyLe(ByCountDesc(sorted[i]), ByCountDesc(sorted[j]));
    }
  }

  /**
   * Ties keep their first-seen order: for each count, the kept entries with
   * that count are the first entries of the counter with that count, in the
   * counter's order.
   */
  lemma MostCommonStable(c: seq<Tally>, n: nat, k: SortKey)
    ensures WithKey(MostCommon(c, n), ByCountDesc, k) <= WithKey(c, ByCountDesc, k)
  {
    var sorted := SortBy(c, ByCountDesc);
    var r := MostCommon(c, n);
    assert sorted == r + sorted[|r|..];
    WithKeyAppend(r, sorted[|r|..], ByCountDesc, k);
    SortByStable(c, ByCountDesc, k);
  }

  /** A counted subject is kept unless the top is already full. */
  lemma MostCommonKeepsAll(c: seq<Tally>, n: nat, s: string)
    requires CountOf(c, s) > 0
    ensures |MostCommon(c, n)| < n ==> s in Keys(MostCommon(c, n))
  {
    var r := MostCommon(c, n);
    if |c| < n {
      var sorted := SortBy(c, ByCountDesc);
      assert r == sorted;
      var k :| 0 <= k < |c| && Keys(c)[k] == s;
      assert c[k] in multiset(r);
      var j :| 0 <= j < |r| && r[j] == c[k];
      assert Keys(r)[j] == s;
    }
  }

  /** With distinct keys, each entry occurs at most once. */
  lemma {:induction false} DistinctKeysOnce(c: seq<Tally>, x: Tally)
    requires Distinct(Keys(c))
    ensures multiset(c)[x] <= 1
  {
    if c != [] {
      var init := c[..|c| - 1];
      assert c == init + [c[|c| - 1]];
      assert Keys(init) == Keys(c)[..|c| - 1];
      DistinctKeysOnce(init, x);
      if x == c[|c| - 1] {
        forall i | 0 <= i < |init| ensures init[i] != x {
          assert Keys(c)[i] != Keys(c)[|c| - 1];
        }
      }
    }
  }

  /** An entry occurring at two positions is counted twice. */
  lemma TwiceIn(r: seq<Tally>, i: int, j: int)
    requires 0 <= i < j < |r|
    ensures r[i] == r[j] ==> multiset(r)[r[i]] >= 2
  {
    assert r == r[..j] + r[j..];
    assert r[i] in r[..j] && r[j] == r[j..][0];
  }

  /** Entries drawn from a counter with distinct keys have distinct keys. */
  lemma SubDistinct(c: seq<Tally>, r: seq<Tally>)
    requires Distinct(Keys(c)) && multiset(r) <= multiset(c)
    ensures Distinct(Keys(r))
  {
    forall i, j | 0 <= i < j < |r| ensures Keys(r)[i] != Keys(r)[j] {
      assert r[i] in multiset(c) && r[j] in multiset(c);
      var a :| 0 <= a < |c| && c[a] == r[i];
      var b :| 0 <= b < |c| && c[b] == r[j];
      TwiceIn(r, i, j);
      DistinctKeysOnce(c, r[i]);
      assert a != b ==> Keys(c)[a] != Keys(c)[b];
    }
  }

  // ----- the snapshot -----

  /**
   * `build_snapshot`: count the users, tally courses, groups and excluded
   * subjects in one pass, keep the ten most excluded, and copy the
   * repository's figures. `order[i]` is the order user `i`'s excluded set
   * iterates in, which fixes the counter's first-seen order.
   */
  method BuildSnapshot(users: seq<User>, order: seq<seq<string>>,
                       queueLen: int, scheduledTotal: int,
                       diskGroups: map<string, int>, diskCommon: int, diskComputedAt: Option<int>)
    returns (snap: Snapshot)
    requires |order| == |users|
    requires forall i :: 0 <= i < |users| ==> Enumerates(order[i], Excluded(users[i]))
    ensures snap.usersTotal == |users|
    ensures snap.usersEnabled == EnabledCount(users)
    ensures forall c :: c in snap.byCourse <==> LabelCount(users, CourseOf, c) > 0
    ensures forall c :: c in snap.byCourse ==> snap.byCourse[c] == LabelCount(users, CourseOf, c)
    ensures forall g :: g in snap.byGroup <==> LabelCount(users, GroupOf, g) > 0
    ensures forall g :: g in snap.byGroup ==> snap.byGroup[g] == LabelCount(users, GroupOf, g)
    ensures |snap.topExcluded| <= TopExcludedSize && Distinct(Keys(snap.topExcluded))
    ensures forall s :: ExcludedCount(users, s) > 0 && s !in Keys(snap.topExcluded) ==> |snap.topExcluded| == TopExcludedSize
    ensures forall t :: t in snap.topExcluded ==> t.count == ExcludedCount(users, t.key) && t.count > 0
    ensures forall i, j :: 0 <= i < j < |snap.topExcluded| ==> snap.topExcluded[i].count >= snap.topExcluded[j].count
    ensures forall t, s :: t in snap.topExcluded && s !in Keys(snap.topExcluded) ==> ExcludedCount(users, s) <= t.count
    ensures snap.queueLen == queueLen && snap.scheduledTotal == scheduledTotal
    ensures snap.diskGroups == diskGroups && snap.diskCommon == diskCommon && snap.diskComputedAt == diskComputedAt
  {
    var enabled, byCourse, byGroup, counter := CountUsers(users, order);
    var top := MostCommon(counter, TopExcludedSize);
    TopIsCounted(counter, users);
    TopDominates(counter, users);
    SubDistinct(counter, top);
    forall s | ExcludedCount(users, s) > 0 ensures |top| < TopExcludedSize ==> s in Keys(top) {
      MostCommonKeepsAll(counter, TopExcludedSize, s);
    }
    snap := Snapshot(|users|, enabled, byCourse, byGroup, top, queueLen, scheduledTotal,
                     diskGroups, diskCommon, diskComputedAt);
  }

  /** The loop of `build_snapshot`: one pass over the users. */
  method CountUsers(users: seq<User>, order: seq<seq<string>>)
    returns (enabled: nat, byCourse: map<string, nat>, byGroup: map<string, nat>, counter: seq<Tally>)
    requires |order| == |users|
    requires forall i :: 0 <= i < |users| ==> Enumerates(order[i], Excluded(users[i]))
    ensures enabled == EnabledCount(users)
    ensures forall c :: c in byCourse <==> LabelCount(users, CourseOf, c) > 0
    ensures forall c :: c in byCourse ==> byCourse[c] == LabelCount(users, CourseOf, c)
    ensures forall g :: g in byGroup <==> LabelCount(users, GroupOf, g) > 0
    ensures forall g :: g in byGroup ==> byGroup[g] == LabelCount(users, GroupOf, g)
    ensures Distinct(Keys(counter))
    ensures forall s :: CountOf(counter, s) == ExcludedCount(users, s)
    ensures forall t :: t in counter ==> t.count > 0
  {
    enabled := 0;
    byCourse := map[];
    byGroup := map[];
    counter := [];
    for i := 0 to |users|
      invariant enabled == EnabledCount(users[..i])
      invariant forall c :: c in byCourse <==> LabelCount(users[..i], CourseOf, c) > 0
      invariant forall c :: c in byCourse ==> byCourse[c] == LabelCount(users[..i], CourseOf, c)
      invariant forall g :: g in byGroup <==> LabelCount(users[..i], GroupOf, g) > 0
      invariant forall g :: g in byGroup ==> byGroup[g] == LabelCount(users[..i], GroupOf, g)
      invariant Distinct(Keys(counter))
      invariant forall s :: CountOf(counter, s) == ExcludedCount(users[..i], s)
      invariant forall t :: t in counter ==> t.count > 0
    {
      var u := users[i];
      assert users[..i + 1][..i] == users[..i];
      if u.notificationsEnabled { enabled := enabled + 1; }
      TallyStep(byCourse, users, i, CourseOf);
      byCourse := AddOne(byCourse, CourseOf(u));
      TallyStep(byGroup, users, i, GroupOf);
      byGroup := AddOne(byGroup, GroupOf(u));
      counter := CountSubjects(counter, order[i], Excluded(u));
      ExcludedStep(users, i);
    }
    assert users[..|users|] == users;
  }

  /** One more user adds one to the count of each subject that user excluded. */
  lemma ExcludedStep(us: seq<User>, i: int)
    requires 0 <= i < |us|
    ensures forall s :: ExcludedCount(us[..i + 1], s) == ExcludedCount(us[..i], s) + (if s in Excluded(us[i]) then 1 else 0)
  {
    assert us[..i + 1][..i] == us[..i];
  }

  /** Adding one more user to a label tally keeps it equal to the count over the users seen. */
  lemma TallyStep(d: map<string, nat>, us: seq<User>, i: int, tag: User -> Option<string>)
    requires 0 <= i < |us|
    requires forall c :: c in d <==> LabelCount(us[..i], tag, c) > 0
    requires forall c :: c in d ==> d[c] == LabelCount(us[..i], tag, c)
    ensures var r := AddOne(d, tag(us[i]));
      (forall c :: c in r <==> LabelCount(us[..i + 1], tag, c) > 0) &&
      (forall c :: c in r ==> r[c] == LabelCount(us[..i + 1], tag, c))
  {
    assert us[..i + 1][..i] == us[..i];
  }

  /** The kept entries carry each subject's true count. */
  lemma TopIsCounted(counter: seq<Tally>, users: seq<User>)
    requires Distinct(Keys(counter))
    requires forall s :: CountOf(counter, s) == ExcludedCount(users, s)
    requires forall t :: t in counter ==> t.count > 0
    ensures forall t :: t in MostCommon(counter, TopExcludedSize) ==> t.count == ExcludedCount(users, t.key) && t.count > 0
  {
    forall t | t in MostCommon(counter, TopExcludedSize) ensures t.count == ExcludedCount(users, t.key) && t.count > 0 {
      assert t in multiset(counter);
      var k :| 0 <= k < |counter| && counter[k] == t;
      CountOfAt(counter, k);
    }
  }

  /** A subject missing from the kept entries was excluded no more often than any kept one. */
  lemma TopDominates(counter: seq<Tally>, users: seq<User>)
    requires Distinct(Keys(counter))
    requires forall s :: CountOf(counter, s) == ExcludedCount(users, s)
    ensures var top := MostCommon(counter, TopExcludedSize);
      forall t, s :: t in top && s !in Keys(top) ==> ExcludedCount(users, s) <= t.count
  {
    var top := MostCommon(counter, TopExcludedSize);
    forall t, s | t in top && s !in Keys(top) ensures ExcludedCount(users, s) <= t.count {
      if CountOf(counter, s) > 0 {
        var k :| 0 <= k < |counter| && Keys(counter)[k] == s;
        CountOfAt(counter, k);
        MostCommonDominates(counter, TopExcludedSize, counter[k]);
      }
    }
  }

  /** `d[key] = d.get(key, 0) + 1` when the tag is present. */
  function AddOne(d: map<string, nat>, tag: Option<string>): (r: map<string, nat>)
    ensures forall c :: c in r <==> c in d || tag == Some(c)
    ensures forall c :: c in r ==> r[c] == (if c in d then d[c] else 0) + (if tag == Some(c) then 1 else 0)
  {
    if tag.None? then d
    else d[tag.value := (if tag.value in d then d[tag.value] else 0) + 1]
  }

  /** The inner loop: bump every subject of one user's excluded set, in iteration order. */
  method CountSubjects(c: seq<Tally>, xs: seq<string>, s: set<string>) returns (r: seq<Tally>)
    requires Distinct(Keys(c)) && Enumerates(xs, s)
    requires forall t :: t in c ==> t.count > 0
    ensures Distinct(Keys(r))
    ensures forall x :: CountOf(r, x) == CountOf(c, x) + (if x in s then 1 else 0)
    ensures forall t :: t in r ==> t.count > 0
  {
    r := c;
    for j := 0 to |xs|
      invariant Distinct(Keys(r))
      invariant forall x :: CountOf(r, x) == CountOf(c, x) + (if x in xs[..j] then 1 else 0)
      invariant forall t :: t in r ==> t.count > 0
    {
      PrefixStep(xs, j);
      r := Bump(r, xs[j]);
    }
    assert xs[..|xs|] == xs;
  }

  /** Growing a prefix of a duplicate-free list by one adds exactly one new element. */
  lemma PrefixStep(xs: seq<string>, j: nat)
    requires Distinct(xs) && j < |xs|
    ensures xs[j] !in xs[..j]
    ensures forall x :: x in xs[..j + 1] <==> x in xs[..j] || x == xs[j]
  {
    assert xs[..j + 1] == xs[..j] + [xs[j]];
  }
}

=== FILE: text.dfy ===
/**
 * Character classes and string helpers shared by the whole model: the
 * whitespace set of Python's `str.isspace()`, trimming, prefix tests, lower
 * casing, splitting, decimal rendering and Python's `int()` parsing.
 */
module Text {
  import opened Optional

  /** Python's notion of whitespace (`str.isspace()`, the `\s` class and `strip()`). */
  predicate IsSpace(c: char) {
    || c == ' '
    || ('\U{9}' <= c <= '\U{D}')
    || ('\U{1C}' <= c <= '\U{1F}')
    || c == '\U{85}' || c == '\U{A0}' || c == '\U{1680}'
    || ('\U{2000}' <= c <= '\U{200A}')
    || c == '\U{2028}' || c == '\U{2029}' || c == '\U{202F}' || c == '\U{205F}' || c == '\U{3000}'
  }

  predicate IsAsciiDigit(c: char) {
    '0' <= c <= '9'
  }

  /** Python truthiness of an optional string: present and non-empty. */
  predicate Truthy(o: Option<string>) {
    o.Some? && o.value != ""
  }

  predicate StartsWith(s: string, prefix: string) {
    |prefix| <= |s| && s[..|prefix|] == prefix
  }

  predicate EndsWith(s: string, suffix: string) {
    |suffix| <= |s| && s[|s| - |suffix|..] == suffix
  }

  /** `s.lstrip(chars)`: drop the longest prefix whose characters all satisfy `drop`. */
  function TrimLeft(s: string, drop: char -> bool): (r: string)
    ensures |r| <= |s| && r == s[|s| - |r|..]
    ensures forall i :: 0 <= i < |s| - |r| ==> drop(s[i])
    ensures r == [] || !drop(r[0])
  {
    if s == [] || !drop(s[0]) then s else TrimLeft(s[1..], drop)
  }

  /** `s.rstrip(chars)`: drop the longest suffix whose characters all satisfy `drop`. */
  function TrimRight(s: string, drop: char -> bool): (r: string)
    ensures |r| <= |s| && r == s[..|r|]
    ensures forall i :: |r| <= i < |s| ==> drop(s[i])
    ensures r == [] || !drop(r[|r| - 1])
  {
    if s == [] || !drop(s[|s| - 1]) then s else TrimRight(s[..|s| - 1], drop)
  }

  /** Python's `s.strip()` with no argument. */
  function Strip(s: string): (r: string)
    ensures r == [] || (!IsSpace(r[0]) && !IsSpace(r[|r| - 1]))
  {
    TrimRight(TrimLeft(s, IsSpace), IsSpace)
  }

  /** A string free of whitespace is its own strip. */
  lemma StripNoSpace(s: string)
    requires forall i :: 0 <= i < |s| ==> !IsSpace(s[i])
    ensures Strip(s) == s
  {
    if s != [] {
      assert !IsSpace(s[0]) && !IsSpace(s[|s| - 1]);
      StripKeeps(s);
    }
  }

  /** A string that neither starts nor ends with whitespace is its own strip. */
  lemma StripKeeps(s: string)
    requires s != [] && !IsSpace(s[0]) && !IsSpace(s[|s| - 1])
    ensures Strip(s) == s
  {
    assert TrimLeft(s, IsSpace) == s;
  }

  /** `str.lower()` on the Latin and Cyrillic capitals; other characters are kept. */
  function LowerChar(c: char): (r: char)
    ensures 'A' <= c <= 'Z' ==> 'a' <= r <= 'z'
    ensures '\U{0410}' <= c <= '\U{042F}' ==> '\U{0430}' <= r <= '\U{044F}'
  {
    if 'A' <= c <= 'Z' then (c as int + 32) as char
    else if '\U{0410}' <= c <= '\U{042F}' then (c as int + 32) as char
    else if '\U{0400}' <= c <= '\U{040F}' then (c as int + 80) as char
    else c
  }

  function Lower(s: string): (r: string)
    ensures |r| == |s|
    ensures forall i :: 0 <= i < |s| ==> r[i] == LowerChar(s[i])
  {
    seq(|s|, i requires 0 <= i < |s| => LowerChar(s[i]))
  }

  /** Python's `s.split(sep)` for a one-character separator: never empty, no part contains `sep`. */
  function Split(s: string, sep: char): (r: seq<string>)
    ensures |r| >= 1
    ensures forall i :: 0 <= i < |r| ==> sep !in r[i]
    decreases |s|
  {
    if s == [] then [""]
    else if s[0] == sep then [""] + Split(s[1..], sep)
    else
      var rest := Split(s[1..], sep);
      [[s[0]] + rest[0]] + rest[1..]
  }

  /** Splitting distributes over a separator: `(a + sep + b).split(sep) == a.split(sep) + b.split(sep)`. */
  lemma {:induction false} SplitAppend(a: string, sep: char, b: string)
    ensures Split(a + [sep] + b, sep) == Split(a, sep) + Split(b, sep)
    decreases |a|
  {
    if a == [] {
      assert a + [sep] + b == [sep] + b;
      assert ([sep] + b)[1..] == b;
    } else {
      var s := a + [sep] + b;
      assert s[0] == a[0];
      assert s[1..] == a[1..] + [sep] + b;
      SplitAppend(a[1..], sep, b);
    }
  }

  /** A string without the separator splits into itself. */
  lemma {:induction false} SplitNoSep(s: string, sep: char)
    requires sep !in s
    ensures Split(s, sep) == [s]
    decreases |s|
  {
    if s != [] {
      assert sep !in s[1..];
      SplitNoSep(s[1..], sep);
      assert [s[0]] + s[1..] == s;
    }
  }

  /** `sep.join(parts)`. */
  function Join(parts: seq<string>, sep: string): string
  {
    if |parts| == 0 then ""
    else if |parts| == 1 then parts[0]
    else parts[0] + sep + Join(parts[1..], sep)
  }

  // ----- decimal digits -----

  function DigitChar(d: int): (c: char)
    requires 0 <= d < 10
    ensures IsAsciiDigit(c)
  {
    ('0' as int + d) as char
  }

  function DigitValue(c: char): (d: int)
    requires IsAsciiDigit(c)
    ensures 0 <= d < 10
  {
    c as int - '0' as int
  }

  predicate AllDigits(s: string) {
    forall i :: 0 <= i < |s| ==> IsAsciiDigit(s[i])
  }

  /** The value of a string of decimal digits, most significant first. */
  function DigitsValue(s: string): (v: nat)
    requires AllDigits(s)
  {
    if s == [] then 0 else DigitsValue(s[..|s| - 1]) * 10 + DigitValue(s[|s| - 1])
  }

  /** `str(n)` for a natural number: digits only, no leading zero. */
  function NatToString(n: nat): (r: string)
    ensures |r| >= 1 && AllDigits(r)
    ensures r[0] != '0' || n == 0
  {
    if n < 10 then [DigitChar(n)] else NatToString(n / 10) + [DigitChar(n % 10)]
  }

  /** `str(n)` for any integer. */
  function IntToString(n: int): (r: string)
    ensures |r| >= 1
  {
    if n < 0 then "-" + NatToString(-n) else NatToString(n)
  }

  lemma {:induction false} NatToStringValue(n: nat)
    ensures DigitsValue(NatToString(n)) == n
  {
    if n >= 10 {
      var s := NatToString(n);
      assert s[..|s| - 1] == NatToString(n / 10);
      NatToStringValue(n / 10);
    }
  }

  /** Distinct integers render to distinct decimal strings: `int()` reads each one back. */
  lemma IntToStringInjective(a: int, b: int)
    requires IntToString(a) == IntToString(b)
    ensures a == b
  {
    ParseIntToString(a);
    ParseIntToString(b);
  }

  lemma DigitsValuePair(a: char, b: char)
    requires IsAsciiDigit(a) && IsAsciiDigit(b)
    ensures DigitsValue([a, b]) == DigitValue(a) * 10 + DigitValue(b)
  {
    assert [a, b][..1] == [a];
    assert [a][..0] == [];
    assert DigitsValue([a]) == DigitValue(a);
  }

  /** Two-digit zero-padded rendering, as `%02d`, `%H` or `%M`. */
  function Pad2(n: int): (r: string)
    requires 0 <= n < 100
    ensures |r| == 2 && AllDigits(r)
    ensures DigitsValue(r) == n
  {
    DigitsValuePair(DigitChar(n / 10), DigitChar(n % 10));
    [DigitChar(n / 10), DigitChar(n % 10)]
  }

  // ----- Python int() -----

  /** The body of a base-10 literal accepted by `int()`: digits, single `_` only between digits. */
  predicate IsDigitRun(s: string) {
    && |s| > 0
    && IsAsciiDigit(s[0]) && IsAsciiDigit(s[|s| - 1])
    && (forall i :: 0 <= i < |s| ==> IsAsciiDigit(s[i]) || s[i] == '_')
    && (forall i, j :: 0 <= i < |s| && 0 <= j < |s| && j == i + 1 ==> !(s[i] == '_' && s[j] == '_'))
  }

  function DropUnderscores(s: string): (r: string)
    requires forall i :: 0 <= i < |s| ==> IsAsciiDigit(s[i]) || s[i] == '_'
    ensures AllDigits(r)
    ensures AllDigits(s) ==> r == s
  {
    if s == [] then []
    else if s[0] == '_' then DropUnderscores(s[1..])
    else [s[0]] + DropUnderscores(s[1..])
  }

  /** `int()` after stripping: an optional sign and a digit run; anything else is None. */
  function ParseStripped(t: string): Option<int>
  {
    if |t| > 0 && (t[0] == '+' || t[0] == '-') then
      var body := t[1..];
      if IsDigitRun(body) then
        var v: int := DigitsValue(DropUnderscores(body));
        Some(if t[0] == '-' then -v else v)
      else None
    else if IsDigitRun(t) then Some(DigitsValue(DropUnderscores(t)))
    else None
  }

  /**
   * Python's `int(s)` on a string, restricted to ASCII digits: surrounding
   * whitespace, an optional sign and a run of `0`-`9` with single underscores
   * gives Some; anything else gives None, which covers every input on which
   * `int()` raises. `int()` also accepts other Unicode decimal digits (the
   * full-width `１２`, say), which give None here.
   */
  function ParseInt(s: string): Option<int>
  {
    ParseStripped(Strip(s))
  }

  lemma DigitsStrip(s: string)
    requires AllDigits(s)
    ensures Strip(s) == s
  {
    if s != [] {
      DigitNotSpace(s[0]);
      DigitNotSpace(s[|s| - 1]);
      StripKeeps(s);
    }
  }

  lemma DigitNotSpace(c: char)
    requires IsAsciiDigit(c)
    ensures !IsSpace(c)
  {
  }

  lemma DigitsAreRun(s: string)
    requires |s| > 0 && AllDigits(s)
    ensures IsDigitRun(s) && DropUnderscores(s) == s
  {
  }

  /** A plain run of digits parses to its value. */
  lemma ParseDigits(s: string)
    requires |s| > 0 && AllDigits(s)
    ensures ParseInt(s) == Some(DigitsValue(s))
  {
    DigitsStrip(s);
    DigitsAreRun(s);
    assert !(s[0] == '+' || s[0] == '-');
  }

  /** Two digits parse to their two-digit value. */
  lemma ParsePair(a: char, b: char)
    requires IsAsciiDigit(a) && IsAsciiDigit(b)
    ensures ParseInt([a, b]) == Some(DigitValue(a) * 10 + DigitValue(b))
  {
    DigitsValuePair(a, b);
    ParseDigits([a, b]);
  }

  lemma ParseStrippedNeg(t: string)
    requires |t| > 1 && t[0] == '-' && AllDigits(t[1..])
    ensures ParseStripped(t) == Some(-(DigitsValue(t[1..]) as int))
  {
    DigitsAreRun(t[1..]);
  }

  /** A minus sign followed by a run of digits parses to the negated value. */
  lemma ParseNeg(s: string)
    requires |s| > 1 && s[0] == '-' && AllDigits(s[1..])
    ensures ParseInt(s) == Some(-(DigitsValue(s[1..]) as int))
  {
    assert s[|s| - 1] == s[1..][|s| - 2];
    DigitNotSpace(s[|s| - 1]);
    StripKeeps(s);
    ParseStrippedNeg(s);
  }

  /** `int("%02d" % n) == n`. */
  lemma ParsePad2(n: int)
    requires 0 <= n < 100
    ensures ParseInt(Pad2(n)) == Some(n)
  {
    ParseDigits(Pad2(n));
  }

  lemma ParseNegToString(n: int)
    requires n < 0
    ensures ParseInt(IntToString(n)) == Some(n)
  {
    var m: nat := -n;
    var s := IntToString(n);
    assert s[1..] == NatToString(m);
    NatToStringValue(m);
    ParseNeg(s);
  }

  /** `int(str(n)) == n`. */
  lemma ParseIntToString(n: int)
    ensures ParseInt(IntToString(n)) == Some(n)
  {
    if n < 0 {
      ParseNegToString(n);
    } else {
      ParseDigits(NatToString(n));
      NatToStringValue(n);
    }
  }
}

=== FILE: time_picker.dfy ===
/**
 * The inline time picker: a keyboard of hour and minute arrows with confirm
 * and cancel buttons, and the callback handler that moves the picked time.
 */
module TimePicker {
  import opened Text
  import opened Clock
  import opened Arith

  const DefaultMinuteStep: int := 5
  const DefaultPrefix: string := "tp"
  const MinutesPerDay: int := 1440

  /** A picker's settings: the callback prefix, the minute step and whether it offers cancel. */
  datatype Picker = Picker(prefix: string, minuteStep: int, showCancel: bool)

  const Default: Picker := Picker(DefaultPrefix, DefaultMinuteStep, true)

  /** What the handler tells the caller to do. */
  datatype Action = Update | Confirm | Cancel | Noop

  /** The minutes since midnight a clock time shows (seconds ignored). */
  function MinuteOfDay(t: Time): (r: int)
    ensures 0 <= r < MinutesPerDay
  {
    t.hour * 60 + t.minute
  }

  // ----- arithmetic on time of day -----

  /** The hour borrowed by a negative minute total is the floor of its division by 60. */
  lemma BorrowIsFloor(tm: int)
    requires tm < 0
    ensures -tm / 60 + (if -tm % 60 != 0 then 1 else 0) == -(tm / 60)
  {
    var q, r := tm / 60, tm % 60;
    assert tm == 60 * q + r;
    if r == 0 {
      DivModUnique(-tm, 60, -q, 0);
    } else {
      DivModUnique(-tm, 60, -q - 1, 60 - r);
    }
  }

  /**
   * `_adjust_time`: shift the hour by `dh` modulo 24 and the minutes by `dm`,
   * carrying whole hours into the hour (forward or back); seconds become 0.
   */
  function AdjustTime(cur: Time, dh: int, dm: int): (r: Time)
    ensures r.second == 0
  {
    var h := (cur.hour + dh) % 24;
    var totalM := cur.minute + dm;
    var h' :=
      if totalM >= 60 then (h + totalM / 60) % 24
      else if totalM < 0 then (h - (-totalM / 60 + (if -totalM % 60 != 0 then 1 else 0))) % 24
      else h;
    ClockTime(h', totalM % 60, 0)
  }

  /** The result is the current time plus `dh` hours and `dm` minutes, around a 24-hour dial. */
  lemma AdjustTimeShifts(cur: Time, dh: int, dm: int)
    ensures MinuteOfDay(AdjustTime(cur, dh, dm)) == (MinuteOfDay(cur) + 60 * dh + dm) % MinutesPerDay
  {
    var a := cur.hour + dh;
    var tm := cur.minute + dm;
    var q := tm / 60;
    var r := AdjustTime(cur, dh, dm);
    // whatever the branch, the new hour is (a + q) mod 24
    assert a % 24 == a - 24 * (a / 24);
    if tm >= 60 {
      ModShift(a + q, 24, -(a / 24));
      assert r.hour == (a + q) % 24;
    } else if tm < 0 {
      BorrowIsFloor(tm);
      ModShift(a + q, 24, -(a / 24));
      assert r.hour == (a + q) % 24;
    } else {
      DivModUnique(tm, 60, 0, tm);
      assert r.hour == (a + q) % 24;
    }
    var Q := (a + q) / 24;
    assert a + q == 24 * Q + r.hour;
    assert tm == 60 * q + r.minute;
    assert 60 * a + tm == 1440 * Q + (60 * r.hour + r.minute);
    assert MinuteOfDay(cur) + 60 * dh + dm == 60 * a + tm;
    DivModUnique(60 * a + tm, 1440, Q, 60 * r.hour + r.minute);
  }

  /** A time with zero seconds is determined by its minute of the day. */
  lemma SameMinuteSameTime(s: Time, t: Time)
    requires s.second == 0 && t.second == 0
    requires MinuteOfDay(s) == MinuteOfDay(t)
    ensures s == t
  {
    DivModUnique(MinuteOfDay(s), 60, s.hour, s.minute);
    DivModUnique(MinuteOfDay(t), 60, t.hour, t.minute);
  }

  /** Moving forward and then back by the same amount restores a time with zero seconds. */
  lemma AdjustTimeUndo(cur: Time, dh: int, dm: int)
    requires cur.second == 0
    ensures AdjustTime(AdjustTime(cur, dh, dm), -dh, -dm) == cur
  {
    var mid := AdjustTime(cur, dh, dm);
    AdjustTimeShifts(cur, dh, dm);
    AdjustTimeShifts(mid, -dh, -dm);
    var x := MinuteOfDay(cur) + 60 * dh + dm;
    var k := x / MinutesPerDay;
    assert MinuteOfDay(mid) == x - MinutesPerDay * k;
    assert MinuteOfDay(mid) + 60 * (-dh) + (-dm) == MinuteOfDay(cur) + MinutesPerDay * (-k);
    ModShift(MinuteOfDay(cur), MinutesPerDay, -k);
    DivModUnique(MinuteOfDay(cur), MinutesPerDay, 0, MinuteOfDay(cur));
    SameMinuteSameTime(AdjustTime(mid, -dh, -dm), cur);
  }

  // ----- callbacks -----

  /** The index of the first `c` in `s`, if any: what `split(c, 1)` cuts at. */
  function FirstIndex(s: string, c: char): (r: int)
    ensures -1 <= r < |s|
    ensures r == -1 <==> c !in s
    ensures r >= 0 ==> s[r] == c && c !in s[..r]
  {
    if s == [] then -1
    else if s[0] == c then 0
    else
      var k := FirstIndex(s[1..], c);
      if k == -1 then -1 else (assert s[..k + 1] == [s[0]] + s[1..][..k]; k + 1)
  }

  /** `callback_data.split(":", 1)[1]` for data known to hold a colon. */
  function ActionOf(data: string): (r: string)
    requires ':' in data
    ensures exists k :: 0 <= k < |data| && data[k] == ':' && ':' !in data[..k] && r == data[k + 1..]
  {
    var k := FirstIndex(data, ':');
    data[k + 1..]
  }

  /** `TimePicker.handle_callback`. */
  function HandleCallback(p: Picker, data: string, cur: Time): (r: (Time, Action))
    ensures !StartsWith(data, p.prefix + ":") ==> r == (cur, Noop)
    ensures r.1 == Update || r.0 == cur
    ensures r.1 == Update ==> r.0.second == 0
  {
    if !StartsWith(data, p.prefix + ":") then (cur, Noop)
    else
      assert data[|p.prefix|] == ':';
      var action := ActionOf(data);
      if action == "hour_up" then (AdjustTime(cur, 1, 0), Update)
      else if action == "hour_down" then (AdjustTime(cur, -1, 0), Update)
      else if action == "min_up" then (AdjustTime(cur, 0, p.minuteStep), Update)
      else if action == "min_down" then (AdjustTime(cur, 0, -p.minuteStep), Update)
      else if action == "confirm" then (cur, Confirm)
      else if action == "cancel" then (cur, Cancel)
      else (cur, Noop)
  }

  /** The callback data a button of picker `p` carries. */
  function Data(p: Picker, action: string): string {
    p.prefix + ":" + action
  }

  /** With a colon-free prefix, the action read back from a button's data is the one written in. */
  lemma DataRoundTrip(p: Picker, action: string)
    requires ':' !in p.prefix
    ensures StartsWith(Data(p, action), p.prefix + ":")
    ensures ':' in Data(p, action) && ActionOf(Data(p, action)) == action
  {
    var d := Data(p, action);
    assert d[|p.prefix|] == ':';
    assert d[..|p.prefix|] == p.prefix;
    var k := FirstIndex(d, ':');
    assert d[k + 1..] == action;
  }

  /** The picker's own action for a button of its own keyboard. */
  lemma HandleOwnButton(p: Picker, action: string, cur: Time)
    requires ':' !in p.prefix
    ensures var r := HandleCallback(p, Data(p, action), cur);
      && (action == "hour_up" ==> r == (AdjustTime(cur, 1, 0), Update))
      && (action == "hour_down" ==> r == (AdjustTime(cur, -1, 0), Update))
      && (action == "min_up" ==> r == (AdjustTime(cur, 0, p.minuteStep), Update))
      && (action == "min_down" ==> r == (AdjustTime(cur, 0, -p.minuteStep), Update))
      && (action == "confirm" ==> r == (cur, Confirm))
      && (action == "cancel" ==> r == (cur, Cancel))
      && (action !in {"hour_up", "hour_down", "min_up", "min_down", "confirm", "cancel"} ==> r == (cur, Noop))
  {
    DataRoundTrip(p, action);
  }

  /** `hour_up` moves the hour one step around the dial and keeps the minutes. */
  lemma HourUpAdvancesHour(p: Picker, cur: Time)
    requires ':' !in p.prefix
    ensures var r := HandleCallback(p, Data(p, "hour_up"), cur).0;
      r.hour == (cur.hour + 1) % 24 && r.minute == cur.minute
  {
    HandleOwnButton(p, "hour_up", cur);
    DivModUnique(cur.minute, 60, 0, cur.minute);
  }

  /** `hour_up` followed by `hour_down` restores the time. */
  lemma HourUpThenDown(p: Picker, cur: Time)
    requires ':' !in p.prefix && cur.second == 0
    ensures HandleCallback(p, Data(p, "hour_down"), HandleCallback(p, Data(p, "hour_up"), cur).0) == (cur, Update)
  {
    HandleOwnButton(p, "hour_up", cur);
    HandleOwnButton(p, "hour_down", AdjustTime(cur, 1, 0));
    AdjustTimeUndo(cur, 1, 0);
  }

  /** `min_up` followed by `min_down` restores the time. */
  lemma MinUpThenDown(p: Picker, cur: Time)
    requires ':' !in p.prefix && cur.second == 0
    ensures HandleCallback(p, Data(p, "min_down"), HandleCallback(p, Data(p, "min_up"), cur).0) == (cur, Update)
  {
    HandleOwnButton(p, "min_up", cur);
    HandleOwnButton(p, "min_down", AdjustTime(cur, 0, p.minuteStep));
    AdjustTimeUndo(cur, 0, p.minuteStep);
  }

  // ----- the keyboard -----

  datatype Button = Button(text: string, data: string)

  /** `build_keyboard`: hour row, minute row, then confirm and, if shown, cancel. */
  function Keyboard(p: Picker, cur: Time): (rows: seq<seq<Button>>)
    ensures |rows| == 3 && |rows[0]| == 3 && |rows[1]| == 3
    ensures |rows[2]| == (if p.showCancel then 2 else 1)
  {
    [ [Button("\U{2B05}\U{FE0F}", Data(p, "hour_down")), Button(Pad2(cur.hour), Data(p, "hour")), Button("\U{27A1}\U{FE0F}", Data(p, "hour_up"))],
      [Button("\U{2B05}\U{FE0F}", Data(p, "min_down")), Button(Pad2(cur.minute), Data(p, "min")), Button("\U{27A1}\U{FE0F}", Data(p, "min_up"))],
      [Button("\U{2705} Подтвердить", Data(p, "confirm"))]
        + (if p.showCancel then [Button("\U{274C} Отмена", Data(p, "cancel"))] else []) ]
  }

  /**
   * Pressing the keyboard's buttons does what they show: the arrows move the
   * time, the middle buttons are inert, the last row confirms or cancels;
   * the middle buttons show the current hour and minute.
   */
  lemma KeyboardButtonsAct(p: Picker, cur: Time)
    requires ':' !in p.prefix
    ensures var kb := Keyboard(p, cur);
      && HandleCallback(p, kb[0][0].data, cur) == (AdjustTime(cur, -1, 0), Update)
      && HandleCallback(p, kb[0][1].data, cur) == (cur, Noop)
      && HandleCallback(p, kb[0][2].data, cur) == (AdjustTime(cur, 1, 0), Update)
      && HandleCallback(p, kb[1][0].data, cur) == (AdjustTime(cur, 0, -p.minuteStep), Update)
      && HandleCallback(p, kb[1][1].data, cur) == (cur, Noop)
      && HandleCallback(p, kb[1][2].data, cur) == (AdjustTime(cur, 0, p.minuteStep), Update)
      && HandleCallback(p, kb[2][0].data, cur) == (cur, Confirm)
      && (p.showCancel ==> HandleCallback(p, kb[2][1].data, cur) == (cur, Cancel))
      && DigitsValue(kb[0][1].text) == cur.hour && DigitsValue(kb[1][1].text) == cur.minute
  {
    HandleOwnButton(p, "hour_down", cur);
    HandleOwnButton(p, "hour", cur);
    HandleOwnButton(p, "hour_up", cur);
    HandleOwnButton(p, "min_down", cur);
    HandleOwnButton(p, "min", cur);
    HandleOwnButton(p, "min_up", cur);
    HandleOwnButton(p, "confirm", cur);
    HandleOwnButton(p, "cancel", cur);
  }
}

=== FILE: users.dfy ===
/**
 * The stored user profile: identity fields from Telegram, study course and
 * group, excluded subjects, role and delivery preferences.
 */
module Users {
  import opened Optional
  import opened Text
  import opened Clock
  import opened Mappings

  datatype User = User(
    tgId: int,
    username: Option<string>,
    firstName: Option<string>,
    lastName: Option<string>,
    isBot: Option<bool>,
    course: Option<StudyCourse>,
    group: Option<StudyGroup>,
    excluded: Option<set<string>>,
    role: UserType,
    notificationsEnabled: bool,
    mode: Option<ScheduleMode>,
    sendTime: Option<Time>,
    windowStart: Option<Time>,
    windowEnd: Option<Time>)

  /** A profile built from the Telegram identity alone, every other field at its default. */
  function NewUser(tgId: int, username: Option<string>, firstName: Option<string>,
                   lastName: Option<string>, isBot: Option<bool>): (u: User)
    ensures u.tgId == tgId && u.username == username && u.firstName == firstName
    ensures u.lastName == lastName && u.isBot == isBot
    ensures u.notificationsEnabled && u.role == RegularUser
    ensures u.course.None? && u.group.None?
    ensures u.mode.None? && u.sendTime.None? && u.windowStart.None? && u.windowEnd.None?
    ensures u.excluded == Some({})
  {
    User(tgId, username, firstName, lastName, isBot, None, None, Some({}), RegularUser,
         true, None, None, None, None)
  }

  /** The excluded subjects, an absent set read as empty (as every consumer does). */
  function Excluded(u: User): (r: set<string>)
    ensures u.excluded.Some? ==> r == u.excluded.value
    ensures u.excluded.None? ==> r == {}
  {
    u.excluded.GetOr({})
  }

  /**
   * `display_name`: "first last" when both names are non-empty, else the first
   * name, else "@username", else "User " and the Telegram id.
   */
  function DisplayName(u: User): (r: string)
    ensures |r| > 0
    ensures Truthy(u.firstName) ==> StartsWith(r, u.firstName.value)
    ensures Truthy(u.firstName) && Truthy(u.lastName) ==> r == u.firstName.value + " " + u.lastName.value
    ensures Truthy(u.firstName) && !Truthy(u.lastName) ==> r == u.firstName.value
    ensures !Truthy(u.firstName) && Truthy(u.username) ==> r == "@" + u.username.value
    ensures !Truthy(u.firstName) && !Truthy(u.username) ==> StartsWith(r, "User ")
  {
    if Truthy(u.firstName) && Truthy(u.lastName) then u.firstName.value + " " + u.lastName.value
    else if Truthy(u.firstName) then u.firstName.value
    else if Truthy(u.username) then "@" + u.username.value
    else "User " + IntToString(u.tgId)
  }

  /** When a user has neither a first name nor a username, the displayed name spells the Telegram id. */
  lemma DisplayNameFallbackSpellsId(u: User)
    requires !Truthy(u.firstName) && !Truthy(u.username)
    ensures ParseInt(DisplayName(u)[5..]) == Some(u.tgId)
  {
    var r := DisplayName(u);
    assert r[5..] == IntToString(u.tgId);
    ParseIntToString(u.tgId);
  }

  /** A partial profile change: every field optional. */
  datatype UserUpdate = UserUpdate(
    course: Option<StudyCourse>,
    group: Option<StudyGroup>,
    excluded: Option<set<string>>,
    role: Option<UserType>,
    notificationsEnabled: Option<bool>,
    mode: Option<ScheduleMode>,
    sendTime: Option<Time>,
    windowStart: Option<Time>,
    windowEnd: Option<Time>)

  /** An update built with no arguments: every field at its default, None. */
  function EmptyUpdate(): (r: UserUpdate)
    ensures r.course.None? && r.group.None? && r.excluded.None? && r.role.None?
    ensures r.notificationsEnabled.None? && r.mode.None?
    ensures r.sendTime.None? && r.windowStart.None? && r.windowEnd.None?
  {
    UserUpdate(None, None, None, None, None, None, None, None, None)
  }
}
